=== FILE: README.md ===
# FarmXChain in Dafny

FarmXChain is a farm-to-buyer marketplace. Farmers list crops. Buyers (retailers and consumers) order them and pay from an in-app wallet. Distributors carry accepted orders and earn a delivery fee. Administrators approve accounts and farmer profiles. Custody events are also written to a blockchain, or to a simulation of one when no node is reachable.

This project models two halves of the system.

- **The Spring service layer.** It is a state machine over one database, the `World`. The `World` holds the users, farmer profiles, crops, orders and shipments tables, the append-only shipment log, and the identity sequence.
  - Every service call is `@Transactional`. Each one is modelled as a pure function from a world to a `Tx`: the world after the call, plus what the call returned or threw.
  - A call that throws leaves the world it started from.
  - `Schema.Wf` is the key and foreign-key invariant that every call preserves.
  - `Ledger.Total` is the sum of all wallet balances. The model states how each call changes it.
- **The browser's decision logic.** This covers:
  - session validity and the route guard;
  - the order tabs and action buttons;
  - the distributor dashboard, the earnings page and the admin search;
  - the tracking timeline and the user-management actions;
  - client-side file validation.

Some things the code uses are not visible in the model, so they become parameters:

- **Hashing:** SHA-256 with Base64 (`digest`) and SHA-256 with hex (`hex`).
- **Password encoding and checking:** `encode` and `matches`.
- **JWT:** issuing and decoding tokens.
- **The blockchain node:** `Node`. When it answers, its transaction hash is taken as given.
- **Random file ids:** `uuid`.
- **The clock:** `now`, `stamp` and `nanos`.
- **The upload server:** `server`.

Modelling choices:

- Money is `BigDecimal`, modelled as `real`.
- Nullable columns are `Option`s.
- Enum parsing goes through an ASCII upper-casing. This models `Enum.valueOf(s.toUpperCase())`.

Each module follows one source file:

- The backend: `OrderService`, `DistributorService`, `LogisticsService`, `UserService`, `AuthService`, `FarmerService`, `AdminService`, `CropService`, `Blockchain`, `ShipmentLogService`, `AdminController`, `Security`, `ExceptionHandler`, `FileUpload`, `UserEntity`, `Api` and `OrderViews`.
- The frontend: `ClientAuth`, `Routing`, `OrdersPage`, `DistributorDashboardPage`, `EarningsPage`, `AdminOrdersPage`, `DistributorPicker`, `TrackingPage`, `UserManagementPage` and `FileUploadClient`.
- Shared support: `Domain`, `Schema`, `Ledger`, `Tables`, `Seqs`, `Text` and `Wrappers`.

## Model

| member | source | states |
|---|---|---|
| OrderService.OrderTotal | FarmXChain/src/main/java/com/infosys/farmxchain/service/OrderService.java:40-41 | a priced order costs the price per kg times the quantity, an order whose crop has no price costs nothing, and a priced crop with a non-negative quantity never costs a negative amount |
| OrderService.PlaceOrder | FarmXChain/src/main/java/com/infosys/farmxchain/service/OrderService.java:33-59 | it fails exactly when the buyer or crop is missing, the buyer's balance is null, or the balance is below the total, and each of those causes gets its own error. On success it adds one new PENDING order with no distributor, keeps every existing order, and moves no money or stock |
| OrderService.OrdersByBuyer | FarmXChain/src/main/java/com/infosys/farmxchain/service/OrderService.java:61-67 | it fails only for an unknown buyer; otherwise it returns exactly that buyer's orders |
| OrderService.OrdersByFarmer | FarmXChain/src/main/java/com/infosys/farmxchain/service/OrderService.java:69-79 | an unknown user and a user without a farmer profile each fail with their own error. The list holds only orders of that user's profile and every order of it; since `user_id` is unique in the farmers table, that is every order sold under any profile of the user |
| OrderService.Gate | FarmXChain/src/main/java/com/infosys/farmxchain/service/OrderService.java:95-108 | COMPLETED is allowed only to the order's buyer or an ADMIN, and only from DELIVERED. Every other target status is allowed only to the farmer user who sells the order, or an ADMIN |
| OrderService.Accept | FarmXChain/src/main/java/com/infosys/farmxchain/service/OrderService.java:110-153 | accepting succeeds exactly when stock and the buyer's funds cover the order; otherwise nothing changes; total money is conserved either way |
| OrderService.SettleMovesStockAndMoney | FarmXChain/src/main/java/com/infosys/farmxchain/service/OrderService.java:112-142 | an accepted order lowers its crop's stock by exactly the ordered quantity and the stock stays non-negative. It debits the buyer and credits the seller by the same total, reading a missing balance as zero, and leaves every other wallet untouched |
| OrderService.UpdateOrderStatus | FarmXChain/src/main/java/com/infosys/farmxchain/service/OrderService.java:87-157 | it succeeds exactly when the order and caller exist, the gate admits the caller, and an ACCEPTED request can be settled. A refused call changes nothing. Success writes the requested status, touches no other order, moves money and stock only for ACCEPTED, and conserves total money |
| OrderService.AcceptingTwiceChargesTwice | FarmXChain/src/main/java/com/infosys/farmxchain/service/OrderService.java:95-142 | the status update has no check on the order's current status, so a seller who accepts the same order twice deducts the stock twice and charges the buyer twice |
| OrderService.AssignToDistributor | FarmXChain/src/main/java/com/infosys/farmxchain/service/OrderService.java:159-179 | it succeeds exactly when the order is ACCEPTED and the assignee is a DISTRIBUTOR; the order then becomes ASSIGNED to that distributor and nothing else changes |
| DistributorService.AssignedOrders | FarmXChain/src/main/java/com/infosys/farmxchain/service/DistributorService.java:40-51 | it fails for anyone who is not a DISTRIBUTOR; otherwise it returns exactly the orders assigned to the caller |
| DistributorService.AssignedOrdersByStatus | FarmXChain/src/main/java/com/infosys/farmxchain/service/DistributorService.java:56-67 | the same, narrowed to one order status |
| DistributorService.CustodyHash | FarmXChain/src/main/java/com/infosys/farmxchain/service/DistributorService.java:282-298 | the custody hash is "CUSTODY-" followed by 16 upper-case hexadecimal digits |
| DistributorService.CreateShipmentRefusal | FarmXChain/src/main/java/com/infosys/farmxchain/service/DistributorService.java:73-91 | a shipment may be created exactly when the caller is a DISTRIBUTOR, the order is assigned to the caller and is ASSIGNED, and the order has no shipment yet |
| DistributorService.CreateShipment | FarmXChain/src/main/java/com/infosys/farmxchain/service/DistributorService.java:72-130 | a refused call changes nothing. On success there is a new PICKED_UP shipment at the origin, owned by the caller, with the request's origin, destination and transport mode and a custody hash; the shipment ids grow by exactly the new id and every other shipment, crop and farmer is unchanged; its order becomes IN_TRANSIT; exactly one PICKED_UP log entry at the origin is appended; no money moves |
| DistributorService.PickupEffects | FarmXChain/src/main/java/com/infosys/farmxchain/service/DistributorService.java:92-127 | the pickup stores one new shipment under the next id, built from the request, and keeps every existing shipment, crop, farmer and user; only the picked-up order's status changes, to IN_TRANSIT; the log gains one PICKED_UP entry for the new shipment at the origin, and the earlier entries are kept |
| DistributorService.Patch | FarmXChain/src/main/java/com/infosys/farmxchain/service/DistributorService.java:147-156 | a null request field leaves the stored value; a present one replaces it |
| DistributorService.UpdateShipmentStatus | FarmXChain/src/main/java/com/infosys/farmxchain/service/DistributorService.java:135-198 | only the owning distributor may update, and a request for DELIVERED is always refused. A status sent replaces the stored one, and each field the request leaves null, status included, keeps its value. An undelivered shipment stays undelivered. Orders, wallets, crops, farmers and every other shipment are untouched. One log entry is appended, with action LOCATION_UPDATE exactly when a location was sent |
| DistributorService.ReportEffects | FarmXChain/src/main/java/com/infosys/farmxchain/service/DistributorService.java:147-197 | an accepted report patches only the reported shipment: each field sent replaces the stored one and each null field keeps it, while order, owner and custody hash stay. Orders, users, crops, farmers and every other shipment are untouched, and the log gains one entry, a LOCATION_UPDATE exactly when a location was sent, with the request's notes or the default text |
| DistributorService.DeliveryFee | FarmXChain/src/main/java/com/infosys/farmxchain/service/DistributorService.java:233-243 | the fee is exactly 7% of the order total, and there is none when the total is null |
| DistributorService.ConfirmRefusal | FarmXChain/src/main/java/com/infosys/farmxchain/service/DistributorService.java:203-231 | delivery may be confirmed exactly when the caller owns the shipment and it is not yet DELIVERED. A fee-bearing order also needs the distributor's balance to be non-null, since the credit throws on null |
| DistributorService.ConfirmDelivery | FarmXChain/src/main/java/com/infosys/farmxchain/service/DistributorService.java:203-277 | a refused call changes nothing. On success it returns the custody hash and the ids, and total money grows by exactly the delivery fee |
| DistributorService.DeliverEffects | FarmXChain/src/main/java/com/infosys/farmxchain/service/DistributorService.java:220-270 | after a confirmed delivery, the shipment and its order are both DELIVERED and the custody hash is sealed on the shipment. The fee is recorded on the order and credited to that distributor alone; with no fee no wallet changes. One DELIVERED log entry at the destination is appended |
| DistributorService.ConfirmOnce | FarmXChain/src/main/java/com/infosys/farmxchain/service/DistributorService.java:211-218 | an immediate second confirmation of the same shipment is refused as already delivered. This alone does not make the fee a one-off: see `ReopenedDeliveryPaysTwice` |
| DistributorService.ReopenedDeliveryPaysTwice | FarmXChain/src/main/java/com/infosys/farmxchain/service/DistributorService.java:157-164 | as written, a confirmed shipment can be reported IN_TRANSIT again, and confirming it once more succeeds and pays the delivery fee a second time |
| DistributorService.UpdateShipmentStatusGuarded | FarmXChain/src/main/java/com/infosys/farmxchain/service/DistributorService.java:135-198 | the corrected status report refuses a shipment that is already DELIVERED and otherwise behaves as written; whether a shipment is DELIVERED never changes through it |
| DistributorService.FeePaidOnce | FarmXChain/src/main/java/com/infosys/farmxchain/service/DistributorService.java:203-277 | with both status updates guarded, no report can reopen a confirmed shipment, a second confirmation is refused, and the wallets have gained exactly one fee |
| LogisticsService.StartRefusal | FarmXChain/src/main/java/com/infosys/farmxchain/service/LogisticsService.java:32-42 | the farmer path may start a shipment exactly when the caller is the order's farmer user, the order is ACCEPTED, and the order has no shipment yet |
| LogisticsService.CreateShipment | FarmXChain/src/main/java/com/infosys/farmxchain/service/LogisticsService.java:32-72 | the new shipment is IN_TRANSIT at the farm location. The order's status is not changed. Exactly one PICKED_UP log entry at the farm is appended |
| LogisticsService.UpdateAction | FarmXChain/src/main/java/com/infosys/farmxchain/service/LogisticsService.java:94-100 | the log action is DELIVERED exactly when the new status is DELIVERED, and STATUS_UPDATE otherwise |
| LogisticsService.UpdateShipment | FarmXChain/src/main/java/com/infosys/farmxchain/service/LogisticsService.java:74-103 | it fails only for an unknown shipment. Otherwise location, readings and status are overwritten unconditionally, the order becomes DELIVERED exactly when the new status is DELIVERED, users, crops, farmers and every other shipment are untouched, and one log entry is appended |
| LogisticsService.UpdateShipmentGuarded | FarmXChain/src/main/java/com/infosys/farmxchain/service/LogisticsService.java:74-103 | the corrected farmer update refuses a shipment that is already DELIVERED, which then stays DELIVERED, and otherwise behaves as written |
| LogisticsService.ShipmentByOrder | FarmXChain/src/main/java/com/infosys/farmxchain/service/LogisticsService.java:105-113 | a missing order and a missing shipment each fail with their own error; an existing order that has a shipment is always found, whoever started it; a result is a stored shipment of that order |
| LogisticsService.StartedIsTracked | FarmXChain/src/main/java/com/infosys/farmxchain/service/LogisticsService.java:105-113 | a shipment just started for an order is the one the order lookup then finds |
| ShipmentLogService.CreateLogAppends | FarmXChain/src/main/java/com/infosys/farmxchain/service/ShipmentLogService.java:26-46 | a new log entry appears last in its own shipment's history, and every other shipment's history is unchanged |
| ShipmentLogService.LogsOf | FarmXChain/src/main/java/com/infosys/farmxchain/service/ShipmentLogService.java:42-46 | a shipment's history is exactly the log entries of that shipment |
| UserService.UserById | FarmXChain/src/main/java/com/infosys/farmxchain/service/UserService.java:22-26 | it finds a user exactly when the id exists, and otherwise reports not found |
| UserService.UserByEmail | FarmXChain/src/main/java/com/infosys/farmxchain/service/UserService.java:28-32 | it finds a user exactly when some user has that email, and the user it returns has it |
| UserService.AllUsers | FarmXChain/src/main/java/com/infosys/farmxchain/service/UserService.java:34-39 | the list holds exactly the stored users |
| UserService.UsersWithRole | FarmXChain/src/main/java/com/infosys/farmxchain/service/UserService.java:49-75 | each per-role list holds exactly the users of that role |
| UserService.UsersByRole | FarmXChain/src/main/java/com/infosys/farmxchain/service/UserService.java:41-47 | an unknown role name fails with an illegal argument; otherwise the list holds exactly the users whose role name is the request upper-cased |
| UserService.RoleNameInjective | FarmXChain/src/main/java/com/infosys/farmxchain/service/UserService.java:41-47 | distinct roles have distinct names, so filtering by name is filtering by role |
| UserService.PendingUsers | FarmXChain/src/main/java/com/infosys/farmxchain/service/UserService.java:77-83 | exactly the PENDING users, in repository order |
| UserService.UpdateUserStatus | FarmXChain/src/main/java/com/infosys/farmxchain/service/UserService.java:85-96 | an unknown user and an unknown status name each fail and change nothing. The name is matched whatever its letter case. Success changes only that user's status |
| UserService.TopUpBalance | FarmXChain/src/main/java/com/infosys/farmxchain/service/UserService.java:98-108 | a non-positive amount is refused before the user is looked up. Success raises that balance by exactly the amount, changes nothing else, and grows total money by the amount |
| UserService.DeleteUser | FarmXChain/src/main/java/com/infosys/farmxchain/service/UserService.java:110-114 | an unknown id fails. A user an order or shipment still names is refused with an integrity violation. Otherwise the user and their farmer profiles are removed, no other table changes, and their balance leaves the total |
| AuthService.Register | FarmXChain/src/main/java/com/infosys/farmxchain/service/AuthService.java:42-79 | a taken email and an unknown role each fail and change nothing. Success adds one PENDING, unverified user with the encoded password and the role's opening balance. A FARMER also gets a PENDING default profile located at the address, or "Not specified". Emails stay unique |
| AuthService.DefaultProfile | FarmXChain/src/main/java/com/infosys/farmxchain/service/AuthService.java:66-76 | the automatic profile is PENDING, belongs to the new user, and defaults its farm name, crop type and location |
| AuthService.LoginRefusal | FarmXChain/src/main/java/com/infosys/farmxchain/service/AuthService.java:81-102 | an unknown email and a wrong password are the same failure. With the right password, SUSPENDED is blocked and PENDING is awaiting approval, and only ACTIVE gets through |
| AuthService.Login | FarmXChain/src/main/java/com/infosys/farmxchain/service/AuthService.java:81-115 | a refused login changes nothing. Success stamps lastLogin on that user only and returns a "Bearer" token issued for that user's email, role and id |
| AuthService.NoAccountProbing | FarmXChain/src/main/java/com/infosys/farmxchain/service/AuthService.java:82-87 | the response to an unknown email equals the response to a known email with a wrong password |
| AuthService.LoginIffActive | FarmXChain/src/main/java/com/infosys/farmxchain/service/AuthService.java:81-102 | with unique emails, a login is admitted exactly when some ACTIVE account has that email and its password matches |
| AuthService.VerifyUser | FarmXChain/src/main/java/com/infosys/farmxchain/service/AuthService.java:117-126 | it sets the user ACTIVE and verified, changes nothing else, and fails only for an unknown id |
| AuthService.RejectUser | FarmXChain/src/main/java/com/infosys/farmxchain/service/AuthService.java:128-136 | it sets the user SUSPENDED, changes nothing else, and fails only for an unknown id |
| AuthService.ApprovalGatesLogin | FarmXChain/src/main/java/com/infosys/farmxchain/service/AuthService.java:117-136 | after approval the right password logs the user in; after rejection it is blocked |
| FarmerService.CreateFarmerProfile | FarmXChain/src/main/java/com/infosys/farmxchain/service/FarmerService.java:29-61 | an unknown user fails, and so does a user who already has a profile. Success adds one PENDING profile with the request's fields and no verification record |
| FarmerService.CreateKeepsProfilesUnique | FarmXChain/src/main/java/com/infosys/farmxchain/entity/Farmer.java:22-23 | creating a profile keeps the `user_id` column of the farmers table unique |
| FarmerService.CreateOnce | FarmXChain/src/main/java/com/infosys/farmxchain/service/FarmerService.java:33-35 | a second profile for the same user is refused |
| FarmerService.UpdateFarmerProfile | FarmXChain/src/main/java/com/infosys/farmxchain/service/FarmerService.java:63-87 | it fails only when the user has no profile. It copies the request's fields and keeps the verification status, verifier, time and rejection reason |
| FarmerService.EditKeepsVerdict | FarmXChain/src/main/java/com/infosys/farmxchain/service/FarmerService.java:63-87 | a farmer editing a rejected profile cannot clear the rejection or its reason |
| FarmerService.FarmerProfileOf | FarmXChain/src/main/java/com/infosys/farmxchain/service/FarmerService.java:89-93 | it finds a profile exactly when the user has one |
| FarmerService.FarmerById | FarmXChain/src/main/java/com/infosys/farmxchain/service/FarmerService.java:95-99 | it finds a profile exactly when the id exists |
| FarmerService.FarmersByStatus | FarmXChain/src/main/java/com/infosys/farmxchain/service/FarmerService.java:101-113 | exactly the profiles with that verification status (the pending list is the PENDING case) |
| FarmerService.FarmersByCropType | FarmXChain/src/main/java/com/infosys/farmxchain/service/FarmerService.java:115-120 | exactly the profiles with that crop type |
| FarmerService.AllFarmers | FarmXChain/src/main/java/com/infosys/farmxchain/service/FarmerService.java:122-127 | exactly the stored profiles |
| FarmerService.VerifyFarmer | FarmXChain/src/main/java/com/infosys/farmxchain/service/FarmerService.java:129-140 | the profile becomes VERIFIED by that admin at that time, its rejection reason is cleared, and its other fields are unchanged |
| FarmerService.RejectFarmer | FarmXChain/src/main/java/com/infosys/farmxchain/service/FarmerService.java:142-153 | the profile becomes REJECTED by that admin at that time, with the given reason, and its other fields are unchanged |
| FarmerService.DeleteFarmerProfile | FarmXChain/src/main/java/com/infosys/farmxchain/service/FarmerService.java:155-159 | an unknown profile fails, and a profile a crop or order still names is refused. Otherwise exactly that profile is removed |
| AdminService.PendingFarmers | FarmXChain/src/main/java/com/infosys/farmxchain/service/AdminService.java:19-25 | the list holds exactly the PENDING FARMER users, in repository order, once each |
| AdminService.ApproveFarmer | FarmXChain/src/main/java/com/infosys/farmxchain/service/AdminService.java:27-31 | an unknown id fails with no such element; otherwise only that user's status changes, to VERIFIED |
| AdminService.ApprovalLeavesQueue | FarmXChain/src/main/java/com/infosys/farmxchain/service/AdminService.java:19-31 | an approved user leaves the pending list, and every other user keeps their place in or out of it |
| CropService.NewCrop | FarmXChain/src/main/java/com/infosys/farmxchain/service/CropService.java:34-45 | a crop's origin is the request's, or else the farm's location; a new crop has no price and no hash yet |
| CropService.AddCrop | FarmXChain/src/main/java/com/infosys/farmxchain/service/CropService.java:30-60 | it fails only for an unknown farmer. Success stores one crop whose hash is the digest of its colon-joined record and whose transaction comes from registering that record |
| CropService.CropById | FarmXChain/src/main/java/com/infosys/farmxchain/service/CropService.java:69-73 | it finds a crop exactly when the id exists |
| CropService.CropsByFarmer | FarmXChain/src/main/java/com/infosys/farmxchain/service/CropService.java:62-67 | exactly that farmer's crops |
| CropService.AllCrops | FarmXChain/src/main/java/com/infosys/farmxchain/service/CropService.java:75-80 | exactly the stored crops |
| CropService.CropsWithRecords | FarmXChain/src/main/java/com/infosys/farmxchain/service/CropService.java:82-87 | exactly the crops with a stored hash |
| CropService.VerifyCropRecord | FarmXChain/src/main/java/com/infosys/farmxchain/service/CropService.java:89-102 | an unknown crop fails. The check holds exactly when a hash is stored and it is the digest of the crop's current record, so a missing hash gives false |
| CropService.AddedCropVerifies | FarmXChain/src/main/java/com/infosys/farmxchain/service/CropService.java:47-101 | a crop just added verifies true |
| CropService.SaleInvalidatesRecord | FarmXChain/src/main/java/com/infosys/farmxchain/service/CropService.java:89-102 | the quantity is part of the hashed record, so once an accepted order changes the stock the crop no longer verifies (for an injective digest and number rendering) |
| Blockchain.Connect | FarmXChain/src/main/java/com/infosys/farmxchain/service/BlockchainService.java:45-67 | the service goes live exactly when the node answers, the key is present, at least 64 characters long and does not start with "0x0000", and `Credentials.create` accepts it; in every other case it stays in simulation |
| Blockchain.VerifyRecord | FarmXChain/src/main/java/com/infosys/farmxchain/service/BlockchainService.java:193-200 | a record verifies exactly when the digest of its data equals the stored hash |
| Blockchain.VerifyGenerated | FarmXChain/src/main/java/com/infosys/farmxchain/service/BlockchainService.java:69-77 | a freshly generated hash always verifies against its data |
| Blockchain.TransferOwnershipTx | FarmXChain/src/main/java/com/infosys/farmxchain/service/BlockchainService.java:130-155 | without a node the transaction is "SIM_TX_OWNERSHIP_" followed by the crop id |
| Blockchain.SimulatedOwnershipDistinct | FarmXChain/src/main/java/com/infosys/farmxchain/service/BlockchainService.java:130-155 | distinct crops get distinct simulated ownership transactions |
| Blockchain.LogShipmentTx | FarmXChain/src/main/java/com/infosys/farmxchain/service/BlockchainService.java:157-183 | without a node the transaction is "SIM_TX_SHIPMENT_" followed by the order id |
| Blockchain.SimulateTransaction | FarmXChain/src/main/java/com/infosys/farmxchain/service/BlockchainService.java:185-191 | a simulated hash is "0x" and 64 characters: all 44 of the first digest, then the first 20 of the second |
| Blockchain.RegisterCropTx | FarmXChain/src/main/java/com/infosys/farmxchain/service/BlockchainService.java:79-128 | the node's transaction hash when it answers; otherwise a 66-character simulated hash starting "0x" |
| AdminController.ActionStatusName | FarmXChain/src/main/java/com/infosys/farmxchain/controller/AdminController.java:59-105 | verify and activate set ACTIVE; reject and suspend set SUSPENDED |
| AdminController.ApplyUserAction | FarmXChain/src/main/java/com/infosys/farmxchain/controller/AdminController.java:59-105 | each action changes only that user's status, and fails only for an unknown id |
| AdminController.FarmersByStatusEndpoint | FarmXChain/src/main/java/com/infosys/farmxchain/controller/AdminController.java:120-140 | a known status, in any letter case, answers 200 with exactly the profiles of that status. Anything else answers 400 with success false and no data |
| AdminController.VerifyFarmerEndpoint | FarmXChain/src/main/java/com/infosys/farmxchain/controller/AdminController.java:142-155 | the profile ends VERIFIED by the calling admin with no rejection reason |
| AdminController.VerifyIgnoresBody | FarmXChain/src/main/java/com/infosys/farmxchain/controller/AdminController.java:142-155 | the request body has no effect on a verification |
| AdminController.UsersCount | FarmXChain/src/main/java/com/infosys/farmxchain/controller/AdminController.java:208-218 | the user statistic is the number of users |
| AdminController.FarmersCount | FarmXChain/src/main/java/com/infosys/farmxchain/controller/AdminController.java:196-206 | the farmer statistic is the number of FARMER users, and never exceeds the user statistic |
| Security.ExtractToken | FarmXChain/src/main/java/com/infosys/farmxchain/security/JwtAuthenticationFilter.java:64-70 | a token is found exactly when the header starts with "Bearer ", and the header is that prefix followed by the token |
| Security.BearerRoundTrip | FarmXChain/src/main/java/com/infosys/farmxchain/security/JwtAuthenticationFilter.java:64-70 | prefixing a token with "Bearer " and extracting it gives it back |
| Security.FilterRequest | FarmXChain/src/main/java/com/infosys/farmxchain/security/JwtAuthenticationFilter.java:27-62 | a valid token of a SUSPENDED user is answered 403 with the blocked message and the chain stops. A valid token of any other known user continues, authenticated with "ROLE_" and the stored role, with the user id as details. Every other request continues unauthenticated |
| Security.SuspensionIsImmediate | FarmXChain/src/main/java/com/infosys/farmxchain/security/JwtAuthenticationFilter.java:37-45 | an existing token stops working as soon as its user is suspended, and only then |
| Security.CurrentUserId | FarmXChain/src/main/java/com/infosys/farmxchain/security/SecurityUtils.java:11-17 | the id is the authentication's details when present; otherwise unauthorized |
| Security.CurrentUserEmail | FarmXChain/src/main/java/com/infosys/farmxchain/security/SecurityUtils.java:19-25 | the email is the authentication's name; without one, unauthorized |
| Security.CurrentUserRole | FarmXChain/src/main/java/com/infosys/farmxchain/security/SecurityUtils.java:27-36 | a role is read exactly when the authentication has an authority; otherwise unauthorized |
| Security.IsAdmin | FarmXChain/src/main/java/com/infosys/farmxchain/security/SecurityUtils.java:38-40 | true exactly when the stripped role is "ADMIN" |
| Security.IsFarmer | FarmXChain/src/main/java/com/infosys/farmxchain/security/SecurityUtils.java:42-44 | true exactly when the stripped role is "FARMER" |
| Security.StripRoleRoundTrip | FarmXChain/src/main/java/com/infosys/farmxchain/security/SecurityUtils.java:28-35 | removing "ROLE_" from the authority the filter built gives back the role name |
| Security.FilterThenContext | FarmXChain/src/main/java/com/infosys/farmxchain/security/SecurityUtils.java:11-44 | after the filter authenticates a request, the helpers read back the token's user id and email, the role stored for that user, and the matching admin and farmer answers |
| ExceptionHandler.HandlerOf | FarmXChain/src/main/java/com/infosys/farmxchain/exception/GlobalExceptionHandler.java:17-78 | not-found, email-taken and unauthorized errors each have their own handler, and everything else falls to the general one |
| ExceptionHandler.Handle | FarmXChain/src/main/java/com/infosys/farmxchain/exception/GlobalExceptionHandler.java:17-78 | 404 exactly for not found, 400 for a taken email, 401 for unauthorized, and 500 for everything else, with the message prefixed "An unexpected error occurred: ". Every reply has success false, no data, and a body status equal to the HTTP status |
| ExceptionHandler.StatusNamesHandler | FarmXChain/src/main/java/com/infosys/farmxchain/exception/GlobalExceptionHandler.java:17-78 | the HTTP status alone tells which handler answered |
| ExceptionHandler.FieldMap | FarmXChain/src/main/java/com/infosys/farmxchain/exception/GlobalExceptionHandler.java:53-58 | the map has a key for exactly the fields with errors, and each holds the message of that field's last error |
| ExceptionHandler.HandleValidation | FarmXChain/src/main/java/com/infosys/farmxchain/exception/GlobalExceptionHandler.java:50-67 | validation failures answer 400 "Validation failed" with a map over exactly the failing fields |
| ExceptionHandler.LastMessageWins | FarmXChain/src/main/java/com/infosys/farmxchain/exception/GlobalExceptionHandler.java:53-58 | a field with several errors reports its last one |
| FileUpload.Extension | FarmXChain/src/main/java/com/infosys/farmxchain/controller/FileUploadController.java:38-43 | the extension is empty exactly when no '.' follows the first character. Otherwise it is the dot-led suffix after the last '.', which holds no other '.' |
| FileUpload.StoredName | FarmXChain/src/main/java/com/infosys/farmxchain/controller/FileUploadController.java:46 | the stored name starts with the random id |
| FileUpload.UploadFile | FarmXChain/src/main/java/com/infosys/farmxchain/controller/FileUploadController.java:34-80 | a stored name containing ".." is refused. A copy failure answers 500 with the IO message. Otherwise it answers 200 with the file's URL under /uploads/ |
| FileUpload.UploadNeverRejected | FarmXChain/src/main/java/com/infosys/farmxchain/controller/FileUploadController.java:46-52 | a name made of a UUID and an extension never contains "..", so the path guard never fires |
| UserEntity.OpeningBalance | FarmXChain/src/main/java/com/infosys/farmxchain/entity/User.java:82-88 | DISTRIBUTOR starts at 0 and every other role at 500000 |
| UserEntity.OnCreate | FarmXChain/src/main/java/com/infosys/farmxchain/entity/User.java:75-89 | creation stamps both times, forces isVerified false, fills a null balance by role, keeps a present balance, and changes nothing else |
| UserEntity.OnUpdate | FarmXChain/src/main/java/com/infosys/farmxchain/entity/User.java:91-94 | an update changes only updatedAt |
| UserEntity.DistributorOpensWithDemoBalance | FarmXChain/src/main/java/com/infosys/farmxchain/entity/User.java:68-88 | with the builder default in place, a DISTRIBUTOR is created with 500000 and not the 0 meant for that role |
| UserEntity.OpensWithRoleBalance | FarmXChain/src/main/java/com/infosys/farmxchain/entity/User.java:82-88 | without that default every role opens with its intended balance |
| Api.Respond | FarmXChain/src/main/java/com/infosys/farmxchain/dto/ApiResponse.java:18-23 | the status code is 200 exactly on success and 400 exactly on failure |
| OrderViews.OrderDto | FarmXChain/src/main/java/com/infosys/farmxchain/service/DistributorService.java:300-319 | the view copies the order's own columns and the buyer, crop and farm names, and carries no delivery fee and no update time |
| OrderViews.Views | FarmXChain/src/main/java/com/infosys/farmxchain/service/OrderService.java:61-67 | a list of orders maps to the list of their views, position by position |
| ClientAuth.IsAuthenticated | frontend/src/services/AuthService.js:98-112 | signed in exactly when a stored token decodes and its exp claim is later than now in seconds. No token and an undecodable token both give false |
| ClientAuth.CurrentUser | frontend/src/services/AuthService.js:74-96 | a cached user wins over the token. Without one the user comes from the token's claims, and with no token or an undecodable one there is none |
| ClientAuth.Login | frontend/src/services/AuthService.js:6-24 | the token and user are stored only when a non-empty token came back |
| ClientAuth.Logout | frontend/src/services/AuthService.js:67-72 | both keys are removed |
| ClientAuth.LogoutSignsOut | frontend/src/services/AuthService.js:67-112 | after logout the session is invalid and there is no current user |
| ClientAuth.LoginThenCurrentUser | frontend/src/services/AuthService.js:6-96 | after a login the current user is the one the server returned, and the session is valid exactly when the new token is unexpired |
| ClientAuth.AuthenticatedHasUser | frontend/src/services/AuthService.js:74-112 | a valid session always has a current user |
| Routing.Guard | frontend/src/utils/AuthGuard.js:5-18 | unauthenticated visitors go to /login whatever the role. An authenticated user with the wrong role goes to /dashboard. Everyone else sees the page |
| Routing.RouteOf | frontend/src/App.js:85-124 | /farmer-profile needs FARMER; the four admin pages need ADMIN; /dashboard and /farmer-list need only a session; / forwards to /dashboard; /login and /register are open |
| Routing.NavLinks | frontend/src/App.js:29-66 | there is no navigation without a session; with one it starts at /dashboard |
| Routing.GuardedPagesNeedRole | frontend/src/App.js:85-124 | a guarded page is shown only to a signed-in user, and an admin or farmer page only to that role |
| Routing.NavLinksOpen | frontend/src/App.js:29-124 | every link the bar shows opens its page for that user |
| OrdersPage.TabOrders | frontend/src/pages/Orders.jsx:132-138 | a tab shows exactly the loaded orders whose status belongs to it, in their original order |
| OrdersPage.TabsPartition | frontend/src/pages/Orders.jsx:132-138 | every status is in exactly one of Active and Past, so the two tabs together show each order once |
| OrdersPage.SourceFor | frontend/src/pages/Orders.jsx:33 | farmers load their sales and everyone else their purchases |
| OrdersPage.Buttons | frontend/src/pages/Orders.jsx:246-301 | approve and reject only for a farmer on PENDING; assign only for a farmer on ACCEPTED; confirm receipt only for a buyer on DELIVERED; tracking on IN_TRANSIT, SHIPPED or DELIVERED |
| OrdersPage.ReceiptButtonPassesGate | frontend/src/pages/Orders.jsx:290-301 | whenever the buyer is offered confirm receipt, the server's gate admits that buyer's COMPLETED request |
| OrdersPage.AssignButtonAccepted | frontend/src/pages/Orders.jsx:265-278 | whenever the farmer is offered assignment, the server would assign the order to any distributor account |
| OrdersPage.AssignReachesServer | frontend/src/pages/Orders.jsx:44-82 | with a client that declares the picker's methods, choosing any listed distributor on an order offering the button sends that order and id, and the server assigns it |
| AdminOrdersPage.Search | frontend/src/pages/AdminOrders.jsx:88-93 | the search keeps exactly the matching orders in their original order; id and farmer id match case-sensitively, buyer and crop names case-insensitively |
| AdminOrdersPage.EmptySearchKeepsAll | frontend/src/pages/AdminOrders.jsx:88-93 | an empty search keeps every order |
| AdminOrdersPage.AssignButtonAccepted | frontend/src/pages/AdminOrders.jsx:249 | the button appears only on orders the server would assign |
| AdminOrdersPage.AssignReachesServer | frontend/src/pages/AdminOrders.jsx:20-80 | with a client that declares the picker's methods, choosing any listed distributor on an order showing the button sends that order and id, and the server assigns it |
| DistributorPicker.Loaded | frontend/src/pages/Orders.jsx:44-51 | the picker holds the listed distributors when the client declares `getDistributors`, and stays empty when the call throws |
| DistributorPicker.Options | frontend/src/pages/Orders.jsx:355-366 | the select offers the placeholder "" first and then one value per loaded distributor id |
| DistributorPicker.OptionsNameLoaded | frontend/src/pages/AdminOrders.jsx:288-299 | every non-placeholder option names a loaded distributor |
| DistributorPicker.Submit | frontend/src/pages/AdminOrders.jsx:62-80 | without a selected order or distributor no request is made and the page says "Please select a distributor"; otherwise the request carries that order and distributor exactly when the client declares the method, and the call throws when it does not |
| DistributorPicker.AsWrittenNeverPosts | frontend/src/pages/Orders.jsx:44-82 | with the service objects as written, the only selectable value is the placeholder, so every submit ends in "Please select a distributor" and no assignment request is ever sent |
| DistributorPicker.CompletePosts | frontend/src/pages/Orders.jsx:53-82 | with a complete client, choosing the i-th listed distributor posts that order with exactly that distributor's id |
| DistributorDashboardPage.BeforeFetch | frontend/src/pages/DistributorDashboard.jsx:57-73 | without a token, or with a cached role other than DISTRIBUTOR, there is no fetch and the matching error is shown |
| DistributorDashboardPage.FailureText | frontend/src/pages/DistributorDashboard.jsx:85-107 | 401, 403 and 404 give fixed texts. Another status gives the server's message if any, else its error field, else "Server error (status)". No answer gives the connection text, and any other failure its own message or a generic text |
| DistributorDashboardPage.ServerFailuresShown | frontend/src/pages/DistributorDashboard.jsx:85-107 | for each server error kind, the page shows the text its HTTP status selects, including the prefixed message of a 500 |
| DistributorDashboardPage.TabOrders | frontend/src/pages/DistributorDashboard.jsx:113-130 | the assigned, in-transit and delivered tabs keep exactly that status, in order; every other tab keeps all |
| DistributorDashboardPage.Cards | frontend/src/pages/DistributorDashboard.jsx:331-334 | each card counts its tab, and the three counts never exceed the total |
| DistributorDashboardPage.Buttons | frontend/src/pages/DistributorDashboard.jsx:412-446 | Create Shipment only on ASSIGNED; Update and Deliver only on IN_TRANSIT; Logs on IN_TRANSIT or DELIVERED |
| DistributorDashboardPage.ShipmentForm | frontend/src/pages/DistributorDashboard.jsx:183-199 | the form ships the order from the farm name, or "", to the delivery address, or a placeholder, by truck |
| DistributorDashboardPage.CreateButtonAccepted | frontend/src/pages/DistributorDashboard.jsx:412-420 | for an order assigned to the caller that has no shipment, the button's pre-filled request passes the server's checks |
| EarningsPage.EarningOrders | frontend/src/pages/EarningsHistory.jsx:32 | exactly the DELIVERED orders with a non-zero fee, in order |
| EarningsPage.TotalIsEarnedFees | frontend/src/pages/EarningsHistory.jsx:32-33 | the total is the sum of the fees of delivered orders; no other order contributes |
| EarningsPage.CompletedDeliveries | frontend/src/pages/EarningsHistory.jsx:114 | the count is the number of earning orders |
| EarningsPage.AverageFee | frontend/src/pages/EarningsHistory.jsx:125 | the average times the count is the total, and it is 0 when nothing was earned |
| EarningsPage.Rows | frontend/src/pages/EarningsHistory.jsx:152-153 | the rows are the earning orders, newest update first |
| EarningsPage.SortNewestFirst | frontend/src/pages/EarningsHistory.jsx:152-153 | sorting gives a permutation of the list, newest update first |
| EarningsPage.DeliveredFeeInvisible | frontend/src/pages/EarningsHistory.jsx:32-33 | a delivered order with a fee earns nothing through the order view as sent, and earns its fee through a view that carries it |
| EarningsPage.EarningsAsWrittenEmpty | frontend/src/pages/EarningsHistory.jsx:32-33 | with the order view as sent, the earnings page is always empty and its total is 0 |
| EarningsPage.EarningsWithFee | frontend/src/pages/EarningsHistory.jsx:32-33 | with the fee carried, the total is exactly the sum of the delivered orders' fees |
| TrackingPage.StepStatus | frontend/src/pages/Tracking.jsx:58-66 | every step is completed once DELIVERED. Otherwise a step before the current status is completed, the step at it is active, and a later one is pending, by position in IN_TRANSIT, DELAYED, DELIVERED |
| TrackingPage.TimelineByStatus | frontend/src/pages/Tracking.jsx:145-150 | PICKED_UP shows only the origin reached; IN_TRANSIT and DELAYED show the transit step active; DELIVERED shows the last step completed, and nothing else does |
| TrackingPage.ProgressWidth | frontend/src/pages/Tracking.jsx:143 | 100% exactly when DELIVERED, else 50% |
| TrackingPage.FormAsWritten | frontend/src/pages/Tracking.jsx:30-35 | a missing location becomes ""; a missing or zero temperature becomes 20 and humidity 60 |
| TrackingPage.ZeroReadingOverwritten | frontend/src/pages/Tracking.jsx:30-35 | saving the form untouched replaces a measured 0 degrees with 20 |
| TrackingPage.Form | frontend/src/pages/Tracking.jsx:30-35 | defaults fill only readings that are missing |
| TrackingPage.UntouchedFormKeepsReadings | frontend/src/pages/Tracking.jsx:45-56 | saving the corrected form untouched keeps location, readings and status |
| UserManagementPage.HandleAction | frontend/src/pages/UserManagement.jsx:25-56 | an action name is dispatched exactly when it names one of the four actions, with that action's success text; an unknown name makes no call |
| UserManagementPage.HandleActionName | frontend/src/pages/UserManagement.jsx:25-56 | each action's own name dispatches back to that action |
| UserManagementPage.ActionsAsWritten | frontend/src/pages/UserManagement.jsx:204-235 | PENDING gets verify and reject, VERIFIED suspend, SUSPENDED activate, and every other status nothing |
| UserManagementPage.VerifiedUserStranded | frontend/src/pages/UserManagement.jsx:204-235 | a user the admin just verified is ACTIVE, and the page offers no action for them |
| UserManagementPage.Actions | frontend/src/pages/UserManagement.jsx:221-228 | suspend is offered to ACTIVE and VERIFIED users |
| UserManagementPage.EveryActionUndoable | frontend/src/pages/UserManagement.jsx:204-235 | after verify or activate the page offers suspend, and after reject or suspend it offers activate |
| FileUploadClient.ValidateFile | frontend/src/services/FileUploadService.js:65-82 | a file passes exactly when it is within the size limit (5 MB by default) and of an allowed type (five image types by default). An oversize file fails on size first |
| FileUploadClient.UploadFile | frontend/src/services/FileUploadService.js:16-36 | no file means no request and an error; otherwise exactly that file is posted. On success the response envelope is returned, whose `data` field, the stored file's URL, is what the model keeps; on failure the server's error envelope or the transport message is thrown |
| FileUploadClient.UploadAll | frontend/src/services/FileUploadService.js:43-57 | all uploads succeed exactly when the server accepts every file, giving each file's URL in order; otherwise the error of a failing file is reported |
| FileUploadClient.UploadMultipleFiles | frontend/src/services/FileUploadService.js:43-57 | a missing or empty list posts nothing; otherwise every file is posted, and the batch succeeds exactly when all do |

## Left out

- Hashing, password encoding, JWT issuing and decoding, UUIDs and the clock are parameters. Their internals are not modelled.
- The blockchain node is a parameter: it either answers with a transaction hash or it does not. No Ethereum transaction is modelled.
- Real IO is not modelled: writing uploaded files, `cleanPath`, `localStorage`, HTTP transport, logging and the browser's `authChange` event.
- Persistence is the `World` record. Rows are read back in id order.
- Shipment logs that are "ordered by creation time" are read in append order, which is the same order.
- `@PreUpdate` timestamps are not applied by the services' writes. `UserEntity.OnUpdate` states the hook on its own.
- Crop.java lacks `pricePerKg`, and Shipment.java lacks the origin, destination, distributor, transport mode and custody hash columns. The services use them, so the model gives the entities those fields.
- Order.java, ShipmentStatus.java, Role.java, UserStatus.java and ShipmentAction.java are not part of this model. Their values are taken from how the services and pages use them. DELAYED is a shipment status the tracking page names.
- CropService.java:51 calls a two-argument `registerCropOnBlockchain` that BlockchainService does not declare. `Blockchain.RegisterCropTx` takes both arguments and treats the result as an opaque hash.
- The one-shipment-per-order database key is modelled as an explicit refusal (`DuplicateShipment`) rather than a constraint violation.
- A deletion that a foreign key blocks is modelled as `IntegrityViolation`, which the exception handler answers with 500.
- Bean-validation of request DTOs, `@Valid` null checks and Jackson parsing are not modelled; requests arrive already typed.
- Thin REST controllers other than AdminController, the presentation-only pages and LocationPicker are not modelled. They only delegate or display.
- The Axios resource clients are not modelled call by call. The one place where the pages depend on them is the distributor picker, whose methods `FarmerService.js` and `AdminService.js` do not declare; `DistributorPicker.Client` records which methods exist.
- Floating-point display and formatting (`toFixed`, `toLocaleString`, the temperature bar) is not modelled. Readings are `real`.
- FileUploadClient.UploadAll: `Promise.all` rejects with the first failure to settle, which depends on timing. The contract says only that the reported error is that of some failing file.
- EarningsPage.Updated: a missing `updatedAt` is read as time 0. In the page, `new Date(undefined)` compares as NaN and the browser's sort order is then unspecified.
- AuthService.Register: opens accounts with the corrected opening balance (`UserEntity.OpeningBalance`), so a DISTRIBUTOR starts at 0. As written, the builder default gives every registered account 500000 (see the first finding), and the contract's `Total` change is that of the corrected entity.
- Text.ToUpper and Text.ToLower map ASCII letters only. Java's `toUpperCase` also maps other letters, for example the dotless `ı` to `I`, so `Role.valueOf("admın".toUpperCase())` succeeds where `Domain.ParseRole` reports an illegal argument; the same holds for the other enum parsers and the admin search.
- Blockchain.Connect: whether `Credentials.create` accepts a key is the parameter `parses`; which non-hexadecimal keys it rejects is not modelled.
- OrderService.OrdersByFarmer: the "every order of the user" direction is stated under `Schema.ProfilesUnique`, the unique `user_id` column of Farmer.java:23. The model keeps that uniqueness outside `Wf`, and only profile creation is shown to keep it.
- LogisticsService.UpdateShipment: the status of a sensor update is always present (`SensorUpdate.status` is not optional). The tracking page always sends the shipment's current status (Tracking.jsx:34); a request with a null status, which the service would store and log as "status to null", is not modelled.
- FileUploadClient.UploadFile: the helper resolves with the whole response envelope (FileUploadService.js:31); the model keeps only the envelope's `data` field, the URL the controller puts there.
- TrackingPage.Form: the corrected form also keeps a humidity of 0, which the page as written replaces with 60 in the same way as the temperature.

## Findings

| source | as written | input that shows it | evidently intended | confidence | as-written member | corrected member |
|---|---|---|---|---|---|---|
| FarmXChain/src/main/java/com/infosys/farmxchain/entity/User.java:68-88 | the builder default sets the balance to 500000 before `onCreate`, so its null check never fires | registering any DISTRIBUTOR account | a DISTRIBUTOR opens with 0 and earns only through deliveries | high, not executed | UserEntity.DistributorOpensWithDemoBalance | UserEntity.OpensWithRoleBalance |
| frontend/src/pages/EarningsHistory.jsx:32-33 | the page keeps DELIVERED orders with a truthy `deliveryFee`, but the order view the backend sends has no such field | a distributor with one DELIVERED order whose fee is 7.0 | the page lists that order and totals 7.0 | high, not executed | EarningsPage.DeliveredFeeInvisible | EarningsPage.EarningsWithFee |
| frontend/src/pages/Tracking.jsx:30-35 | `temperature \|\| 20` also replaces a reading of exactly 0 | a shipment whose stored temperature is 0.0, saved with the form untouched | a measured 0 is kept and only a missing reading gets the default | medium, not executed | TrackingPage.ZeroReadingOverwritten | TrackingPage.UntouchedFormKeepsReadings |
| frontend/src/pages/UserManagement.jsx:221-228 | suspend is offered only to VERIFIED users, but verifying and activating set ACTIVE | a PENDING user the admin verifies | the verified (ACTIVE) user can later be suspended | high, not executed | UserManagementPage.VerifiedUserStranded | UserManagementPage.EveryActionUndoable |
| frontend/src/pages/Orders.jsx:44-82 | both order pages call `getDistributors` and `assignOrderToDistributor` on `FarmerService` and `AdminService`, which declare neither; the first call throws and is caught, so the distributor select offers only its placeholder | a farmer opens the assignment dialog for an ACCEPTED order and submits | the select lists the distributor accounts and submitting assigns the order | high, not executed | DistributorPicker.AsWrittenNeverPosts | OrdersPage.AssignReachesServer |
| FarmXChain/src/main/java/com/infosys/farmxchain/service/DistributorService.java:157-164 | a status report is refused only when it asks for DELIVERED, never because the shipment already is DELIVERED; the farmer's `updateShipment` (LogisticsService.java:74-103) has no status check at all | confirm delivery of a 1000.0 order, report IN_TRANSIT, confirm again: the distributor is paid 70.0 twice | a confirmed delivery is final and its fee is paid once | high, not executed | DistributorService.ReopenedDeliveryPaysTwice | DistributorService.FeePaidOnce |

Each corrected member is the one the rest of the model relies on:

- `AuthService.NewAccount` opens accounts with `UserEntity.OpeningBalance`.
- The earnings lemmas over `OrderViews.ViewsWithFee` state the page's intended totals.
- `TrackingPage.Form` and `UserManagementPage.Actions` are the corrected page logic.
- `OrdersPage.AssignReachesServer` and `AdminOrdersPage.AssignReachesServer` state the assignment flow with `DistributorPicker.Complete`, the client that declares both methods.
- `DistributorService.UpdateShipmentStatusGuarded` and `LogisticsService.UpdateShipmentGuarded` are the corrected status updates. The as-written operations stay in the model, because the tracking page's lemmas describe the farmer update as the page calls it.

`OrderService.AcceptingTwiceChargesTwice` records a related observation: the status update does not look at the order's current status. The model keeps that behaviour as written, because the source gives no intended rule to correct it to.

=== FILE: admin_controller.dfy ===
/** The admin endpoints' own logic: which status each account action sets,
    the farmer-status filter with its 400 answer for an unknown name, the
    farmer verification endpoint, and the user counts. */
module AdminController {
  import opened Wrappers
  import opened Tables
  import opened Domain
  import opened Schema
  import opened Api
  import Text
  import UserService
  import FarmerService

  /** The four account buttons. */
  datatype UserAction = Verify | Reject | Suspend | Activate

  /** The status name each action sends to `updateUserStatus`. */
  function ActionStatusName(a: UserAction): (s: string)
    ensures a == Verify || a == Activate ==> s == "ACTIVE"
    ensures a == Reject || a == Suspend ==> s == "SUSPENDED"
  {
    match a
    case Verify => "ACTIVE"
    case Activate => "ACTIVE"
    case Reject => "SUSPENDED"
    case Suspend => "SUSPENDED"
  }

  /** The status an action leaves the account in. */
  function ActionStatus(a: UserAction): UserStatus
  {
    if a == Verify || a == Activate then Active else Suspended
  }

  /** `POST /admin/users/{id}/<action>`: verify and activate make the account
      ACTIVE, reject and suspend make it SUSPENDED; only an unknown id fails. */
  function ApplyUserAction(w: World, userId: Id, a: UserAction): (r: Tx<User>)
    requires Wf(w)
    ensures r.result.Failure? <==> userId !in w.users
    ensures r.result.Failure? ==> r.world == w && r.result.error == NotFound(UserRow)
    ensures r.result.Success? ==>
              && r.result.value == w.users[userId].(status := ActionStatus(a))
              && r.world == w.(users := w.users[userId := r.result.value])
    ensures Wf(r.world)
  {
    var r := UserService.UpdateUserStatus(w, userId, ActionStatusName(a));
    assert Text.ToUpper(ActionStatusName(a)) == ActionStatusName(a) by {
      Text.UpperFixed(ActionStatusName(a));
    }
    assert ParseUserStatus(ActionStatusName(a)) == Some(ActionStatus(a)) by {
      ParseUserStatusName(ActionStatus(a));
    }
    r
  }

  /** `GET /admin/farmers/status/{status}`: the name is upper-cased and parsed;
      an unknown name gives a 400 envelope instead of an exception. */
  function FarmersByStatusEndpoint(w: World, status: string): (r: ApiResponse<seq<FarmerProfile>>)
    requires Wf(w)
    ensures r.success <==> ParseVerification(status).Some?
    ensures r.success ==>
              && r.statusCode == 200 && r.data.Some?
              && forall f :: f in r.data.value <==>
                   f in w.farmers.Values && VerificationName(f.verificationStatus) == Text.ToUpper(status)
    ensures !r.success ==> r.statusCode == 400 && r.data.None?
                           && r.message == "Invalid farmer verification status: " + status
  {
    match ParseVerification(status)
    case None => ApiResponse(false, "Invalid farmer verification status: " + status, None, 400)
    case Some(v) =>
      assert forall x: VerificationStatus :: VerificationName(x) == Text.ToUpper(status) <==> x == v;
      ApiResponse(true, "Farmers retrieved successfully", Some(FarmerService.FarmersByStatus(w, v)), 200)
  }

  /** `POST /admin/farmers/{id}/verify`: the optional body is read by nobody;
      the service is always called without a reason. */
  function VerifyFarmerEndpoint(w: World, farmerId: Id, adminId: Id, now: Time, body: Option<string>): (r: Tx<FarmerProfile>)
    requires Wf(w)
    ensures r.result.Failure? <==> farmerId !in w.farmers
    ensures r.result.Success? ==>
              && r.result.value.verificationStatus == VerificationStatus.Verified
              && r.result.value.rejectionReason.None?
              && r.result.value.verifiedBy == Some(adminId)
    ensures Wf(r.world)
  {
    FarmerService.VerifyFarmer(w, farmerId, adminId, now, None)
  }

  /** Whatever body the request carries, verification has the same effect. */
  lemma VerifyIgnoresBody(w: World, farmerId: Id, adminId: Id, now: Time, a: Option<string>, b: Option<string>)
    requires Wf(w)
    ensures VerifyFarmerEndpoint(w, farmerId, adminId, now, a) == VerifyFarmerEndpoint(w, farmerId, adminId, now, b)
  {
  }

  /** `GET /admin/stats/users`: the number of accounts. */
  function UsersCount(w: World): (n: nat)
    requires Wf(w)
    ensures n == |w.users|
  {
    FindAllCount(w.users, w.nextId);
    |UserService.AllUsers(w)|
  }

  /** `GET /admin/stats/farmers`: the number of FARMER accounts (profiles or not). */
  function FarmersCount(w: World): (n: nat)
    requires Wf(w)
    ensures n == |set k | k in w.users && w.users[k].role == Role.Farmer|
    ensures n <= UsersCount(w)
  {
    var p: User -> bool := (u: User) => u.role == Role.Farmer;
    FindAllWhereCount(w.users, w.nextId, p);
    assert IdsWhere(w.users, p) == set k | k in w.users && w.users[k].role == Role.Farmer;
    assert IdsWhere(w.users, p) <= w.users.Keys;
    assert w.users.Keys == IdsWhere(w.users, p) + (w.users.Keys - IdsWhere(w.users, p));
    |UserService.UsersWithRole(w, Role.Farmer)|
  }
}

=== FILE: admin_orders_page.dfy ===
/** The administrator's platform-orders page: the search box and the
    assignment button. */
module AdminOrdersPage {
  import opened Wrappers
  import opened Tables
  import opened Domain
  import opened Seqs
  import opened Schema
  import opened OrderViews
  import opened DistributorPicker
  import OrderService
  import Text

  /** An order matches a search text found in its id or farmer id as typed,
      or in its buyer or crop name ignoring letter case. */
  predicate Matches(v: OrderView, text: string)
  {
    || Text.Contains(Text.NatToString(v.id), text)
    || Text.Contains(Text.NatToString(v.farmerId), text)
    || Text.Contains(Text.ToLower(v.buyerName), Text.ToLower(text))
    || Text.Contains(Text.ToLower(v.cropName), Text.ToLower(text))
  }

  /** `filteredOrders`. */
  function Search(vs: seq<OrderView>, text: string): (r: seq<OrderView>)
    ensures forall i :: 0 <= i < |r| ==> Matches(r[i], text) && r[i] in vs
    ensures forall i :: 0 <= i < |vs| && Matches(vs[i], text) ==> vs[i] in r
    ensures IsSubsequence(r, vs)
  {
    var p: OrderView -> bool := v => Matches(v, text);
    FilterIsSubsequence(vs, p);
    Filter(vs, p)
  }

  /** An empty search keeps every order, in order. */
  lemma EmptySearchKeepsAll(vs: seq<OrderView>)
    ensures Search(vs, "") == vs
  {
    var p: OrderView -> bool := v => Matches(v, "");
    forall i | 0 <= i < |vs| ensures p(vs[i]) {
      Text.EmptyContained(Text.NatToString(vs[i].id));
    }
    FilterAll(vs, p);
  }

  /** The assignment button: an ACCEPTED order with no distributor (an id of
      0 is falsy in the browser too). */
  predicate ShowsAssign(v: OrderView)
  {
    v.status == Accepted && (v.distributorId.None? || v.distributorId == Some(0))
  }

  /** The button is offered only on an order the server would hand to any
      distributor account. */
  lemma AssignButtonAccepted(w: World, k: Id, d: Id)
    requires Wf(w) && k in w.orders && d in w.users && w.users[d].role == Distributor
    requires ShowsAssign(OrderDto(w, w.orders[k]))
    ensures OrderService.AssignToDistributor(w, k, d).result.Success?
  {
  }

  /** With a service object that declares both picker methods and lists the
      distributor accounts, choosing any listed distributor for an order that
      shows the button sends the request, and the server assigns the order to
      that distributor. */
  lemma AssignReachesServer(w: World, k: Id, listed: seq<Id>, i: nat)
    requires Wf(w) && k in w.orders
    requires ShowsAssign(OrderDto(w, w.orders[k]))
    requires forall j :: 0 <= j < |listed| ==> listed[j] in w.users && w.users[listed[j]].role == Distributor
    requires i < |listed|
    ensures var choice := Options(Loaded(Complete, listed))[i + 1];
            Submit(Complete, Some(OrderDto(w, w.orders[k]).id), choice) == Posted(k, Text.NatToString(listed[i]))
    ensures OrderService.AssignToDistributor(w, k, listed[i]).result.Success?
  {
    ReadOrder(w, k);
    CompletePosts(listed, k, i);
    AssignButtonAccepted(w, k, listed[i]);
  }
}

=== FILE: admin_service.dfy ===
/** The admin's farmer-account queue: the FARMER accounts still PENDING, and
    their approval. */
module AdminService {
  import opened Wrappers
  import opened Tables
  import opened Domain
  import opened Schema
  import Seqs

  /** Still waiting: a FARMER account in PENDING. */
  predicate AwaitsApproval(u: User)
  {
    u.role == Role.Farmer && u.status == UserStatus.Pending
  }

  /** `getPendingFarmers`: the waiting farmer accounts, in the order `findAll` lists them. */
  function PendingFarmers(w: World): (r: seq<User>)
    requires Wf(w)
    ensures forall u :: u in r <==> u in w.users.Values && u.role == Role.Farmer && u.status == UserStatus.Pending
    ensures Seqs.IsSubsequence(r, FindAll(w.users, w.nextId))
    ensures |r| == |set k | k in w.users && AwaitsApproval(w.users[k])|
  {
    var p: User -> bool := AwaitsApproval;
    Seqs.FilterIsSubsequence(FindAll(w.users, w.nextId), p);
    FindAllWhereCount(w.users, w.nextId, p);
    assert IdsWhere(w.users, p) == set k | k in w.users && AwaitsApproval(w.users[k]);
    FindAllWhere(w.users, w.nextId, p)
  }

  /** `approveFarmer`: the account's status becomes VERIFIED and nothing else
      changes; an unknown id fails the bare `orElseThrow()`. */
  function ApproveFarmer(w: World, userId: Id): (r: Tx<()>)
    requires Wf(w)
    ensures r.result.Failure? ==> r.world == w
    ensures r.result.Failure? <==> userId !in w.users
    ensures r.result.Failure? ==> r.result.error == NoSuchElement
    ensures r.result.Success? ==>
              && userId in r.world.users
              && r.world.users[userId].status == UserStatus.Verified
              && r.world.users[userId].(status := w.users[userId].status) == w.users[userId]
              && r.world == w.(users := w.users[userId := r.world.users[userId]])
    ensures Wf(r.world)
  {
    if userId !in w.users then Fail(w, NoSuchElement)
    else Tx(PutUser(w, w.users[userId].(status := UserStatus.Verified)), Success(()))
  }

  /** An approved farmer leaves the queue, and nobody else does. */
  lemma ApprovalLeavesQueue(w: World, userId: Id)
    requires Wf(w) && userId in w.users
    ensures var w' := ApproveFarmer(w, userId).world;
            && w'.users[userId] !in PendingFarmers(w')
            && forall k :: k in w.users && k != userId ==> (w.users[k] in PendingFarmers(w) <==> w'.users[k] in PendingFarmers(w'))
  {
  }
}

=== FILE: api.dfy ===
/** The response envelope every endpoint returns. */
module Api {
  import opened Wrappers

  datatype ApiResponse<T> = ApiResponse(success: bool, message: string, data: Option<T>, statusCode: int)

  /** The three-argument constructor: the status code follows the success flag. */
  function Respond<T>(success: bool, message: string, data: Option<T>): (r: ApiResponse<T>)
    ensures r.success == success && r.message == message && r.data == data
    ensures r.statusCode == 200 <==> success
    ensures r.statusCode == 400 <==> !success
  {
    ApiResponse(success, message, data, if success then 200 else 400)
  }

  /** A `ResponseEntity`: the HTTP status and the envelope sent with it. */
  datatype Reply<T> = Reply(status: int, body: ApiResponse<T>)
}

=== FILE: auth.dfy ===
/** Sign-up, sign-in and the admin's account approval. New accounts wait in
    PENDING until an admin verifies them; only ACTIVE accounts receive a token.
    The password encoder and the token issuer are parameters. */
module AuthService {
  import opened Wrappers
  import opened Tables
  import opened Domain
  import opened Schema
  import opened Ledger
  import Text
  import UserEntity

  datatype RegisterRequest = RegisterRequest(
    email: string, name: string, password: string, role: string,
    address: Option<string>, walletAddress: Option<string>)

  datatype LoginResponse = LoginResponse(token: string, tokenType: string, user: User)

  // -------------------------------------------------------------- register

  /** The account a registration saves: PENDING, unverified, with the encoded
      password and the role's opening balance. */
  function NewAccount(id: Id, req: RegisterRequest, role: Role, encode: string -> string, now: Time): (u: User)
    ensures u.id == id && u.email == req.email && u.role == role && u.password == encode(req.password)
    ensures u.status == UserStatus.Pending && !u.isVerified
    ensures u.balance == Some(UserEntity.OpeningBalance(role))
    ensures u.address == req.address && u.walletAddress == req.walletAddress
  {
    UserEntity.OpensWithRoleBalance(id, req.email, req.name, encode(req.password), role, req.walletAddress, req.address, now);
    UserEntity.OnCreate(UserEntity.Built(id, req.email, req.name, encode(req.password), role,
                                         req.walletAddress, req.address), now)
  }

  /** The placeholder profile a farmer's registration creates; the farm sits at
      the registration address when one was given. */
  function DefaultProfile(id: Id, userId: Id, address: Option<string>): (f: FarmerProfile)
    ensures f.id == id && f.userId == userId
    ensures f.verificationStatus == VerificationStatus.Pending
    ensures f.fields.farmLocation == Some(address.GetOr("Not specified"))
    ensures f.fields.farmName == Some("Default Farm") && f.fields.cropType == Some("GENERAL")
    ensures f.verifiedBy.None? && f.rejectionReason.None?
  {
    var fields := ProfileFields(Some("Default Farm"), Some(address.GetOr("Not specified")), None, None, None,
                                Some("GENERAL"), None, None, None, None, None, None, None, None, None, None, None);
    FarmerProfile(id, userId, fields, VerificationStatus.Pending, None, None, None)
  }

  /** An email is taken when some account already uses it (`existsByEmail`). */
  predicate EmailInUse(w: World, email: string)
  {
    exists k :: k in w.users && w.users[k].email == email
  }

  /** `register`: a taken email is refused first, then an unknown role name; a
      FARMER also gets a PENDING placeholder profile. */
  function Register(w: World, req: RegisterRequest, encode: string -> string, now: Time): (r: Tx<User>)
    requires Wf(w)
    ensures r.result.Failure? ==> r.world == w
    ensures EmailInUse(w, req.email) ==> r.result == Failure(EmailTaken)
    ensures !EmailInUse(w, req.email) && ParseRole(req.role).None? ==> r.result == Failure(IllegalArgument)
    ensures r.result.Success? <==> !EmailInUse(w, req.email) && ParseRole(req.role).Some?
    ensures r.result.Success? ==>
              var u := r.result.value;
              && u.id == w.nextId && r.world.users == w.users[u.id := u]
              && u.email == req.email && RoleName(u.role) == Text.ToUpper(req.role)
              && u.status == UserStatus.Pending && !u.isVerified
              && u.password == encode(req.password)
              && Total(r.world) == Total(w) + UserEntity.OpeningBalance(u.role)
              && (u.role != Role.Farmer ==> r.world.farmers == w.farmers)
              && (u.role == Role.Farmer ==>
                    r.world.farmers == w.farmers[u.id + 1 := DefaultProfile(u.id + 1, u.id, req.address)])
              && r.world.crops == w.crops && r.world.orders == w.orders
    ensures Wf(r.world)
    ensures EmailsUnique(w.users) ==> EmailsUnique(r.world.users)
  {
    if FindBy(w.users, w.nextId, (u: User) => u.email == req.email).Some? then Fail(w, EmailTaken)
    else match ParseRole(req.role)
      case None => Fail(w, IllegalArgument)
      case Some(role) =>
        var u := NewAccount(w.nextId, req, role, encode, now);
        var w1 := w.(users := w.users[u.id := u], nextId := w.nextId + 1);
        InsertUser(w, u);
        InsertUserTotal(w, u);
        if role == Role.Farmer then
          var f := DefaultProfile(w1.nextId, u.id, req.address);
          var w2 := w1.(farmers := w1.farmers[f.id := f], nextId := w1.nextId + 1);
          InsertFarmer(w1, f);
          AdvanceKeepsTotal(w1, w2);
          Tx(w2, Success(u))
        else Tx(w1, Success(u))
  }

  // ----------------------------------------------------------------- login

  /** `findByEmail`: the account registered under `email`. */
  function AccountByEmail(w: World, email: string): (r: Option<Id>)
    requires Wf(w)
    ensures r.Some? ==> r.value in w.users && w.users[r.value].email == email
    ensures r.None? <==> forall k :: k in w.users ==> w.users[k].email != email
  {
    FindBy(w.users, w.nextId, (u: User) => u.email == email)
  }

  /** Why a sign-in is refused, in the order the service checks: credentials,
      then SUSPENDED, then PENDING, then any other status but ACTIVE. An
      unknown email and a wrong password give the same answer. */
  function LoginRefusal(w: World, email: string, password: string, matches: (string, string) -> bool): (e: Option<AuthFailure>)
    requires Wf(w)
    ensures AccountByEmail(w, email).None? ==> e == Some(BadCredentials)
    ensures AccountByEmail(w, email).Some? ==>
              var u := w.users[AccountByEmail(w, email).value];
              && (!matches(password, u.password) ==> e == Some(BadCredentials))
              && (matches(password, u.password) && u.status == Suspended ==> e == Some(Blocked))
              && (matches(password, u.password) && u.status == UserStatus.Pending ==> e == Some(AwaitingApproval))
              && (e.None? <==> matches(password, u.password) && u.status == Active)
    ensures e != Some(NotAuthenticated)
  {
    match AccountByEmail(w, email)
    case None => Some(BadCredentials)
    case Some(k) =>
      var u := w.users[k];
      if !matches(password, u.password) then Some(BadCredentials)
      else if u.status == Suspended then Some(Blocked)
      else if u.status == UserStatus.Pending then Some(AwaitingApproval)
      else if u.status != Active then Some(NotActive)
      else None
  }

  /** `login`: an ACTIVE account with the right password is stamped with the
      sign-in time and handed a bearer token for its email, role and id. */
  function Login(w: World, email: string, password: string, matches: (string, string) -> bool,
                 issue: (string, string, Id) -> string, now: Time): (r: Tx<LoginResponse>)
    requires Wf(w)
    ensures r.result.Failure? ==> r.world == w
    ensures r.result.Failure? <==> LoginRefusal(w, email, password, matches).Some?
    ensures r.result.Failure? ==> r.result.error == Unauthorized(LoginRefusal(w, email, password, matches).value)
    ensures r.result.Success? ==>
              var k := AccountByEmail(w, email).value;
              var u := r.result.value.user;
              && u == w.users[k].(lastLogin := Some(now))
              && u.status == Active && u.email == email
              && r.result.value.tokenType == "Bearer"
              && r.result.value.token == issue(u.email, RoleName(u.role), u.id)
              && r.world == w.(users := w.users[k := u])
    ensures Wf(r.world) && Total(r.world) == Total(w)
  {
    match LoginRefusal(w, email, password, matches)
    case Some(why) => Fail(w, Unauthorized(why))
    case None =>
      var k := AccountByEmail(w, email).value;
      var u := w.users[k].(lastLogin := Some(now));
      SumUpdate(w.users, k, u, 0, w.nextId);
      Tx(PutUser(w, u), Success(LoginResponse(issue(u.email, RoleName(u.role), u.id), "Bearer", u)))
  }

  /** The same wrong answer for an unknown email and for a known email with the wrong password. */
  lemma NoAccountProbing(w: World, email: string, other: string, password: string,
                         matches: (string, string) -> bool, issue: (string, string, Id) -> string, now: Time)
    requires Wf(w)
    requires AccountByEmail(w, email).None?
    requires AccountByEmail(w, other).Some? && !matches(password, w.users[AccountByEmail(w, other).value].password)
    ensures Login(w, email, password, matches, issue, now).result
         == Login(w, other, password, matches, issue, now).result
         == Failure(Unauthorized(BadCredentials))
  {
  }

  /** With unique emails, sign-in succeeds exactly for an ACTIVE account under that email whose password matches. */
  lemma LoginIffActive(w: World, email: string, password: string, matches: (string, string) -> bool)
    requires Wf(w) && EmailsUnique(w.users)
    ensures LoginRefusal(w, email, password, matches).None? <==>
              exists k :: k in w.users && w.users[k].email == email
                          && matches(password, w.users[k].password) && w.users[k].status == Active
  {
    if k :| k in w.users && w.users[k].email == email
                          && matches(password, w.users[k].password) && w.users[k].status == Active {
      assert AccountByEmail(w, email) == Some(k);
    }
  }

  // ------------------------------------------------------ account approval

  /** `verifyUser`: the account becomes ACTIVE and verified. */
  function VerifyUser(w: World, userId: Id): (r: Tx<User>)
    requires Wf(w)
    ensures r.result.Failure? ==> r.world == w
    ensures r.result.Failure? <==> userId !in w.users
    ensures r.result.Failure? ==> r.result.error == NotFound(UserRow)
    ensures r.result.Success? ==>
              && r.result.value == w.users[userId].(status := Active, isVerified := true)
              && r.world == w.(users := w.users[userId := r.result.value])
    ensures Wf(r.world)
  {
    if userId !in w.users then Fail(w, NotFound(UserRow))
    else
      var u := w.users[userId].(status := Active, isVerified := true);
      Tx(PutUser(w, u), Success(u))
  }

  /** `rejectUser`: the account is SUSPENDED, which blocks sign-in. */
  function RejectUser(w: World, userId: Id): (r: Tx<User>)
    requires Wf(w)
    ensures r.result.Failure? ==> r.world == w
    ensures r.result.Failure? <==> userId !in w.users
    ensures r.result.Failure? ==> r.result.error == NotFound(UserRow)
    ensures r.result.Success? ==>
              && r.result.value == w.users[userId].(status := Suspended)
              && r.world == w.(users := w.users[userId := r.result.value])
    ensures Wf(r.world)
  {
    if userId !in w.users then Fail(w, NotFound(UserRow))
    else
      var u := w.users[userId].(status := Suspended);
      Tx(PutUser(w, u), Success(u))
  }

  /** A verified account can sign in with its password; a rejected one is told it is blocked. */
  lemma ApprovalGatesLogin(w: World, userId: Id, password: string, matches: (string, string) -> bool)
    requires Wf(w) && EmailsUnique(w.users) && userId in w.users
    requires matches(password, w.users[userId].password)
    ensures var w' := VerifyUser(w, userId).world;
            LoginRefusal(w', w.users[userId].email, password, matches).None?
    ensures var w' := RejectUser(w, userId).world;
            LoginRefusal(w', w.users[userId].email, password, matches) == Some(Blocked)
  {
    var email := w.users[userId].email;
    var w1 := VerifyUser(w, userId).world;
    var w2 := RejectUser(w, userId).world;
    assert w1.users[userId].email == email;
    var k1 := AccountByEmail(w1, email).value;
    assert w.users[k1].email == email;
    assert w2.users[userId].email == email;
    var k2 := AccountByEmail(w2, email).value;
    assert w.users[k2].email == email;
  }
}

=== FILE: blockchain.dfy ===
/** The ledger-contract client. A connected node answers each call with a
    transaction hash; when the node is unreachable, the private key is unusable
    or the submission throws, the service falls back to a simulated hash.
    SHA-256 and Base64 are taken as a parameter `digest`. */
module Blockchain {
  import opened Wrappers
  import opened Tables
  import Text

  /** The condition text attached to a shipment event: a fixed note, or the
      sensor readings rendered as "Temp: <t>, Hum: <h>". */
  datatype Condition = Note(text: string) | Readings(temperature: Option<real>, humidity: Option<real>)

  /** A call the service submits to the contract. */
  datatype Call =
    | RegisterCrop(cropId: Id, data: string)
    | TransferOwnership(cropId: Id, owner: string)
    | LogShipment(orderId: Id, location: Option<string>, condition: Condition)

  /** The node as `init` left it: connected with a valid key or not, and the
      hash the node returns for each call (`None` when sending throws). */
  datatype Node = Node(connected: bool, send: Call -> Option<string>)

  /** The digest `generateBlockchainHash` computes: Base64 of a SHA-256 value,
      which is always 44 characters. */
  type Digest = string -> string

  ghost predicate IsBase64Sha256(digest: Digest)
  {
    forall s :: |digest(s)| == 44
  }

  /** A key is usable when present, at least 64 characters, and not of the all-zero form. */
  predicate IsValidPrivateKey(key: Option<string>)
  {
    key.Some? && |key.value| >= 64 && !Text.StartsWith(key.value, "0x0000")
  }

  /** `init`: connected exactly when the node answered the version probe, the
      key is valid, and `Credentials.create` accepted it (`parses`). A long key
      that is not hexadecimal makes `Credentials.create` throw; `init` catches
      that and stays in simulation. */
  function Connect(responds: bool, key: Option<string>, parses: bool): (r: bool)
    ensures r <==> responds && parses && key.Some? && |key.value| >= 64 && key.value[..6] != "0x0000"
  {
    responds && IsValidPrivateKey(key) && parses
  }

  /** The hash a connected node returns for `call`, if any. */
  function Submit(node: Node, call: Call): Option<string>
  {
    if node.connected then node.send(call) else None
  }

  /** Compares a stored hash with the digest of the record's data. */
  function VerifyRecord(digest: Digest, hash: string, data: string): (r: bool)
    ensures r <==> digest(data) == hash
  {
    digest(data) == hash
  }

  /** A record verifies against the hash computed from its own data. */
  lemma VerifyGenerated(digest: Digest, data: string)
    ensures VerifyRecord(digest, digest(data), data)
  {
  }

  const OwnershipPrefix := "SIM_TX_OWNERSHIP_"
  const ShipmentPrefix := "SIM_TX_SHIPMENT_"

  /** `transferOwnership`: the node's hash, or the simulated `SIM_TX_OWNERSHIP_<cropId>`. */
  function TransferOwnershipTx(node: Node, cropId: Id, owner: string): (r: string)
    ensures Submit(node, TransferOwnership(cropId, owner)).None? ==>
              r == OwnershipPrefix + Text.NatToString(cropId)
  {
    Submit(node, TransferOwnership(cropId, owner)).GetOr(OwnershipPrefix + Text.NatToString(cropId))
  }

  /** `logShipment`: the node's hash, or the simulated `SIM_TX_SHIPMENT_<orderId>`. */
  function LogShipmentTx(node: Node, orderId: Id, location: Option<string>, condition: Condition): (r: string)
    ensures Submit(node, LogShipment(orderId, location, condition)).None? ==>
              r == ShipmentPrefix + Text.NatToString(orderId)
  {
    Submit(node, LogShipment(orderId, location, condition)).GetOr(ShipmentPrefix + Text.NatToString(orderId))
  }

  /** Simulated ownership hashes name the crop: two crops never share one. */
  lemma SimulatedOwnershipDistinct(a: Id, b: Id)
    requires OwnershipPrefix + Text.NatToString(a) == OwnershipPrefix + Text.NatToString(b)
    ensures a == b
  {
    var n := |OwnershipPrefix|;
    assert Text.NatToString(a) == (OwnershipPrefix + Text.NatToString(a))[n..];
    assert Text.NatToString(b) == (OwnershipPrefix + Text.NatToString(b))[n..];
    Text.NatToStringInjective(a, b);
  }

  /** `simulateTransaction`: "0x" followed by the first 64 characters of two
      concatenated digests; `stamp` is the current time's text and `nanos`
      the nanosecond counter's. */
  function SimulateTransaction(digest: Digest, cropId: Id, cropData: string, stamp: string, nanos: string): (r: string)
    requires IsBase64Sha256(digest)
    ensures |r| == 66
    ensures r[..2] == "0x"
    ensures r[2..] == digest(Text.NatToString(cropId) + ":" + cropData + ":" + stamp)[..]
                      + digest(Text.NatToString(cropId) + ":" + cropData + ":" + stamp + ":" + nanos)[..20]
  {
    var dataToHash := Text.NatToString(cropId) + ":" + cropData + ":" + stamp;
    var hash := digest(dataToHash);
    var extended := digest(dataToHash + ":" + nanos);
    "0x" + (hash + extended)[..64]
  }

  /** `registerCropOnBlockchain`: the node's hash, or a simulated one. */
  function RegisterCropTx(node: Node, digest: Digest, cropId: Id, cropData: string, stamp: string, nanos: string): (r: string)
    requires IsBase64Sha256(digest)
    ensures Submit(node, RegisterCrop(cropId, cropData)).Some? ==> r == Submit(node, RegisterCrop(cropId, cropData)).value
    ensures Submit(node, RegisterCrop(cropId, cropData)).None? ==> |r| == 66 && r[..2] == "0x"
  {
    match Submit(node, RegisterCrop(cropId, cropData))
    case Some(h) => h
    case None => SimulateTransaction(digest, cropId, cropData, stamp, nanos)
  }
}

=== FILE: client_auth.dfy ===
/** The browser's session: a token and a cached user kept in local storage.
    Decoding the token's payload (`atob` and `JSON.parse`) is a parameter
    `decode`, which gives `None` where the browser would throw; the clock is
    the parameter `nowMs`, in milliseconds. */
module ClientAuth {
  import opened Wrappers

  /** The user object the client keeps; a missing property is `None`. */
  datatype ClientUser = ClientUser(id: Option<int>, email: Option<string>, role: Option<string>)

  /** The claims a token's payload carries. */
  datatype Payload = Payload(userId: Option<int>, sub: Option<string>, role: Option<string>, exp: Option<real>)

  /** The two local-storage keys. */
  datatype Storage = Storage(token: Option<string>, user: Option<ClientUser>)

  /** The login endpoint's `data`: a token (possibly absent) and the user. */
  datatype LoginData = LoginData(token: Option<string>, user: ClientUser)

  /** A stored token counts only when it is a non-empty text (JavaScript truthiness). */
  predicate HasToken(s: Storage)
  {
    s.token.Some? && s.token.value != ""
  }

  /** `isAuthenticated`: a stored token whose payload decodes and whose expiry
      lies after the current time in seconds. A malformed token gives false. */
  function IsAuthenticated(s: Storage, decode: string -> Option<Payload>, nowMs: int): (r: bool)
    ensures !HasToken(s) ==> !r
    ensures HasToken(s) && decode(s.token.value).None? ==> !r
    ensures r <==> HasToken(s) && decode(s.token.value).Some? && decode(s.token.value).value.exp.Some?
                   && decode(s.token.value).value.exp.value > nowMs as real / 1000.0
  {
    if !HasToken(s) then false
    else match decode(s.token.value)
      case None => false
      case Some(p) => p.exp.Some? && p.exp.value > nowMs as real / 1000.0
  }

  /** `getCurrentUser`: the cached user when there is one, otherwise the
      token's claims, otherwise nothing. */
  function CurrentUser(s: Storage, decode: string -> Option<Payload>): (r: Option<ClientUser>)
    ensures s.user.Some? ==> r == s.user
    ensures s.user.None? && !HasToken(s) ==> r.None?
    ensures s.user.None? && HasToken(s) ==>
              match decode(s.token.value)
              case None => r.None?
              case Some(p) => r == Some(ClientUser(p.userId, p.sub, p.role))
  {
    if s.user.Some? then s.user
    else if !HasToken(s) then None
    else match decode(s.token.value)
      case None => None
      case Some(p) => Some(ClientUser(p.userId, p.sub, p.role))
  }

  /** `login`: the token and user are stored only when a token came back. */
  function Login(s: Storage, data: LoginData): (s': Storage)
    ensures data.token.Some? && data.token.value != "" ==> s' == Storage(data.token, Some(data.user))
    ensures !(data.token.Some? && data.token.value != "") ==> s' == s
  {
    if data.token.Some? && data.token.value != "" then Storage(data.token, Some(data.user)) else s
  }

  /** `logout`: both keys are removed. */
  function Logout(s: Storage): (s': Storage)
    ensures s'.token.None? && s'.user.None?
  {
    Storage(None, None)
  }

  /** After logging out nobody is signed in, whatever the clock says. */
  lemma LogoutSignsOut(s: Storage, decode: string -> Option<Payload>, nowMs: int)
    ensures !IsAuthenticated(Logout(s), decode, nowMs)
    ensures CurrentUser(Logout(s), decode).None?
  {
  }

  /** After a login that returned a token, the cached user is the one the
      server sent, and the session lasts exactly as long as the token. */
  lemma LoginThenCurrentUser(s: Storage, data: LoginData, decode: string -> Option<Payload>, nowMs: int)
    requires data.token.Some? && data.token.value != ""
    ensures CurrentUser(Login(s, data), decode) == Some(data.user)
    ensures IsAuthenticated(Login(s, data), decode, nowMs) <==>
              decode(data.token.value).Some? && decode(data.token.value).value.exp.Some?
              && decode(data.token.value).value.exp.value > nowMs as real / 1000.0
  {
  }

  /** Whoever is authenticated has a current user: the guard's role check
      never reads a missing user. */
  lemma AuthenticatedHasUser(s: Storage, decode: string -> Option<Payload>, nowMs: int)
    requires IsAuthenticated(s, decode, nowMs)
    ensures CurrentUser(s, decode).Some?
  {
  }
}

=== FILE: crops.dfy ===
/** Crop listings and their integrity record. On creation the service renders
    a crop as the colon-joined text "id:name:quantity:harvest:origin:quality",
    stores its digest, and registers it on the ledger; verification re-renders
    the stored crop and compares digests. The decimal rendering of a quantity
    (`BigDecimal.toString`) is a parameter `show`. */
module CropService {
  import opened Wrappers
  import opened Tables
  import opened Domain
  import opened Schema
  import opened Ledger
  import Text
  import Blockchain
  import OrderService

  datatype CropRequest = CropRequest(
    cropName: string, quantityKg: Money, harvestDate: string,
    qualityCertificateUrl: Option<string>, originLocation: Option<string>, qualityData: Option<string>)

  /** Java's string conversion of a nullable text. */
  function OrNull(s: Option<string>): (r: string)
    ensures s.Some? ==> r == s.value
    ensures s.None? ==> r == "null"
  {
    s.GetOr("null")
  }

  /** The text a crop's integrity record is computed from. */
  function Record(c: Crop, show: Money -> string): string
  {
    Text.NatToString(c.id) + ":" + c.cropName + ":" + show(c.quantityKg) + ":" + c.harvestDate + ":"
      + OrNull(c.originLocation) + ":" + OrNull(c.qualityData)
  }

  // ---------------------------------------------------------------- addCrop

  /** The crop `addCrop` saves: the request's fields, with the origin falling
      back to the farm's location. */
  function NewCrop(id: Id, farmerId: Id, farm: FarmerProfile, req: CropRequest): (c: Crop)
    ensures c.id == id && c.farmerId == farmerId
    ensures req.originLocation.Some? ==> c.originLocation == req.originLocation
    ensures req.originLocation.None? ==> c.originLocation == farm.fields.farmLocation
    ensures c.blockchainHash.None? && c.pricePerKg.None?
  {
    Crop(id, farmerId, req.cropName, req.quantityKg, None, req.harvestDate, req.qualityCertificateUrl,
         if req.originLocation.Some? then req.originLocation else farm.fields.farmLocation,
         req.qualityData, None, None)
  }

  /** `addCrop`: the crop is saved, its record digested and stored, and the
      record registered on the ledger. */
  function AddCrop(w: World, node: Blockchain.Node, digest: Blockchain.Digest, show: Money -> string,
                   stamp: string, nanos: string, farmerId: Id, req: CropRequest): (r: Tx<Crop>)
    requires Wf(w) && Blockchain.IsBase64Sha256(digest)
    ensures r.result.Failure? <==> farmerId !in w.farmers
    ensures r.result.Failure? ==> r.world == w && r.result.error == NotFound(FarmerRow)
    ensures r.result.Success? ==>
              var c := r.result.value;
              && c.id == w.nextId && c.farmerId == farmerId
              && c.cropName == req.cropName && c.quantityKg == req.quantityKg
              && (req.originLocation.Some? ==> c.originLocation == req.originLocation)
              && (req.originLocation.None? ==> c.originLocation == w.farmers[farmerId].fields.farmLocation)
              && c.blockchainHash == Some(digest(Record(c, show)))
              && c.blockchainTxHash == Some(Blockchain.RegisterCropTx(node, digest, c.id, Record(c, show), stamp, nanos))
              && r.world == w.(crops := w.crops[c.id := c], nextId := w.nextId + 1)
    ensures Wf(r.world) && Total(r.world) == Total(w)
  {
    if farmerId !in w.farmers then Fail(w, NotFound(FarmerRow))
    else
      var saved := NewCrop(w.nextId, farmerId, w.farmers[farmerId], req);
      var data := Record(saved, show);
      var c := saved.(blockchainHash := Some(digest(data)),
                      blockchainTxHash := Some(Blockchain.RegisterCropTx(node, digest, saved.id, data, stamp, nanos)));
      assert Record(c, show) == data;
      var w' := w.(crops := w.crops[c.id := c], nextId := w.nextId + 1);
      InsertCrop(w, c);
      AdvanceKeepsTotal(w, w');
      Tx(w', Success(c))
  }

  // -------------------------------------------------------------- queries

  /** `getCropById`. */
  function CropById(w: World, cropId: Id): (r: Result<Crop, Error>)
    ensures r.Success? <==> cropId in w.crops
    ensures r.Success? ==> r.value == w.crops[cropId]
    ensures r.Failure? ==> r.error == NotFound(CropRow)
  {
    if cropId in w.crops then Success(w.crops[cropId]) else Failure(NotFound(CropRow))
  }

  /** `getCropsByFarmer`. */
  function CropsByFarmer(w: World, farmerId: Id): (r: seq<Crop>)
    requires Wf(w)
    ensures forall c :: c in r <==> c in w.crops.Values && c.farmerId == farmerId
  {
    FindAllWhere(w.crops, w.nextId, (c: Crop) => c.farmerId == farmerId)
  }

  /** `getAllCrops`. */
  function AllCrops(w: World): (r: seq<Crop>)
    requires Wf(w)
    ensures forall c :: c in r <==> c in w.crops.Values
  {
    forall c ensures c in FindAll(w.crops, w.nextId) <==> c in w.crops.Values {
      FindAllComplete(w.crops, w.nextId, c);
    }
    FindAll(w.crops, w.nextId)
  }

  /** `getCropsWithBlockchainRecords`: the crops that carry a stored digest. */
  function CropsWithRecords(w: World): (r: seq<Crop>)
    requires Wf(w)
    ensures forall c :: c in r <==> c in w.crops.Values && c.blockchainHash.Some?
  {
    FindAllWhere(w.crops, w.nextId, (c: Crop) => c.blockchainHash.Some?)
  }

  // ------------------------------------------------- verifyBlockchainRecord

  /** `verifyBlockchainRecord`: false for a crop without a stored digest;
      otherwise whether the stored digest is the digest of the crop's record now. */
  function VerifyCropRecord(w: World, digest: Blockchain.Digest, show: Money -> string, cropId: Id): (r: Result<bool, Error>)
    ensures r.Failure? <==> cropId !in w.crops
    ensures r.Failure? ==> r.error == NotFound(CropRow)
    ensures r.Success? ==>
              (r.value <==> w.crops[cropId].blockchainHash == Some(digest(Record(w.crops[cropId], show))))
  {
    if cropId !in w.crops then Failure(NotFound(CropRow))
    else
      var c := w.crops[cropId];
      if c.blockchainHash.None? then Success(false)
      else Success(Blockchain.VerifyRecord(digest, c.blockchainHash.value, Record(c, show)))
  }

  /** A crop just added verifies. */
  lemma AddedCropVerifies(w: World, node: Blockchain.Node, digest: Blockchain.Digest, show: Money -> string,
                          stamp: string, nanos: string, farmerId: Id, req: CropRequest)
    requires Wf(w) && Blockchain.IsBase64Sha256(digest) && farmerId in w.farmers
    ensures var r := AddCrop(w, node, digest, show, stamp, nanos, farmerId, req);
            VerifyCropRecord(r.world, digest, show, r.result.value.id) == Success(true)
  {
  }

  /** Two texts around the same prefix and suffix are equal only if their middles are. */
  lemma {:induction false} CancelAround(p: string, x: string, y: string, s: string)
    requires p + x + s == p + y + s
    ensures x == y
  {
    var a, b := p + x + s, p + y + s;
    assert |x| == |y|;
    forall i | 0 <= i < |x| ensures x[i] == y[i] {
      assert x[i] == a[|p| + i];
      assert y[i] == b[|p| + i];
    }
  }

  ghost predicate Injective<A(!new), B>(f: A -> B)
  {
    forall a, b :: f(a) == f(b) ==> a == b
  }

  /** Selling from a crop rewrites its stock, and so its record: once an
      accepted order has deducted a non-zero quantity from a crop that
      verified, the crop no longer verifies (for a collision-free digest and a
      faithful decimal rendering). A real SHA-256 digest rendered as 44 Base64
      characters has finitely many values and so cannot be injective on
      strings; the lemma is about an idealised digest, and says only that a
      stale record fails to verify unless the hash collides. */
  lemma SaleInvalidatesRecord(w: World, digest: Blockchain.Digest, show: Money -> string, cropId: Id, qty: Money)
    requires Wf(w) && cropId in w.crops && qty != 0.0
    requires Injective(digest) && Injective(show)
    requires VerifyCropRecord(w, digest, show, cropId) == Success(true)
    ensures VerifyCropRecord(OrderService.DeductStock(w, cropId, qty), digest, show, cropId) == Success(false)
  {
    var c := w.crops[cropId];
    var c' := OrderService.DeductStock(w, cropId, qty).crops[cropId];
    assert c' == c.(quantityKg := c.quantityKg - qty);
    var p := Text.NatToString(c.id) + ":" + c.cropName + ":";
    var s := ":" + c.harvestDate + ":" + OrNull(c.originLocation) + ":" + OrNull(c.qualityData);
    assert Record(c, show) == p + show(c.quantityKg) + s;
    assert Record(c', show) == p + show(c'.quantityKg) + s;
    assert show(c.quantityKg) != show(c'.quantityKg);
    if Record(c, show) == Record(c', show) {
      CancelAround(p, show(c.quantityKg), show(c'.quantityKg), s);
    }
  }
}

=== FILE: distributor.dfy ===
/** The distributor's side of fulfilment: listing the orders assigned to it,
    opening a shipment for one, reporting progress in transit, and confirming
    delivery, which seals the custody record and pays the distributor its fee. */
module DistributorService {
  import opened Wrappers
  import opened Tables
  import opened Domain
  import opened Schema
  import opened Ledger
  import Blockchain
  import Text
  import ShipmentLogService
  import LogisticsService

  datatype ShipmentRequest = ShipmentRequest(
    orderId: Id, origin: Option<string>, destination: Option<string>, transportMode: Option<TransportMode>)

  datatype StatusReport = StatusReport(
    status: Option<ShipmentStatus>,
    currentLocation: Option<string>,
    temperature: Option<real>,
    humidity: Option<real>,
    notes: Option<string>)

  datatype DeliveryConfirmation = DeliveryConfirmation(
    orderId: Id, shipmentId: Id, custodyHash: string, blockchainTxHash: Option<string>, message: string)

  /** The distributor's share of an order's price. */
  const DeliveryFeeRate: real := 0.07

  /** The user exists and is a distributor. */
  function CheckDistributor(w: World, d: Id): (e: Option<Error>)
    ensures e.None? <==> d in w.users && w.users[d].role == Distributor
    ensures d !in w.users ==> e == Some(NotFound(UserRow))
  {
    if d !in w.users then Some(NotFound(UserRow))
    else if w.users[d].role != Distributor then Some(Refused(NotADistributor))
    else None
  }

  /** `getAssignedOrders`. */
  function AssignedOrders(w: World, d: Id): (r: Result<seq<Order>, Error>)
    requires Wf(w)
    ensures r.Success? <==> d in w.users && w.users[d].role == Distributor
    ensures r.Success? ==> forall o :: o in r.value <==> o in w.orders.Values && o.distributorId == Some(d)
  {
    match CheckDistributor(w, d)
    case Some(e) => Failure(e)
    case None => Success(FindAllWhere(w.orders, w.nextId, (o: Order) => o.distributorId == Some(d)))
  }

  /** `getAssignedOrdersByStatus`. */
  function AssignedOrdersByStatus(w: World, d: Id, status: OrderStatus): (r: Result<seq<Order>, Error>)
    requires Wf(w)
    ensures r.Success? <==> d in w.users && w.users[d].role == Distributor
    ensures r.Success? ==> forall o :: o in r.value <==>
              o in w.orders.Values && o.distributorId == Some(d) && o.status == status
  {
    match CheckDistributor(w, d)
    case Some(e) => Failure(e)
    case None =>
      Success(FindAllWhere(w.orders, w.nextId, (o: Order) => o.distributorId == Some(d) && o.status == status))
  }

  // ------------------------------------------------------- custody hash

  predicate IsLowerHex(c: char) { '0' <= c <= '9' || 'a' <= c <= 'f' }
  predicate IsUpperHex(c: char) { '0' <= c <= '9' || 'A' <= c <= 'F' }

  /** The lower-case hexadecimal SHA-256 rendering: always 64 hex digits. */
  ghost predicate IsHexSha256(hex: string -> string)
  {
    forall s :: |hex(s)| == 64 && forall i :: 0 <= i < 64 ==> IsLowerHex(hex(s)[i])
  }

  /** `generateCustodyHash`: "CUSTODY-" and the first 16 digest digits, upper-cased,
      of "<orderId>-<shipmentId>-<time>". */
  function CustodyHash(hex: string -> string, orderId: Id, shipmentId: Id, stamp: string): (r: string)
    requires IsHexSha256(hex)
    ensures |r| == 24 && r[..8] == "CUSTODY-"
    ensures forall i :: 8 <= i < 24 ==> IsUpperHex(r[i])
  {
    var data := Text.NatToString(orderId) + "-" + Text.NatToString(shipmentId) + "-" + stamp;
    "CUSTODY-" + Text.ToUpper(hex(data)[..16])
  }

  // ----------------------------------------------------- createShipment

  /** Why `createShipment` refuses, in the order the service checks. */
  function CreateShipmentRefusal(w: World, d: Id, req: ShipmentRequest): (e: Option<Error>)
    requires Wf(w)
    ensures e.None? <==>
              && d in w.users && w.users[d].role == Distributor
              && req.orderId in w.orders
              && w.orders[req.orderId].distributorId == Some(d)
              && w.orders[req.orderId].status == Assigned
              && (forall s :: s in w.shipments ==> w.shipments[s].orderId != req.orderId)
  {
    if CheckDistributor(w, d).Some? then CheckDistributor(w, d)
    else if req.orderId !in w.orders then Some(NotFound(OrderRow))
    else if w.orders[req.orderId].distributorId != Some(d) then Some(Refused(OrderNotYours))
    else if w.orders[req.orderId].status != Assigned then Some(Refused(OrderNotAssigned))
    else if ShipmentOfOrder(w, req.orderId).Some? then Some(Refused(DuplicateShipment))
    else None
  }

  /** `createShipment`: the order leaves ASSIGNED for IN_TRANSIT, a PICKED_UP
      shipment starts at the origin, and the pickup is logged. */
  function CreateShipment(w: World, node: Blockchain.Node, d: Id, req: ShipmentRequest): (r: Tx<Id>)
    requires Wf(w)
    ensures r.result.Failure? ==> r.world == w
    ensures r.result.Success? <==> CreateShipmentRefusal(w, d, req).None?
    ensures r.result.Success? ==>
              var id := r.result.value;
              && id == w.nextId && id in r.world.shipments
              && r.world.shipments[id].orderId == req.orderId
              && r.world.shipments[id].distributorId == Some(d)
              && r.world.shipments[id].status == ShipmentStatus.PickedUp
              && r.world.shipments[id].currentLocation == req.origin
              && r.world.shipments[id].origin == req.origin
              && r.world.shipments[id].destination == req.destination
              && r.world.shipments[id].transportMode == req.transportMode
              && r.world.shipments[id].blockchainTxHash.Some?
              && r.world.shipments.Keys == w.shipments.Keys + {id}
              && (forall k :: k in w.shipments ==> r.world.shipments[k] == w.shipments[k])
              && r.world.crops == w.crops && r.world.farmers == w.farmers
              && r.world.orders == w.orders[req.orderId := w.orders[req.orderId].(status := OrderStatus.InTransit)]
              && r.world.users == w.users
              && |r.world.logs| == |w.logs| + 1 && r.world.logs[..|w.logs|] == w.logs
              && r.world.logs[|w.logs|].shipmentId == id
              && r.world.logs[|w.logs|].action == ShipmentAction.PickedUp
              && r.world.logs[|w.logs|].location == req.origin
    ensures Wf(r.world) && Total(r.world) == Total(w)
  {
    match CreateShipmentRefusal(w, d, req)
    case Some(e) => Fail(w, e)
    case None =>
      PickupEffects(w, node, d, req);
      Tx(Pickup(w, node, d, req), Success(w.nextId))
  }

  /** What a pickup changes, field by field, and that nothing else changes. */
  lemma PickupEffects(w: World, node: Blockchain.Node, d: Id, req: ShipmentRequest)
    requires Wf(w) && CreateShipmentRefusal(w, d, req).None?
    ensures var id, w' := w.nextId, Pickup(w, node, d, req);
            && id !in w.shipments && id in w'.shipments
            && w'.shipments[id].orderId == req.orderId
            && w'.shipments[id].distributorId == Some(d)
            && w'.shipments[id].status == ShipmentStatus.PickedUp
            && w'.shipments[id].currentLocation == req.origin
            && w'.shipments[id].origin == req.origin
            && w'.shipments[id].destination == req.destination
            && w'.shipments[id].transportMode == req.transportMode
            && w'.shipments[id].blockchainTxHash.Some?
            && w'.shipments.Keys == w.shipments.Keys + {id}
            && (forall k :: k in w.shipments ==> w'.shipments[k] == w.shipments[k])
            && w'.crops == w.crops && w'.farmers == w.farmers && w'.users == w.users
            && w'.orders == w.orders[req.orderId := w.orders[req.orderId].(status := OrderStatus.InTransit)]
            && |w'.logs| == |w.logs| + 1 && w'.logs[..|w.logs|] == w.logs
            && w'.logs[|w.logs|].shipmentId == id
            && w'.logs[|w.logs|].action == ShipmentAction.PickedUp
            && w'.logs[|w.logs|].location == req.origin
  {
    var w' := Pickup(w, node, d, req);
    assert w'.logs[..|w.logs|] == w.logs;
  }

  /** The shipment `createShipment` stores: PICKED_UP at the origin, owned by the caller. */
  function PickedUpShipment(id: Id, d: Id, req: ShipmentRequest, txHash: string): Shipment
  {
    Shipment(id, req.orderId, Some(d), req.origin, req.destination, req.transportMode,
             req.origin, None, None, ShipmentStatus.PickedUp, Some(txHash), None)
  }

  /** The ledger transaction of a pickup. */
  function PickupTx(node: Blockchain.Node, req: ShipmentRequest): string
  {
    Blockchain.LogShipmentTx(node, req.orderId, req.origin, Blockchain.Note("Shipment PICKED UP from origin"))
  }

  /** The writes of an accepted `createShipment`: one new shipment, the order
      IN_TRANSIT, one PICKED_UP log entry. */
  function Pickup(w: World, node: Blockchain.Node, d: Id, req: ShipmentRequest): (w': World)
    requires Wf(w) && CreateShipmentRefusal(w, d, req).None?
    ensures Wf(w') && Total(w') == Total(w)
    ensures var id, txHash := w.nextId, PickupTx(node, req);
            w' == w.(shipments := w.shipments[id := PickedUpShipment(id, d, req, txHash)],
                     nextId := id + 1,
                     orders := w.orders[req.orderId := w.orders[req.orderId].(status := OrderStatus.InTransit)],
                     logs := w.logs + [ShipmentLog(id, ShipmentAction.PickedUp, req.origin,
                                                   "Shipment picked up from origin", Some(txHash))])
  {
    ReadOrder(w, req.orderId);
    var id := w.nextId;
    var txHash := PickupTx(node, req);
    var s := PickedUpShipment(id, d, req, txHash);
    var w1 := w.(shipments := w.shipments[id := s], nextId := id + 1);
    InsertShipment(w, s);
    AdvanceKeepsTotal(w, w1);
    var o := w1.orders[req.orderId];
    var w2 := PutOrder(w1, o.(status := OrderStatus.InTransit));
    ShipmentLogService.CreateLog(w2, id, ShipmentAction.PickedUp, req.origin,
                                 "Shipment picked up from origin", Some(txHash))
  }

  // ----------------------------------------------- updateShipmentStatus

  /** A value from the request when it carries one, else the stored value. */
  function Patch<T>(update: Option<T>, current: T): (r: T)
    ensures update.Some? ==> r == update.value
    ensures update.None? ==> r == current
  {
    if update.Some? then update.value else current
  }

  /** The shipment after the in-transit report: each field the request carries replaces the stored one. */
  function Reported(s: Shipment, req: StatusReport): Shipment
  {
    s.(currentLocation := if req.currentLocation.Some? then req.currentLocation else s.currentLocation,
       temperature := if req.temperature.Some? then req.temperature else s.temperature,
       humidity := if req.humidity.Some? then req.humidity else s.humidity,
       status := Patch(req.status, s.status))
  }

  /** `updateShipmentStatus`: the distributor reports position, readings or a
      status; DELIVERED is refused here and left to `confirmDelivery`. */
  function UpdateShipmentStatus(w: World, node: Blockchain.Node, d: Id, shipmentId: Id, req: StatusReport): (r: Tx<Id>)
    requires Wf(w)
    ensures r.result.Failure? ==> r.world == w
    ensures r.result.Success? <==>
              && d in w.users && shipmentId in w.shipments
              && w.shipments[shipmentId].distributorId == Some(d)
              && req.status != Some(ShipmentStatus.Delivered)
    ensures r.result.Success? ==> r.world.shipments.Keys == w.shipments.Keys
    ensures r.result.Success? ==>
              var before, after := w.shipments[shipmentId], r.world.shipments[shipmentId];
              && (req.currentLocation.Some? ==> after.currentLocation == req.currentLocation)
              && (req.currentLocation.None? ==> after.currentLocation == before.currentLocation)
              && (req.temperature.Some? ==> after.temperature == req.temperature)
              && (req.temperature.None? ==> after.temperature == before.temperature)
              && (req.humidity.Some? ==> after.humidity == req.humidity)
              && (req.humidity.None? ==> after.humidity == before.humidity)
              && (req.status.Some? ==> after.status == req.status.value)
              && (req.status.None? ==> after.status == before.status)
              && (before.status != ShipmentStatus.Delivered ==> after.status != ShipmentStatus.Delivered)
              && (forall k :: k in w.shipments && k != shipmentId ==> r.world.shipments[k] == w.shipments[k])
              && r.world.crops == w.crops && r.world.farmers == w.farmers
              && after.orderId == before.orderId && after.distributorId == before.distributorId
              && after.custodyHash == before.custodyHash
              && r.world.orders == w.orders && r.world.users == w.users
              && |r.world.logs| == |w.logs| + 1 && r.world.logs[..|w.logs|] == w.logs
              && (r.world.logs[|w.logs|].action == LocationUpdate <==> req.currentLocation.Some?)
              && (r.world.logs[|w.logs|].action == LocationUpdate || r.world.logs[|w.logs|].action == ShipmentAction.StatusUpdate)
              && r.world.logs[|w.logs|].notes == req.notes.GetOr("Shipment status updated")
    ensures Wf(r.world) && Total(r.world) == Total(w)
  {
    if d !in w.users then Fail(w, NotFound(UserRow))
    else if shipmentId !in w.shipments then Fail(w, NotFound(ShipmentRow))
    else if w.shipments[shipmentId].distributorId != Some(d) then Fail(w, Refused(ShipmentNotYours))
    else if req.status == Some(ShipmentStatus.Delivered) then Fail(w, Refused(UseDeliveryConfirmation))
    else
      ReportEffects(w, node, shipmentId, req);
      Tx(ApplyReport(w, node, shipmentId, req), Success(shipmentId))
  }

  /** What an accepted in-transit report changes: the reported shipment is
      patched field by field, one log entry is appended, and nothing else changes. */
  lemma ReportEffects(w: World, node: Blockchain.Node, shipmentId: Id, req: StatusReport)
    requires Wf(w) && shipmentId in w.shipments
    ensures var w' := ApplyReport(w, node, shipmentId, req);
            var before := w.shipments[shipmentId];
            && w'.shipments.Keys == w.shipments.Keys && shipmentId in w'.shipments
            && var after := w'.shipments[shipmentId];
            && (req.currentLocation.Some? ==> after.currentLocation == req.currentLocation)
            && (req.currentLocation.None? ==> after.currentLocation == before.currentLocation)
            && (req.temperature.Some? ==> after.temperature == req.temperature)
            && (req.temperature.None? ==> after.temperature == before.temperature)
            && (req.humidity.Some? ==> after.humidity == req.humidity)
            && (req.humidity.None? ==> after.humidity == before.humidity)
            && after.status == Patch(req.status, before.status)
            && after.orderId == before.orderId && after.distributorId == before.distributorId
            && after.custodyHash == before.custodyHash
            && (forall k :: k in w.shipments && k != shipmentId ==> w'.shipments[k] == w.shipments[k])
            && w'.crops == w.crops && w'.farmers == w.farmers
            && w'.orders == w.orders && w'.users == w.users
            && |w'.logs| == |w.logs| + 1 && w'.logs[..|w.logs|] == w.logs
            && (w'.logs[|w.logs|].action == LocationUpdate <==> req.currentLocation.Some?)
            && (w'.logs[|w.logs|].action == LocationUpdate || w'.logs[|w.logs|].action == ShipmentAction.StatusUpdate)
            && w'.logs[|w.logs|].notes == req.notes.GetOr("Shipment status updated")
  {
    var w' := ApplyReport(w, node, shipmentId, req);
    assert w'.logs[..|w.logs|] == w.logs;
  }

  /** The ledger transaction of an in-transit report. */
  function ReportTx(node: Blockchain.Node, s: Shipment): string
  {
    Blockchain.LogShipmentTx(node, s.orderId, s.currentLocation, Blockchain.Readings(s.temperature, s.humidity))
  }

  /** The log entry of an in-transit report: a location update when a location was reported. */
  function ReportEntry(shipmentId: Id, req: StatusReport, txHash: string): ShipmentLog
  {
    var action := if req.currentLocation.Some? then LocationUpdate else ShipmentAction.StatusUpdate;
    ShipmentLog(shipmentId, action, req.currentLocation, req.notes.GetOr("Shipment status updated"), Some(txHash))
  }

  /** The writes of an accepted in-transit report. */
  function ApplyReport(w: World, node: Blockchain.Node, shipmentId: Id, req: StatusReport): (w': World)
    requires Wf(w) && shipmentId in w.shipments
    ensures Wf(w') && Total(w') == Total(w)
    ensures var s := Reported(w.shipments[shipmentId], req);
            w' == w.(shipments := w.shipments[shipmentId := s.(blockchainTxHash := Some(ReportTx(node, s)))],
                     logs := w.logs + [ReportEntry(shipmentId, req, ReportTx(node, s))])
  {
    var s := Reported(w.shipments[shipmentId], req);
    var txHash := ReportTx(node, s);
    var w1 := PutShipment(w, s.(blockchainTxHash := Some(txHash)));
    var e := ReportEntry(shipmentId, req, txHash);
    ShipmentLogService.CreateLog(w1, shipmentId, e.action, e.location, e.notes, e.blockchainTxHash)
  }

  // ---------------------------------------------------- confirmDelivery

  /** The fee a delivery earns: 7% of the order's price, or nothing for an order without one. */
  function DeliveryFee(o: Order): (fee: Option<Money>)
    ensures fee.Some? <==> o.totalPrice.Some?
    ensures fee.Some? ==> fee.value == o.totalPrice.value * DeliveryFeeRate
  {
    if o.totalPrice.Some? then Some(o.totalPrice.value * DeliveryFeeRate) else None
  }

  /** Why `confirmDelivery` refuses, in the order the service checks. */
  function ConfirmRefusal(w: World, d: Id, shipmentId: Id): (e: Option<Error>)
    requires Wf(w)
    ensures e.None? <==>
              && d in w.users && shipmentId in w.shipments
              && w.shipments[shipmentId].distributorId == Some(d)
              && w.shipments[shipmentId].status != ShipmentStatus.Delivered
              && (w.orders[w.shipments[shipmentId].orderId].totalPrice.Some? ==> w.users[d].balance.Some?)
  {
    if d !in w.users then Some(NotFound(UserRow))
    else if shipmentId !in w.shipments then Some(NotFound(ShipmentRow))
    else if w.shipments[shipmentId].distributorId != Some(d) then Some(Refused(ShipmentNotYours))
    else if w.shipments[shipmentId].status == ShipmentStatus.Delivered then Some(Refused(AlreadyDelivered))
    else if w.orders[w.shipments[shipmentId].orderId].totalPrice.Some? && w.users[d].balance.None? then Some(NullValue)
    else None
  }

  /** `confirmDelivery`: the shipment and its order become DELIVERED, the
      custody hash is sealed onto the shipment, the distributor is paid 7% of
      the order's price, and the hand-over is logged at the destination. */
  function ConfirmDelivery(w: World, node: Blockchain.Node, hex: string -> string, stamp: string,
                           d: Id, shipmentId: Id, deliveryNotes: Option<string>): (r: Tx<DeliveryConfirmation>)
    requires Wf(w) && IsHexSha256(hex)
    ensures r.result.Failure? ==> r.world == w
    ensures r.result.Success? <==> ConfirmRefusal(w, d, shipmentId).None?
    ensures r.result.Success? ==>
              var s := w.shipments[shipmentId];
              && r.result.value.custodyHash == CustodyHash(hex, s.orderId, shipmentId, stamp)
              && r.result.value.orderId == s.orderId && r.result.value.shipmentId == shipmentId
              && r.world == Delivery(w, d, shipmentId, r.result.value.custodyHash, DeliveryTx(node, s, r.result.value.custodyHash), deliveryNotes)
              && Total(r.world) == Total(w) + DeliveryFee(w.orders[s.orderId]).GetOr(0.0)
    ensures Wf(r.world)
  {
    match ConfirmRefusal(w, d, shipmentId)
    case Some(e) => Fail(w, e)
    case None =>
      var s := w.shipments[shipmentId];
      var custody := CustodyHash(hex, s.orderId, shipmentId, stamp);
      var txHash := DeliveryTx(node, s, custody);
      Tx(Deliver(w, d, shipmentId, custody, txHash, deliveryNotes),
         Success(DeliveryConfirmation(s.orderId, shipmentId, custody, Some(txHash), "Delivery confirmed successfully")))
  }

  /** The ledger transaction recording a hand-over at the destination. */
  function DeliveryTx(node: Blockchain.Node, s: Shipment, custody: string): string
  {
    Blockchain.LogShipmentTx(node, s.orderId, s.destination, Blockchain.Note("DELIVERED - Custody Hash: " + custody))
  }

  /** The shipment row once delivery is confirmed. */
  function Sealed(s: Shipment, custody: string, txHash: string): Shipment
  {
    s.(custodyHash := Some(custody), status := ShipmentStatus.Delivered, blockchainTxHash := Some(txHash))
  }

  /** The order row once delivery is confirmed. */
  function Delivered(o: Order): Order
  {
    o.(status := OrderStatus.Delivered, deliveryFee := if DeliveryFee(o).Some? then DeliveryFee(o) else o.deliveryFee)
  }

  /** The shipment and order rows of a confirmed delivery. */
  function SealAndMark(w: World, shipmentId: Id, custody: string, txHash: string): (w': World)
    requires Wf(w) && shipmentId in w.shipments
    ensures Wf(w') && Total(w') == Total(w)
    ensures var s := w.shipments[shipmentId];
            w' == w.(shipments := w.shipments[shipmentId := Sealed(s, custody, txHash)],
                     orders := w.orders[s.orderId := Delivered(w.orders[s.orderId])])
  {
    var s := w.shipments[shipmentId];
    var w1 := PutShipment(w, Sealed(s, custody, txHash));
    ReadOrder(w1, s.orderId);
    PutOrder(w1, Delivered(w1.orders[s.orderId]))
  }

  /** The database after a confirmed delivery: the shipment sealed, the order
      marked, the fee credited when the order has a price, the hand-over logged. */
  function Delivery(w: World, d: Id, shipmentId: Id, custody: string, txHash: string, notes: Option<string>): World
    requires Wf(w) && d in w.users && shipmentId in w.shipments
  {
    var s := w.shipments[shipmentId];
    ReadShipment(w, shipmentId);
    var fee := DeliveryFee(w.orders[s.orderId]);
    w.(shipments := w.shipments[shipmentId := Sealed(s, custody, txHash)],
       orders := w.orders[s.orderId := Delivered(w.orders[s.orderId])],
       users := if fee.Some? then Credit(w.users, d, fee.value) else w.users,
       logs := w.logs + [ShipmentLog(shipmentId, ShipmentAction.Delivered, s.destination,
                                     notes.GetOr("Delivered to buyer"), Some(txHash))])
  }

  /** Performs a confirmed delivery's writes step by step, keeping the
      invariant; the money in wallets grows by exactly the fee. */
  function Deliver(w: World, d: Id, shipmentId: Id, custody: string, txHash: string, notes: Option<string>): (w': World)
    requires Wf(w) && d in w.users && shipmentId in w.shipments
    requires w.orders[w.shipments[shipmentId].orderId].totalPrice.Some? ==> w.users[d].balance.Some?
    ensures Wf(w') && w' == Delivery(w, d, shipmentId, custody, txHash, notes)
    ensures Total(w') == Total(w) + DeliveryFee(w.orders[w.shipments[shipmentId].orderId]).GetOr(0.0)
  {
    var s := w.shipments[shipmentId];
    var fee := DeliveryFee(w.orders[s.orderId]);
    var w1 := SealAndMark(w, shipmentId, custody, txHash);
    var w2 := if fee.Some? then PayFee(w1, d, fee.value) else w1;
    ShipmentLogService.CreateLog(w2, shipmentId, ShipmentAction.Delivered, s.destination,
                                 notes.GetOr("Delivered to buyer"), Some(txHash))
  }

  /** What a confirmed delivery changes, field by field: both rows are DELIVERED,
      the custody hash is sealed, only the distributor's wallet moves, by the fee,
      and one DELIVERED entry at the destination is appended to the log. */
  lemma DeliverEffects(w: World, d: Id, shipmentId: Id, custody: string, txHash: string, notes: Option<string>)
    requires Wf(w) && d in w.users && shipmentId in w.shipments
    ensures var w' := Delivery(w, d, shipmentId, custody, txHash, notes);
            var s := w.shipments[shipmentId];
            var fee := DeliveryFee(w.orders[s.orderId]);
            && w'.shipments.Keys == w.shipments.Keys && w'.orders.Keys == w.orders.Keys
            && w'.users.Keys == w.users.Keys
            && w'.shipments[shipmentId].status == ShipmentStatus.Delivered
            && w'.shipments[shipmentId].custodyHash == Some(custody)
            && w'.orders[s.orderId].status == OrderStatus.Delivered
            && (fee.Some? ==> w'.orders[s.orderId].deliveryFee == fee)
            && (fee.Some? ==> Held(w'.users[d]) == Held(w.users[d]) + fee.value)
            && (fee.None? ==> w'.users == w.users)
            && (forall u :: u in w.users && u != d ==> w'.users[u] == w.users[u])
            && |w'.logs| == |w.logs| + 1 && w'.logs[..|w.logs|] == w.logs
            && w'.logs[|w.logs|].action == ShipmentAction.Delivered
            && w'.logs[|w.logs|].location == s.destination
            && w'.logs[|w.logs|].notes == notes.GetOr("Delivered to buyer")
  {
    ReadShipment(w, shipmentId);
  }

  /** Credits the delivery fee to the distributor's wallet; the fee is new money, taken from no other wallet. */
  function PayFee(w: World, d: Id, fee: Money): (w': World)
    requires Wf(w) && d in w.users && w.users[d].balance.Some?
    ensures Wf(w') && w' == w.(users := Credit(w.users, d, fee))
    ensures Total(w') == Total(w) + fee
  {
    CreditTotal(w, d, fee);
    PutUser(w, Credit(w.users, d, fee)[d])
  }

  /** Delivery can be confirmed once: a second confirmation of the same shipment is refused. */
  lemma ConfirmOnce(w: World, node: Blockchain.Node, hex: string -> string, stamp: string, stamp2: string,
                    d: Id, shipmentId: Id, notes: Option<string>, notes2: Option<string>)
    requires Wf(w) && IsHexSha256(hex)
    requires ConfirmDelivery(w, node, hex, stamp, d, shipmentId, notes).result.Success?
    ensures var w' := ConfirmDelivery(w, node, hex, stamp, d, shipmentId, notes).world;
            ConfirmDelivery(w', node, hex, stamp2, d, shipmentId, notes2).result == Failure(Refused(AlreadyDelivered))
  {
    var w' := ConfirmDelivery(w, node, hex, stamp, d, shipmentId, notes).world;
    assert d in w'.users;
    assert w'.shipments[shipmentId].distributorId == w.shipments[shipmentId].distributorId;
  }

  /** The report that moves a shipment back into transit. */
  const Reopen := StatusReport(Some(ShipmentStatus.InTransit), None, None, None, None)

  /** As written, a status report is refused only when it asks for DELIVERED,
      never because the shipment already is DELIVERED. The distributor can so
      move a delivered shipment back into transit and confirm it again, and
      the second confirmation pays the delivery fee a second time. */
  lemma ReopenedDeliveryPaysTwice(w: World, node: Blockchain.Node, hex: string -> string, stamp: string,
                                  stamp2: string, d: Id, shipmentId: Id, notes: Option<string>, notes2: Option<string>)
    requires Wf(w) && IsHexSha256(hex)
    requires ConfirmDelivery(w, node, hex, stamp, d, shipmentId, notes).result.Success?
    ensures var w1 := ConfirmDelivery(w, node, hex, stamp, d, shipmentId, notes).world;
            var r2 := UpdateShipmentStatus(w1, node, d, shipmentId, Reopen);
            var r3 := ConfirmDelivery(r2.world, node, hex, stamp2, d, shipmentId, notes2);
            var fee := DeliveryFee(w.orders[w.shipments[shipmentId].orderId]).GetOr(0.0);
            && r2.result.Success? && r3.result.Success?
            && Total(r3.world) == Total(w) + 2.0 * fee
  {
    var k := w.shipments[shipmentId].orderId;
    var w1 := ConfirmDelivery(w, node, hex, stamp, d, shipmentId, notes).world;
    ConfirmedFacts(w, node, hex, stamp, d, shipmentId, notes);
    ReopenFacts(w1, node, d, shipmentId);
    var w2 := UpdateShipmentStatus(w1, node, d, shipmentId, Reopen).world;
    ConfirmOpen(w2, node, hex, stamp2, d, shipmentId, notes2);
  }

  /** An open shipment of the distributor's, whose priced order finds a
      balance to credit, is confirmed, and the wallets gain its order's fee. */
  lemma ConfirmOpen(w: World, node: Blockchain.Node, hex: string -> string, stamp: string,
                    d: Id, shipmentId: Id, notes: Option<string>)
    requires Wf(w) && IsHexSha256(hex) && d in w.users && shipmentId in w.shipments
    requires w.shipments[shipmentId].distributorId == Some(d)
    requires w.shipments[shipmentId].status != ShipmentStatus.Delivered
    requires w.orders[w.shipments[shipmentId].orderId].totalPrice.Some? ==> w.users[d].balance.Some?
    ensures var r := ConfirmDelivery(w, node, hex, stamp, d, shipmentId, notes);
            && r.result.Success?
            && Total(r.world) == Total(w) + DeliveryFee(w.orders[w.shipments[shipmentId].orderId]).GetOr(0.0)
  {
    assert ConfirmRefusal(w, d, shipmentId).None?;
  }

  /** What a later confirmation of a confirmed shipment depends on: the
      shipment still belongs to the distributor and to the same order, the
      order keeps its price, a priced order left the distributor a balance,
      and the wallets gained exactly the fee. */
  lemma ConfirmedFacts(w: World, node: Blockchain.Node, hex: string -> string, stamp: string,
                       d: Id, shipmentId: Id, notes: Option<string>)
    requires Wf(w) && IsHexSha256(hex)
    requires ConfirmDelivery(w, node, hex, stamp, d, shipmentId, notes).result.Success?
    ensures var w1, k := ConfirmDelivery(w, node, hex, stamp, d, shipmentId, notes).world, w.shipments[shipmentId].orderId;
            && Wf(w1) && d in w1.users && shipmentId in w1.shipments
            && w1.shipments[shipmentId].distributorId == Some(d)
            && w1.shipments[shipmentId].orderId == k
            && w1.shipments[shipmentId].status == ShipmentStatus.Delivered
            && w1.orders[k].totalPrice == w.orders[k].totalPrice
            && (w1.orders[k].totalPrice.Some? ==> w1.users[d].balance.Some?)
            && Total(w1) == Total(w) + DeliveryFee(w.orders[k]).GetOr(0.0)
  {
    var s := w.shipments[shipmentId];
    ReadShipment(w, shipmentId);
    var custody := CustodyHash(hex, s.orderId, shipmentId, stamp);
    DeliverEffects(w, d, shipmentId, custody, DeliveryTx(node, s, custody), notes);
  }

  /** Reporting IN_TRANSIT on a distributor's own shipment succeeds whatever its
      status, and changes only the shipment and the log. */
  lemma ReopenFacts(w: World, node: Blockchain.Node, d: Id, shipmentId: Id)
    requires Wf(w) && d in w.users && shipmentId in w.shipments
    requires w.shipments[shipmentId].distributorId == Some(d)
    ensures var r := UpdateShipmentStatus(w, node, d, shipmentId, Reopen);
            && r.result.Success?
            && shipmentId in r.world.shipments
            && r.world.shipments[shipmentId].status == ShipmentStatus.InTransit
            && r.world.shipments[shipmentId].distributorId == Some(d)
            && r.world.shipments[shipmentId].orderId == w.shipments[shipmentId].orderId
            && r.world.orders == w.orders && r.world.users == w.users
            && Total(r.world) == Total(w)
  {
    assert Reported(w.shipments[shipmentId], Reopen).status == ShipmentStatus.InTransit;
  }

  /** `updateShipmentStatus` with the guard the delivery flow needs: a
      shipment that is already DELIVERED takes no further report. Any other
      report is the unguarded update. */
  function UpdateShipmentStatusGuarded(w: World, node: Blockchain.Node, d: Id, shipmentId: Id, req: StatusReport): (r: Tx<Id>)
    requires Wf(w)
    ensures r.result.Failure? ==> r.world == w
    ensures shipmentId in w.shipments && w.shipments[shipmentId].status == ShipmentStatus.Delivered ==>
              r.result == Failure(Refused(AlreadyDelivered))
    ensures shipmentId in w.shipments && w.shipments[shipmentId].status != ShipmentStatus.Delivered ==>
              r == UpdateShipmentStatus(w, node, d, shipmentId, req)
    ensures shipmentId in w.shipments ==>
              shipmentId in r.world.shipments
              && (r.world.shipments[shipmentId].status == ShipmentStatus.Delivered
                  <==> w.shipments[shipmentId].status == ShipmentStatus.Delivered)
    ensures Wf(r.world) && Total(r.world) == Total(w)
  {
    if shipmentId in w.shipments && w.shipments[shipmentId].status == ShipmentStatus.Delivered then
      Fail(w, Refused(AlreadyDelivered))
    else UpdateShipmentStatus(w, node, d, shipmentId, req)
  }

  /** With both status updates guarded, a confirmed delivery is final: no
      report from the distributor or through the farmer's tracking update can
      move the shipment back, so a second confirmation is refused and the fee
      is paid exactly once. */
  lemma FeePaidOnce(w: World, node: Blockchain.Node, hex: string -> string, stamp: string, stamp2: string,
                    d: Id, shipmentId: Id, notes: Option<string>, notes2: Option<string>,
                    d2: Id, req: StatusReport, u: LogisticsService.SensorUpdate)
    requires Wf(w) && IsHexSha256(hex)
    requires ConfirmDelivery(w, node, hex, stamp, d, shipmentId, notes).result.Success?
    ensures var w1 := ConfirmDelivery(w, node, hex, stamp, d, shipmentId, notes).world;
            var r2 := UpdateShipmentStatusGuarded(w1, node, d2, shipmentId, req);
            var r3 := LogisticsService.UpdateShipmentGuarded(r2.world, node, shipmentId, u);
            var fee := DeliveryFee(w.orders[w.shipments[shipmentId].orderId]).GetOr(0.0);
            && r2.world == w1 && r3.world == w1
            && ConfirmDelivery(r3.world, node, hex, stamp2, d, shipmentId, notes2).result == Failure(Refused(AlreadyDelivered))
            && Total(r3.world) == Total(w) + fee
  {
    var w1 := ConfirmDelivery(w, node, hex, stamp, d, shipmentId, notes).world;
    assert w1.shipments[shipmentId].status == ShipmentStatus.Delivered;
    ConfirmOnce(w, node, hex, stamp, stamp2, d, shipmentId, notes, notes2);
  }
}

=== FILE: distributor_page.dfy ===
/** The distributor's dashboard: the access checks made before the orders
    are fetched, the text shown for a failed fetch, the status tabs and
    counts, the buttons each order offers, and the shipment form. */
module DistributorDashboardPage {
  import opened Wrappers
  import opened Tables
  import opened Domain
  import opened Schema
  import opened Seqs
  import opened Api
  import opened OrderViews
  import ClientAuth
  import ExceptionHandler
  import DistributorService
  import Text

  // ------------------------------------------------------ before fetching

  datatype FetchDecision = Refuse(error: string) | Fetch

  /** The checks of `fetchOrders`: a token must be stored, and a cached user,
      if any, must be a distributor. Without a cached user the fetch goes ahead. */
  function BeforeFetch(s: ClientAuth.Storage): (r: FetchDecision)
    ensures !ClientAuth.HasToken(s) ==> r == Refuse("Authentication required. Please log in again.")
    ensures r == Fetch <==> ClientAuth.HasToken(s) && (s.user.None? || s.user.value.role == Some("DISTRIBUTOR"))
    ensures ClientAuth.HasToken(s) && s.user.Some? && s.user.value.role != Some("DISTRIBUTOR") ==>
              r == Refuse("Access denied. This page is only for distributors. Your role: " + s.user.value.role.GetOr("undefined"))
  {
    if !ClientAuth.HasToken(s) then Refuse("Authentication required. Please log in again.")
    else if s.user.Some? && s.user.value.role != Some("DISTRIBUTOR") then
      Refuse("Access denied. This page is only for distributors. Your role: " + s.user.value.role.GetOr("undefined"))
    else Fetch
  }

  // --------------------------------------------------- a failed fetch

  /** How the request failed: an error status with the body's `message` and
      `error` fields, no answer at all, or something else. */
  datatype HttpFailure =
    | Answered(status: nat, message: Option<string>, errorField: Option<string>)
    | NoAnswer
    | Other(message: Option<string>)

  /** A present, non-empty text. */
  predicate Truthy(t: Option<string>)
  {
    t.Some? && t.value != ""
  }

  /** The text shown for a failed fetch. */
  function FailureText(f: HttpFailure): (t: string)
    ensures f.Answered? && f.status == 401 ==> t == AuthFailedText
    ensures f.Answered? && f.status == 403 ==> t == ForbiddenText
    ensures f.Answered? && f.status == 404 ==> t == MissingEndpointText
    ensures f.Answered? && f.status !in {401, 403, 404} && Truthy(f.message) ==> t == "Error: " + f.message.value
    ensures f.Answered? && f.status !in {401, 403, 404} && !Truthy(f.message) && !Truthy(f.errorField) ==>
              t == "Server error (" + Text.NatToString(f.status) + "). Please try again later."
    ensures f.Answered? && f.status !in {401, 403, 404} && !Truthy(f.message) && Truthy(f.errorField) ==>
              t == "Error: " + f.errorField.value
    ensures f.NoAnswer? ==> t == NoConnectionText
    ensures f.Other? && Truthy(f.message) ==> t == f.message.value
    ensures f.Other? && !Truthy(f.message) ==> t == "An unexpected error occurred"
  {
    match f
    case Answered(status, message, errorField) =>
      var m := if Truthy(message) then message else errorField;
      if status == 401 then AuthFailedText
      else if status == 403 then ForbiddenText
      else if status == 404 then MissingEndpointText
      else if Truthy(m) then "Error: " + m.value
      else "Server error (" + Text.NatToString(status) + "). Please try again later."
    case NoAnswer => NoConnectionText
    case Other(message) => if Truthy(message) then message.value else "An unexpected error occurred"
  }

  const AuthFailedText := "Authentication failed. Please log in again."
  const ForbiddenText := "Access forbidden. You do not have distributor permissions."
  const MissingEndpointText := "Distributor endpoint not found. Please ensure backend is running."
  const NoConnectionText := "Cannot connect to server. Please ensure backend is running on http://localhost:8080"

  /** The reply the exception handler sends, as the page receives it. */
  function Received(r: Reply<string>): HttpFailure
    requires r.status >= 0
  {
    Answered(r.status, Some(r.body.message), None)
  }

  /** What the page says for each exception the server lets escape: its
      own fixed text for 401 and 404 (so a missing row reads as a missing
      endpoint), and the server's message behind "Error: " for the rest. */
  lemma ServerFailuresShown(e: Error, message: string)
    ensures var r := ExceptionHandler.Handle(e, message);
            var t := FailureText(Received(r));
            && (e.Unauthorized? ==> t == AuthFailedText)
            && (e.NotFound? ==> t == MissingEndpointText)
            && (e == EmailTaken && message != "" ==> t == "Error: " + message)
            && (ExceptionHandler.HandlerOf(e) == ExceptionHandler.FallbackHandler ==>
                  t == "Error: " + ExceptionHandler.UnexpectedPrefix + message)
  {
    var r := ExceptionHandler.Handle(e, message);
    var f := Received(r);
    assert f.Answered? && f.status == r.status && f.message == Some(r.body.message);
    if e.Unauthorized? {
      assert r.status == 401;
    } else if e.NotFound? {
      assert r.status == 404;
    } else if e == EmailTaken {
      assert r.status == 400 && r.body.message == message;
    } else {
      var text := ExceptionHandler.UnexpectedPrefix + message;
      assert r.status == 500 && r.body.message == text;
      assert |text| > 0 && Truthy(f.message);
    }
  }

  // ------------------------------------------------------ tabs and counts

  /** The test of one status tab. */
  function StatusIs(s: OrderStatus): OrderView -> bool
  {
    (v: OrderView) => v.status == s
  }

  /** `filterOrders`: the three status tabs; "all" and any other name show everything. */
  function TabOrders(vs: seq<OrderView>, tab: string): (r: seq<OrderView>)
    ensures tab == "assigned" ==> r == Filter(vs, StatusIs(Assigned))
    ensures tab == "in-transit" ==> r == Filter(vs, StatusIs(OrderStatus.InTransit))
    ensures tab == "delivered" ==> r == Filter(vs, StatusIs(OrderStatus.Delivered))
    ensures tab !in {"assigned", "in-transit", "delivered"} ==> r == vs
    ensures forall i :: 0 <= i < |r| ==> r[i] in vs
    ensures IsSubsequence(r, vs)
  {
    var p :=
      if tab == "assigned" then StatusIs(Assigned)
      else if tab == "in-transit" then StatusIs(OrderStatus.InTransit)
      else StatusIs(OrderStatus.Delivered);
    if tab in {"assigned", "in-transit", "delivered"} then
      FilterIsSubsequence(vs, p);
      Filter(vs, p)
    else
      var all: OrderView -> bool := (v: OrderView) => true;
      FilterAll(vs, all);
      FilterIsSubsequence(vs, all);
      vs
  }

  /** The statistics cards: per-status counts and the total. */
  datatype Stats = Stats(assignedCount: nat, inTransitCount: nat, deliveredCount: nat, total: nat)

  function Cards(vs: seq<OrderView>): (c: Stats)
    ensures c.total == |vs|
    ensures c.assignedCount + c.inTransitCount + c.deliveredCount <= c.total
    ensures c.assignedCount == |TabOrders(vs, "assigned")| && c.inTransitCount == |TabOrders(vs, "in-transit")|
    ensures c.deliveredCount == |TabOrders(vs, "delivered")|
  {
    var p, q, u := StatusIs(Assigned), StatusIs(OrderStatus.InTransit), StatusIs(OrderStatus.Delivered);
    FilterLength(vs, p);
    FilterLength(vs, q);
    FilterLength(vs, u);
    CountDisjoint3(vs, p, q, u);
    Stats(|Filter(vs, p)|, |Filter(vs, q)|, |Filter(vs, u)|, |vs|)
  }

  // ----------------------------------------------------------- buttons

  datatype Button = CreateShipment | Update | Deliver | Logs

  function Buttons(status: OrderStatus): (b: set<Button>)
    ensures CreateShipment in b <==> status == Assigned
    ensures Update in b <==> status == OrderStatus.InTransit
    ensures Deliver in b <==> status == OrderStatus.InTransit
    ensures Logs in b <==> status == OrderStatus.InTransit || status == OrderStatus.Delivered
  {
    (if status == Assigned then {CreateShipment} else {})
    + (if status == OrderStatus.InTransit then {Update, Deliver, Logs} else {})
    + (if status == OrderStatus.Delivered then {Logs} else {})
  }

  /** `openCreateShipmentModal`: the form starts from the order. */
  function ShipmentForm(v: OrderView): (f: DistributorService.ShipmentRequest)
    ensures f.orderId == v.id
    ensures f.origin == Some(if Truthy(v.farmName) then v.farmName.value else "")
    ensures Truthy(v.deliveryAddress) ==> f.destination == v.deliveryAddress
    ensures !Truthy(v.deliveryAddress) ==> f.destination == Some("NO ADDRESS IN ORDER")
    ensures f.transportMode == Some(Truck)
  {
    DistributorService.ShipmentRequest(
      v.id,
      Some(if Truthy(v.farmName) then v.farmName.value else ""),
      Some(if Truthy(v.deliveryAddress) then v.deliveryAddress.value else "NO ADDRESS IN ORDER"),
      Some(Truck))
  }

  /** Creating a shipment from the dashboard is accepted for an order the
      distributor was assigned, that is still ASSIGNED and has no shipment yet. */
  lemma CreateButtonAccepted(w: World, d: Id, k: Id)
    requires Wf(w) && d in w.users && w.users[d].role == Distributor && k in w.orders
    requires w.orders[k].distributorId == Some(d)
    requires CreateShipment in Buttons(OrderDto(w, w.orders[k]).status)
    requires forall s :: s in w.shipments ==> w.shipments[s].orderId != k
    ensures DistributorService.CreateShipmentRefusal(w, d, ShipmentForm(OrderDto(w, w.orders[k]))).None?
  {
  }
}

=== FILE: distributor_picker.dfy ===
/** The distributor picker both order pages share: the list `loadDistributors`
    fills, the options of the distributor `<select>`, and the client call a
    submitted assignment makes. The pages call the service objects by method
    name; calling a method the object does not declare throws a TypeError,
    which the page catches. */
module DistributorPicker {
  import opened Wrappers
  import opened Tables
  import Text

  /** Which of the two methods the pages call the service object declares:
      `getDistributors` and `assignOrderToDistributor`. */
  datatype Client = Client(listsDistributors: bool, assigns: bool)

  /** The service objects as written (`FarmerService` and `AdminService`)
      declare neither method. */
  const AsWritten := Client(false, false)

  /** A service object that declares both, backed by the admin or farmer
      controller's endpoints: `GET /users/distributors/all` or
      `GET /farmers/distributors` for the list, and
      `POST /admin/orders/{orderId}/assign-distributor` or
      `POST /farmers/orders/{orderId}/assign-distributor` for the assignment.
      Both assignment endpoints call the same order service operation. */
  const Complete := Client(true, true)

  /** `loadDistributors`: the ids the server lists when the method exists;
      otherwise the call throws, the error is only logged, and the list keeps
      its initial `[]`. */
  function Loaded(c: Client, listed: seq<Id>): (ds: seq<Id>)
    ensures c.listsDistributors ==> ds == listed
    ensures !c.listsDistributors ==> ds == []
  {
    if c.listsDistributors then listed else []
  }

  /** The values the `<select>` offers: the placeholder `""`, then each loaded id. */
  function Options(ds: seq<Id>): (opts: seq<string>)
    ensures |opts| == |ds| + 1 && opts[0] == ""
    ensures forall i :: 0 <= i < |ds| ==> opts[i + 1] == Text.NatToString(ds[i])
  {
    [""] + seq(|ds|, i requires 0 <= i < |ds| => Text.NatToString(ds[i]))
  }

  /** Every option except the placeholder names a loaded id, and none is empty. */
  lemma {:induction false} OptionsNameLoaded(ds: seq<Id>, choice: string)
    requires choice in Options(ds) && choice != ""
    ensures exists i :: 0 <= i < |ds| && choice == Text.NatToString(ds[i])
  {
    var opts := Options(ds);
    var j :| 0 <= j < |opts| && opts[j] == choice;
    assert j != 0;
    assert choice == Text.NatToString(ds[j - 1]);
  }

  /** How a submitted assignment ends. */
  datatype Outcome =
    | Invalid(error: string)                         // the form check stops it; no request
    | Threw                                          // the client call throws before any request
    | Posted(orderId: Id, distributorId: string)     // the assignment request is sent

  const SelectError := "Please select a distributor"

  /** `handleAssignDistributor`: without a chosen order or distributor the page
      shows an error; otherwise it calls the client, which sends the request
      only when the method exists. */
  function Submit(c: Client, selectedOrder: Option<Id>, selectedDistributor: string): (r: Outcome)
    ensures r.Invalid? <==> selectedOrder.None? || selectedDistributor == ""
    ensures r.Invalid? ==> r.error == SelectError
    ensures r.Posted? <==> c.assigns && selectedOrder.Some? && selectedDistributor != ""
    ensures r.Posted? ==> r.orderId == selectedOrder.value && r.distributorId == selectedDistributor
  {
    if selectedOrder.None? || selectedDistributor == "" then Invalid(SelectError)
    else if !c.assigns then Threw
    else Posted(selectedOrder.value, selectedDistributor)
  }

  /** As written, the picker offers only the placeholder, so every submit ends
      in the validation error and no request is ever sent. */
  lemma {:induction false} AsWrittenNeverPosts(listed: seq<Id>, selectedOrder: Option<Id>, choice: string)
    requires choice in Options(Loaded(AsWritten, listed))
    ensures Submit(AsWritten, selectedOrder, choice) == Invalid(SelectError)
  {
    assert Options(Loaded(AsWritten, listed)) == [""];
  }

  /** With a complete client, choosing the `i`-th listed distributor for an
      order posts exactly that order and that id. */
  lemma {:induction false} CompletePosts(listed: seq<Id>, orderId: Id, i: nat)
    requires i < |listed|
    ensures Options(Loaded(Complete, listed))[i + 1] == Text.NatToString(listed[i])
    ensures Submit(Complete, Some(orderId), Options(Loaded(Complete, listed))[i + 1])
            == Posted(orderId, Text.NatToString(listed[i]))
  {
    var t := Text.NatToString(listed[i]);
    assert Options(listed)[i + 1] == t;
    assert t != "";
  }
}

=== FILE: domain.dfy ===
/** The marketplace's entities, their enumerations, the error taxonomy of the
    services, and the `World`: every repository table plus the append-only
    shipment log. Money is exact (`BigDecimal` becomes `real`); every nullable
    column is an `Option`. */
module Domain {
  import opened Wrappers
  import opened Tables
  import Text

  type Time = int
  type Money = real

  datatype Role = Farmer | Distributor | Retailer | Consumer | Admin
  datatype UserStatus = Pending | Active | Verified | Rejected | Suspended
  datatype OrderStatus =
    | Pending | Accepted | Rejected | Assigned | InTransit | Shipped | Delivered | Completed | Cancelled
  datatype ShipmentStatus = PickedUp | InTransit | Delayed | Delivered
  datatype ShipmentAction = PickedUp | LocationUpdate | StatusUpdate | Delivered
  datatype VerificationStatus = Pending | Verified | Rejected
  datatype TransportMode = Truck | Train | Ship | Air | Other

  // ------------------------------------------------------------ enum names

  function RoleName(r: Role): string
  {
    match r
    case Farmer => "FARMER"
    case Distributor => "DISTRIBUTOR"
    case Retailer => "RETAILER"
    case Consumer => "CONSUMER"
    case Admin => "ADMIN"
  }

  function UserStatusName(s: UserStatus): string
  {
    match s
    case Pending => "PENDING"
    case Active => "ACTIVE"
    case Verified => "VERIFIED"
    case Rejected => "REJECTED"
    case Suspended => "SUSPENDED"
  }

  function VerificationName(s: VerificationStatus): string
  {
    match s
    case Pending => "PENDING"
    case Verified => "VERIFIED"
    case Rejected => "REJECTED"
  }

  function ShipmentStatusName(s: ShipmentStatus): string
  {
    match s
    case PickedUp => "PICKED_UP"
    case InTransit => "IN_TRANSIT"
    case Delayed => "DELAYED"
    case Delivered => "DELIVERED"
  }

  function OrderStatusName(s: OrderStatus): string
  {
    match s
    case Pending => "PENDING"
    case Accepted => "ACCEPTED"
    case Rejected => "REJECTED"
    case Assigned => "ASSIGNED"
    case InTransit => "IN_TRANSIT"
    case Shipped => "SHIPPED"
    case Delivered => "DELIVERED"
    case Completed => "COMPLETED"
    case Cancelled => "CANCELLED"
  }

  /** `Role.valueOf(s.toUpperCase())`, with `None` where Java throws `IllegalArgumentException`. */
  function ParseRole(s: string): (r: Option<Role>)
    ensures r.Some? ==> RoleName(r.value) == Text.ToUpper(s)
    ensures r.None? ==> forall x :: RoleName(x) != Text.ToUpper(s)
  {
    var u := Text.ToUpper(s);
    if u == "FARMER" then Some(Role.Farmer)
    else if u == "DISTRIBUTOR" then Some(Distributor)
    else if u == "RETAILER" then Some(Retailer)
    else if u == "CONSUMER" then Some(Consumer)
    else if u == "ADMIN" then Some(Admin)
    else None
  }

  /** `UserStatus.valueOf(s.toUpperCase())`. */
  function ParseUserStatus(s: string): (r: Option<UserStatus>)
    ensures r.Some? ==> UserStatusName(r.value) == Text.ToUpper(s)
    ensures r.None? ==> forall x :: UserStatusName(x) != Text.ToUpper(s)
  {
    var u := Text.ToUpper(s);
    if u == "PENDING" then Some(UserStatus.Pending)
    else if u == "ACTIVE" then Some(Active)
    else if u == "VERIFIED" then Some(UserStatus.Verified)
    else if u == "REJECTED" then Some(UserStatus.Rejected)
    else if u == "SUSPENDED" then Some(Suspended)
    else None
  }

  /** `FarmerVerificationStatus.valueOf(s.toUpperCase())`. */
  function ParseVerification(s: string): (r: Option<VerificationStatus>)
    ensures r.Some? ==> VerificationName(r.value) == Text.ToUpper(s)
    ensures r.None? ==> forall x :: VerificationName(x) != Text.ToUpper(s)
  {
    var u := Text.ToUpper(s);
    if u == "PENDING" then Some(VerificationStatus.Pending)
    else if u == "VERIFIED" then Some(VerificationStatus.Verified)
    else if u == "REJECTED" then Some(VerificationStatus.Rejected)
    else None
  }

  /** Every role's own name parses back to it, whatever its letter case. */
  lemma ParseRoleName(r: Role)
    ensures ParseRole(RoleName(r)) == Some(r)
  {
    Text.UpperFixed(RoleName(r));
  }

  lemma ParseUserStatusName(s: UserStatus)
    ensures ParseUserStatus(UserStatusName(s)) == Some(s)
  {
    Text.UpperFixed(UserStatusName(s));
  }

  lemma ParseVerificationName(s: VerificationStatus)
    ensures ParseVerification(VerificationName(s)) == Some(s)
  {
    Text.UpperFixed(VerificationName(s));
  }

  // ------------------------------------------------------------- entities

  /** A row of `users`. `password` holds the encoder's output, never the clear text. */
  datatype User = User(
    id: Id,
    email: string,
    name: string,
    password: string,
    role: Role,
    status: UserStatus,
    isVerified: bool,
    walletAddress: Option<string>,
    address: Option<string>,
    balance: Option<Money>,
    createdAt: Option<Time>,
    updatedAt: Option<Time>,
    lastLogin: Option<Time>)

  /** The fields of a farmer profile that the profile request carries and the
      services copy verbatim. */
  datatype ProfileFields = ProfileFields(
    farmName: Option<string>,
    farmLocation: Option<string>,
    latitude: Option<real>,
    longitude: Option<real>,
    farmSizeAcres: Option<real>,
    cropType: Option<string>,
    cropVarieties: Option<string>,
    farmingMethod: Option<string>,
    licenseNumber: Option<string>,
    aadharNumber: Option<string>,
    bankAccountHolder: Option<string>,
    bankAccountNumber: Option<string>,
    bankIfscCode: Option<string>,
    bankName: Option<string>,
    upiId: Option<string>,
    experienceYears: Option<int>,
    certification: Option<string>)

  /** A row of `farmers`: the profile of one FARMER user plus its verification record. */
  datatype FarmerProfile = FarmerProfile(
    id: Id,
    userId: Id,
    fields: ProfileFields,
    verificationStatus: VerificationStatus,
    verifiedBy: Option<Id>,
    verifiedAt: Option<Time>,
    rejectionReason: Option<string>)

  /** A row of `crops`. `harvestDate` is kept as the text `LocalDateTime.toString` gives. */
  datatype Crop = Crop(
    id: Id,
    farmerId: Id,
    cropName: string,
    quantityKg: Money,
    pricePerKg: Option<Money>,
    harvestDate: string,
    qualityCertificateUrl: Option<string>,
    originLocation: Option<string>,
    qualityData: Option<string>,
    blockchainHash: Option<string>,
    blockchainTxHash: Option<string>)

  /** A row of `orders`: one buyer's purchase of a quantity of one crop. */
  datatype Order = Order(
    id: Id,
    buyerId: Id,
    farmerId: Id,
    cropId: Id,
    quantity: Money,
    totalPrice: Option<Money>,
    status: OrderStatus,
    deliveryAddress: Option<string>,
    distributorId: Option<Id>,
    blockchainTxHash: Option<string>,
    deliveryFee: Option<Money>)

  /** A row of `shipments`: the transport of one order. */
  datatype Shipment = Shipment(
    id: Id,
    orderId: Id,
    distributorId: Option<Id>,
    origin: Option<string>,
    destination: Option<string>,
    transportMode: Option<TransportMode>,
    currentLocation: Option<string>,
    temperature: Option<real>,
    humidity: Option<real>,
    status: ShipmentStatus,
    blockchainTxHash: Option<string>,
    custodyHash: Option<string>)

  /** A row of `shipment_logs`; rows are only ever appended. */
  datatype ShipmentLog = ShipmentLog(
    shipmentId: Id,
    action: ShipmentAction,
    location: Option<string>,
    notes: string,
    blockchainTxHash: Option<string>)

  /** The whole database. `nextId` is the next value of the identity sequence. */
  datatype World = World(
    users: Table<User>,
    farmers: Table<FarmerProfile>,
    crops: Table<Crop>,
    orders: Table<Order>,
    shipments: Table<Shipment>,
    logs: seq<ShipmentLog>,
    nextId: Id)

  /** A wallet balance, with a missing one read as zero. */
  function Held(u: User): Money
  {
    u.balance.GetOr(0.0)
  }

  /** The farmer profile that belongs to `userId` (`findByUserId`). */
  function ProfileOfUser(w: World, userId: Id): (r: Option<Id>)
    requires Bounded(w.farmers, w.nextId)
    ensures r.Some? ==> r.value in w.farmers && w.farmers[r.value].userId == userId
    ensures r.None? <==> forall f :: f in w.farmers ==> w.farmers[f].userId != userId
  {
    FindBy(w.farmers, w.nextId, (f: FarmerProfile) => f.userId == userId)
  }

  /** The shipment of an order (`findByOrder`). */
  function ShipmentOfOrder(w: World, orderId: Id): (r: Option<Id>)
    requires Bounded(w.shipments, w.nextId)
    ensures r.Some? ==> r.value in w.shipments && w.shipments[r.value].orderId == orderId
    ensures r.None? <==> forall s :: s in w.shipments ==> w.shipments[s].orderId != orderId
  {
    FindBy(w.shipments, w.nextId, (s: Shipment) => s.orderId == orderId)
  }

  // ---------------------------------------------------------------- errors

  datatype Entity = UserRow | FarmerRow | CropRow | OrderRow | ShipmentRow

  /** Why an `UnauthorizedException` was thrown. */
  datatype AuthFailure = BadCredentials | Blocked | AwaitingApproval | NotActive | NotAuthenticated

  /** Why a guard threw a plain `RuntimeException`. */
  datatype Refusal =
    | InsufficientBalance       // placeOrder's pre-check
    | NotTheBuyer               // only the buyer (or an admin) completes an order
    | NotDeliveredYet           // COMPLETED needs DELIVERED
    | NotTheFarmer              // other transitions need the order's farmer (or an admin)
    | InsufficientStock         // accepting more than the crop holds
    | BuyerShortOfFunds         // accept-time balance check
    | NotADistributor
    | OnlyAcceptedAssignable
    | OrderNotYours             // shipment for an order assigned to someone else
    | OrderNotAssigned
    | ShipmentNotYours
    | UseDeliveryConfirmation   // DELIVERED through the status-update endpoint
    | AlreadyDelivered
    | NotTheOwningFarmer        // logistics path: only the order's farmer ships
    | NotAcceptedForShipping
    | InvalidUserStatus
    | NonPositiveTopUp
    | ProfileExists
    | InvalidPathSequence       // upload: generated file name contains ".."
    | DuplicateShipment         // the schema's one-shipment-per-order key

  /** What a service call throws. */
  datatype Error =
    | NotFound(entity: Entity)        // ResourceNotFoundException
    | EmailTaken                      // EmailAlreadyExistsException
    | Unauthorized(why: AuthFailure)  // UnauthorizedException
    | Refused(reason: Refusal)        // RuntimeException
    | IllegalArgument                 // Enum.valueOf on an unknown name
    | NullValue                       // NullPointerException
    | NoSuchElement                   // Optional.orElseThrow() without a supplier
    | IntegrityViolation              // a foreign key still names a deleted row

  /** One `@Transactional` call: the world after it, and what it returned or threw.
      A call that throws is rolled back, so its world is the one it started from. */
  datatype Tx<T> = Tx(world: World, result: Result<T, Error>)

  function Fail<T>(w: World, e: Error): (r: Tx<T>)
    ensures r.world == w && r.result.Failure?
  {
    Tx(w, Failure(e))
  }
}

=== FILE: earnings.dfy ===
/** The distributor's earnings page: the delivered orders that carry a fee,
    their total, count and average, and the table rows newest first. */
module EarningsPage {
  import opened Wrappers
  import opened Domain
  import opened Schema
  import opened Seqs
  import opened OrderViews

  /** An order counts as an earning when it is DELIVERED and its fee is
      present and non-zero (JavaScript truthiness of a number). */
  predicate Earns(v: OrderView)
  {
    v.status == OrderStatus.Delivered && v.deliveryFee.Some? && v.deliveryFee.value != 0.0
  }

  function FeeOf(v: OrderView): Money
  {
    v.deliveryFee.GetOr(0.0)
  }

  /** The earning orders, in the order the server sent them. */
  function EarningOrders(vs: seq<OrderView>): (r: seq<OrderView>)
    ensures forall i :: 0 <= i < |r| ==> Earns(r[i]) && r[i] in vs
    ensures forall i :: 0 <= i < |vs| && Earns(vs[i]) ==> vs[i] in r
    ensures IsSubsequence(r, vs)
  {
    var p: OrderView -> bool := Earns;
    FilterIsSubsequence(vs, p);
    Filter(vs, p)
  }

  function SumFees(vs: seq<OrderView>): Money
    decreases |vs|
  {
    if |vs| == 0 then 0.0 else FeeOf(vs[0]) + SumFees(vs[1..])
  }

  /** `totalEarnings`: the fees of the earning orders added up. */
  function TotalEarnings(vs: seq<OrderView>): Money
  {
    SumFees(EarningOrders(vs))
  }

  /** What one order adds to the total, by the page's own rule. */
  function EarnedBy(v: OrderView): Money
  {
    if Earns(v) then FeeOf(v) else 0.0
  }

  /** The reference total: every order's contribution added up. */
  function SumEarned(vs: seq<OrderView>): Money
    decreases |vs|
  {
    if |vs| == 0 then 0.0 else EarnedBy(vs[0]) + SumEarned(vs[1..])
  }

  /** The total is the sum of what each order earns: an order that is not
      DELIVERED, or carries no fee, adds nothing. */
  lemma {:induction false} TotalIsEarnedFees(vs: seq<OrderView>)
    ensures TotalEarnings(vs) == SumEarned(vs)
    decreases |vs|
  {
    var p: OrderView -> bool := Earns;
    assert EarningOrders(vs) == Filter(vs, p);
    if |vs| > 0 {
      TotalIsEarnedFees(vs[1..]);
      assert EarningOrders(vs[1..]) == Filter(vs[1..], p);
      if Earns(vs[0]) {
        assert Filter(vs, p) == [vs[0]] + Filter(vs[1..], p);
        assert ([vs[0]] + Filter(vs[1..], p))[1..] == Filter(vs[1..], p);
      }
    }
  }

  /** The completed-deliveries card: as many as there are earning orders. */
  function CompletedDeliveries(vs: seq<OrderView>): (n: nat)
    ensures n == Count(vs, Earns)
  {
    var p: OrderView -> bool := Earns;
    FilterLength(vs, p);
    |EarningOrders(vs)|
  }

  /** The average-fee card; with no earning order the page shows 0.00. */
  function AverageFee(vs: seq<OrderView>): (a: Money)
    ensures CompletedDeliveries(vs) == 0 ==> a == 0.0
    ensures CompletedDeliveries(vs) > 0 ==> a * CompletedDeliveries(vs) as real == TotalEarnings(vs)
  {
    var n := CompletedDeliveries(vs);
    if n > 0 then TotalEarnings(vs) / n as real else 0.0
  }

  // ------------------------------------------------------ the table rows

  /** The sort key: the update time, with a missing one read as 0. */
  function Updated(v: OrderView): Time
  {
    v.updatedAt.GetOr(0)
  }

  predicate NewestFirst(vs: seq<OrderView>)
  {
    forall i, j :: 0 <= i < j < |vs| ==> Updated(vs[i]) >= Updated(vs[j])
  }

  function Insert(v: OrderView, vs: seq<OrderView>): (r: seq<OrderView>)
    requires NewestFirst(vs)
    ensures NewestFirst(r) && multiset(r) == multiset(vs) + multiset{v}
    ensures r[0] == v || r[0] == vs[0]
    decreases |vs|
  {
    if |vs| == 0 || Updated(v) >= Updated(vs[0]) then
      ConsNewestFirst(v, vs);
      [v] + vs
    else
      var rest := Insert(v, vs[1..]);
      assert vs == [vs[0]] + vs[1..];
      assert Updated(vs[0]) >= Updated(rest[0]);
      ConsNewestFirst(vs[0], rest);
      [vs[0]] + rest
  }

  /** A row no older than the first of a sorted list can go in front of it. */
  lemma ConsNewestFirst(v: OrderView, vs: seq<OrderView>)
    requires NewestFirst(vs) && (|vs| == 0 || Updated(v) >= Updated(vs[0]))
    ensures NewestFirst([v] + vs)
  {
    forall i, j | 0 <= i < j < |vs| + 1
      ensures Updated(([v] + vs)[i]) >= Updated(([v] + vs)[j])
    {
      if i == 0 && j > 1 {
        assert Updated(vs[0]) >= Updated(vs[j - 1]);
      }
    }
  }

  /** The table's rows: the earning orders, newest update first. */
  function Rows(vs: seq<OrderView>): (r: seq<OrderView>)
    ensures NewestFirst(r) && multiset(r) == multiset(EarningOrders(vs))
  {
    SortNewestFirst(EarningOrders(vs))
  }

  function SortNewestFirst(vs: seq<OrderView>): (r: seq<OrderView>)
    ensures NewestFirst(r) && multiset(r) == multiset(vs)
    decreases |vs|
  {
    if |vs| == 0 then []
    else
      assert vs == [vs[0]] + vs[1..];
      Insert(vs[0], SortNewestFirst(vs[1..]))
  }

  // ------------------------------------------ the view the page is fed

  /** A list none of whose elements earns has no earning orders. */
  lemma NothingEarns(vs: seq<OrderView>)
    requires forall i :: 0 <= i < |vs| ==> !Earns(vs[i])
    ensures EarningOrders(vs) == [] && TotalEarnings(vs) == 0.0
  {
  }

  /** As written, the page never shows an earning: the view it is fed has
      no fee, so even an order delivered with a positive fee is invisible. */
  lemma {:induction false} EarningsAsWrittenEmpty(w: World, os: seq<Order>)
    requires AllRefs(w, os)
    ensures EarningOrders(Views(w, os)) == [] && TotalEarnings(Views(w, os)) == 0.0
    ensures CompletedDeliveries(Views(w, os)) == 0
  {
    NothingEarns(Views(w, os));
  }

  /** A single delivered order with a positive fee: the page as written
      reports nothing, the view with the fee reports the fee. */
  lemma DeliveredFeeInvisible(w: World, o: Order, fee: Money)
    requires OrderRefs(o, w.users.Keys, w.farmers.Keys, w.crops.Keys)
    requires o.status == OrderStatus.Delivered && o.deliveryFee == Some(fee) && fee > 0.0
    ensures AllRefs(w, [o])
    ensures TotalEarnings(Views(w, [o])) == 0.0
    ensures TotalEarnings(ViewsWithFee(w, [o])) == fee
  {
    EarningsAsWrittenEmpty(w, [o]);
    TotalIsEarnedFees(ViewsWithFee(w, [o]));
  }

  /** The fees of the delivered orders, read from the order rows. */
  function DeliveredFees(os: seq<Order>): Money
    decreases |os|
  {
    if |os| == 0 then 0.0
    else (if os[0].status == OrderStatus.Delivered then os[0].deliveryFee.GetOr(0.0) else 0.0) + DeliveredFees(os[1..])
  }

  /** With the fee in the view, the page's total is exactly the fees of the
      delivered orders it was sent. */
  lemma {:induction false} EarningsWithFee(w: World, os: seq<Order>)
    requires AllRefs(w, os)
    ensures TotalEarnings(ViewsWithFee(w, os)) == DeliveredFees(os)
    decreases |os|
  {
    TotalIsEarnedFees(ViewsWithFee(w, os));
    SumEarnedWithFee(w, os);
  }

  lemma {:induction false} SumEarnedWithFee(w: World, os: seq<Order>)
    requires AllRefs(w, os)
    ensures SumEarned(ViewsWithFee(w, os)) == DeliveredFees(os)
    decreases |os|
  {
    if |os| > 0 {
      assert AllRefs(w, os[1..]);
      assert ViewsWithFee(w, os)[1..] == ViewsWithFee(w, os[1..]);
      SumEarnedWithFee(w, os[1..]);
    }
  }
}

=== FILE: errors.dfy ===
/** The application-wide exception handler: which HTTP status and envelope
    each escaping exception becomes. The exception's own message is a
    parameter, since the model's errors do not carry their text. */
module ExceptionHandler {
  import opened Wrappers
  import opened Domain
  import opened Api

  const UnexpectedPrefix := "An unexpected error occurred: "

  /** The four handlers, most specific first. */
  datatype Handler = NotFoundHandler | EmailHandler | UnauthorizedHandler | FallbackHandler

  /** The handler Spring picks for an exception. Every `RuntimeException` a
      service guard throws, and every other failure, reaches the fallback. */
  function HandlerOf(e: Error): (h: Handler)
    ensures h == NotFoundHandler <==> e.NotFound?
    ensures h == EmailHandler <==> e == EmailTaken
    ensures h == UnauthorizedHandler <==> e.Unauthorized?
  {
    match e
    case NotFound(_) => NotFoundHandler
    case EmailTaken => EmailHandler
    case Unauthorized(_) => UnauthorizedHandler
    case _ => FallbackHandler
  }

  function HandlerStatus(h: Handler): int
  {
    match h
    case NotFoundHandler => 404
    case EmailHandler => 400
    case UnauthorizedHandler => 401
    case FallbackHandler => 500
  }

  /** The reply for an exception that escapes a controller. */
  function Handle(e: Error, message: string): (r: Reply<string>)
    ensures !r.body.success && r.body.statusCode == r.status && r.body.data.None?
    ensures r.status == 404 <==> e.NotFound?
    ensures r.status == 400 <==> e == EmailTaken
    ensures r.status == 401 <==> e.Unauthorized?
    ensures r.status == 500 <==> !(e.NotFound? || e == EmailTaken || e.Unauthorized?)
    ensures r.status != 500 ==> r.body.message == message
    ensures r.status == 500 ==> r.body.message == UnexpectedPrefix + message
  {
    var h := HandlerOf(e);
    var text := if h == FallbackHandler then UnexpectedPrefix + message else message;
    Reply(HandlerStatus(h), ApiResponse(false, text, None, HandlerStatus(h)))
  }

  /** One rejected request field. */
  datatype FieldError = FieldError(field: string, message: string)

  /** The field map of a validation failure: each field with its message,
      a later error on the same field replacing an earlier one. */
  function FieldMap(errs: seq<FieldError>): (m: map<string, string>)
    ensures m.Keys == Fields(errs)
    ensures forall i :: 0 <= i < |errs| && LastFor(errs, i) ==> m[errs[i].field] == errs[i].message
    decreases |errs|
  {
    if |errs| == 0 then map[]
    else
      var m := FieldMap(errs[..|errs| - 1]);
      ExtendFieldMap(errs, m);
      m[errs[|errs| - 1].field := errs[|errs| - 1].message]
  }

  /** The fields named in a list of errors. */
  function Fields(errs: seq<FieldError>): set<string>
  {
    set e | e in errs :: e.field
  }

  /** Recording the last error on top of the map of the earlier ones gives
      the map of all of them. */
  lemma ExtendFieldMap(errs: seq<FieldError>, m: map<string, string>)
    requires |errs| > 0
    requires m.Keys == Fields(errs[..|errs| - 1])
    requires forall i :: 0 <= i < |errs| - 1 && LastFor(errs[..|errs| - 1], i) ==> m[errs[i].field] == errs[i].message
    ensures var last := errs[|errs| - 1];
            var m' := m[last.field := last.message];
            && m'.Keys == Fields(errs)
            && forall i :: 0 <= i < |errs| && LastFor(errs, i) ==> m'[errs[i].field] == errs[i].message
  {
    var init, last := errs[..|errs| - 1], errs[|errs| - 1];
    assert errs == init + [last];
    forall i | 0 <= i < |errs| - 1 && LastFor(errs, i)
      ensures LastFor(init, i) && errs[i].field != last.field
    {
      assert errs[|errs| - 1].field != errs[i].field;
    }
  }

  /** No later error names the field of `errs[i]`. */
  predicate LastFor(errs: seq<FieldError>, i: int)
    requires 0 <= i < |errs|
  {
    forall j :: i < j < |errs| ==> errs[j].field != errs[i].field
  }

  /** `handleValidationExceptions`: 400, "Validation failed", and the field map. */
  function HandleValidation(errs: seq<FieldError>): (r: Reply<map<string, string>>)
    ensures r.status == 400 && r.body.statusCode == 400 && !r.body.success
    ensures r.body.message == "Validation failed"
    ensures r.body.data.Some? && r.body.data.value.Keys == Fields(errs)
  {
    Reply(400, ApiResponse(false, "Validation failed", Some(FieldMap(errs)), 400))
  }

  /** The status alone tells a client which handler answered, except that a
      duplicate email and a validation failure share 400. */
  lemma StatusNamesHandler(e1: Error, e2: Error, m1: string, m2: string)
    requires Handle(e1, m1).status == Handle(e2, m2).status
    ensures HandlerOf(e1) == HandlerOf(e2)
  {
  }

  /** Every field's message is the last one reported for it. */
  lemma {:induction false} LastMessageWins(errs: seq<FieldError>, f: string)
    requires exists i :: 0 <= i < |errs| && errs[i].field == f
    ensures exists i :: 0 <= i < |errs| && errs[i].field == f && LastFor(errs, i)
                        && FieldMap(errs)[f] == errs[i].message
  {
    var i :| 0 <= i < |errs| && errs[i].field == f;
    while !LastFor(errs, i)
      invariant 0 <= i < |errs| && errs[i].field == f
      decreases |errs| - i
    {
      var j :| i < j < |errs| && errs[j].field == f;
      i := j;
    }
  }
}

=== FILE: farmers.dfy ===
/** Farmer profiles: one per user, edited by the farmer, and verified or
    rejected by an admin. The verification record is never touched by an edit. */
module FarmerService {
  import opened Wrappers
  import opened Tables
  import opened Domain
  import opened Schema
  import opened Ledger

  // --------------------------------------------------------------- create

  /** `createFarmerProfile`: a PENDING profile for an existing user who has none yet. */
  function CreateFarmerProfile(w: World, userId: Id, req: ProfileFields): (r: Tx<FarmerProfile>)
    requires Wf(w)
    ensures r.result.Failure? ==> r.world == w
    ensures userId !in w.users ==> r.result == Failure(NotFound(UserRow))
    ensures userId in w.users && ProfileOfUser(w, userId).Some? ==> r.result == Failure(Refused(ProfileExists))
    ensures r.result.Success? <==> userId in w.users && ProfileOfUser(w, userId).None?
    ensures r.result.Success? ==>
              var f := r.result.value;
              && f == FarmerProfile(w.nextId, userId, req, VerificationStatus.Pending, None, None, None)
              && r.world == w.(farmers := w.farmers[f.id := f], nextId := w.nextId + 1)
    ensures Wf(r.world) && Total(r.world) == Total(w)
  {
    if userId !in w.users then Fail(w, NotFound(UserRow))
    else if ProfileOfUser(w, userId).Some? then Fail(w, Refused(ProfileExists))
    else
      var f := FarmerProfile(w.nextId, userId, req, VerificationStatus.Pending, None, None, None);
      var w' := w.(farmers := w.farmers[f.id := f], nextId := w.nextId + 1);
      InsertFarmer(w, f);
      AdvanceKeepsTotal(w, w');
      Tx(w', Success(f))
  }

  /** A user never ends up with two profiles through this service: creating
      one makes the next attempt fail. */
  lemma CreateOnce(w: World, userId: Id, req: ProfileFields, req2: ProfileFields)
    requires Wf(w)
    requires CreateFarmerProfile(w, userId, req).result.Success?
    ensures CreateFarmerProfile(CreateFarmerProfile(w, userId, req).world, userId, req2).result
            == Failure(Refused(ProfileExists))
  {
    var r := CreateFarmerProfile(w, userId, req);
    assert r.world.farmers[r.result.value.id].userId == userId;
  }

  /** Creation keeps the unique `user_id` column unique: the new profile
      belongs to a user who had none. */
  lemma CreateKeepsProfilesUnique(w: World, userId: Id, req: ProfileFields)
    requires Wf(w) && ProfilesUnique(w.farmers)
    ensures ProfilesUnique(CreateFarmerProfile(w, userId, req).world.farmers)
  {
    var r := CreateFarmerProfile(w, userId, req);
    if r.result.Success? {
      assert w.nextId !in w.farmers;
    }
  }

  // --------------------------------------------------------------- update

  /** `updateFarmerProfile`: every request field replaces the stored one; the
      verification record stays as it was. */
  function UpdateFarmerProfile(w: World, userId: Id, req: ProfileFields): (r: Tx<FarmerProfile>)
    requires Wf(w)
    ensures r.result.Failure? ==> r.world == w
    ensures r.result.Failure? <==> ProfileOfUser(w, userId).None?
    ensures r.result.Failure? ==> r.result.error == NotFound(FarmerRow)
    ensures r.result.Success? ==>
              var k := ProfileOfUser(w, userId).value;
              var f := r.result.value;
              && f.fields == req
              && f.id == k && f.userId == userId
              && f.verificationStatus == w.farmers[k].verificationStatus
              && f.verifiedBy == w.farmers[k].verifiedBy
              && f.verifiedAt == w.farmers[k].verifiedAt
              && f.rejectionReason == w.farmers[k].rejectionReason
              && r.world == w.(farmers := w.farmers[k := f])
    ensures Wf(r.world)
  {
    match ProfileOfUser(w, userId)
    case None => Fail(w, NotFound(FarmerRow))
    case Some(k) =>
      var f := w.farmers[k].(fields := req);
      Tx(PutFarmer(w, f), Success(f))
  }

  // -------------------------------------------------------------- queries

  /** `getFarmerProfile`: the profile of a user. */
  function FarmerProfileOf(w: World, userId: Id): (r: Result<FarmerProfile, Error>)
    requires Wf(w)
    ensures r.Success? <==> exists k :: k in w.farmers && w.farmers[k].userId == userId
    ensures r.Success? ==> r.value in w.farmers.Values && r.value.userId == userId
    ensures r.Failure? ==> r.error == NotFound(FarmerRow)
  {
    match ProfileOfUser(w, userId)
    case None => Failure(NotFound(FarmerRow))
    case Some(k) => Success(w.farmers[k])
  }

  /** `getFarmerById`. */
  function FarmerById(w: World, farmerId: Id): (r: Result<FarmerProfile, Error>)
    ensures r.Success? <==> farmerId in w.farmers
    ensures r.Success? ==> r.value == w.farmers[farmerId]
    ensures r.Failure? ==> r.error == NotFound(FarmerRow)
  {
    if farmerId in w.farmers then Success(w.farmers[farmerId]) else Failure(NotFound(FarmerRow))
  }

  /** `getFarmersByVerificationStatus`, and with PENDING `getAllPendingFarmers`. */
  function FarmersByStatus(w: World, status: VerificationStatus): (r: seq<FarmerProfile>)
    requires Wf(w)
    ensures forall f :: f in r <==> f in w.farmers.Values && f.verificationStatus == status
  {
    FindAllWhere(w.farmers, w.nextId, (f: FarmerProfile) => f.verificationStatus == status)
  }

  /** `getFarmersByCropType`: an exact, case-sensitive match. */
  function FarmersByCropType(w: World, cropType: string): (r: seq<FarmerProfile>)
    requires Wf(w)
    ensures forall f :: f in r <==> f in w.farmers.Values && f.fields.cropType == Some(cropType)
  {
    FindAllWhere(w.farmers, w.nextId, (f: FarmerProfile) => f.fields.cropType == Some(cropType))
  }

  /** `getAllFarmers`. */
  function AllFarmers(w: World): (r: seq<FarmerProfile>)
    requires Wf(w)
    ensures forall f :: f in r <==> f in w.farmers.Values
  {
    forall f ensures f in FindAll(w.farmers, w.nextId) <==> f in w.farmers.Values {
      FindAllComplete(w.farmers, w.nextId, f);
    }
    FindAll(w.farmers, w.nextId)
  }

  // ---------------------------------------------------------- verification

  /** `verifyFarmer`: VERIFIED by `adminId` at `now`, with any earlier
      rejection reason cleared; the reason argument is ignored. */
  function VerifyFarmer(w: World, farmerId: Id, adminId: Id, now: Time, reason: Option<string>): (r: Tx<FarmerProfile>)
    requires Wf(w)
    ensures r.result.Failure? ==> r.world == w
    ensures r.result.Failure? <==> farmerId !in w.farmers
    ensures r.result.Failure? ==> r.result.error == NotFound(FarmerRow)
    ensures r.result.Success? ==>
              var f := r.result.value;
              && f.verificationStatus == VerificationStatus.Verified
              && f.verifiedBy == Some(adminId) && f.verifiedAt == Some(now)
              && f.rejectionReason.None?
              && f.(verificationStatus := w.farmers[farmerId].verificationStatus,
                    verifiedBy := w.farmers[farmerId].verifiedBy,
                    verifiedAt := w.farmers[farmerId].verifiedAt,
                    rejectionReason := w.farmers[farmerId].rejectionReason) == w.farmers[farmerId]
              && r.world == w.(farmers := w.farmers[farmerId := f])
    ensures Wf(r.world)
  {
    if farmerId !in w.farmers then Fail(w, NotFound(FarmerRow))
    else
      var f := w.farmers[farmerId].(verificationStatus := VerificationStatus.Verified, verifiedBy := Some(adminId),
                                    verifiedAt := Some(now), rejectionReason := None);
      Tx(PutFarmer(w, f), Success(f))
  }

  /** `rejectFarmer`: REJECTED by `adminId` at `now`, keeping the reason given. */
  function RejectFarmer(w: World, farmerId: Id, adminId: Id, now: Time, reason: Option<string>): (r: Tx<FarmerProfile>)
    requires Wf(w)
    ensures r.result.Failure? ==> r.world == w
    ensures r.result.Failure? <==> farmerId !in w.farmers
    ensures r.result.Failure? ==> r.result.error == NotFound(FarmerRow)
    ensures r.result.Success? ==>
              var f := r.result.value;
              && f.verificationStatus == VerificationStatus.Rejected
              && f.verifiedBy == Some(adminId) && f.verifiedAt == Some(now)
              && f.rejectionReason == reason
              && f.(verificationStatus := w.farmers[farmerId].verificationStatus,
                    verifiedBy := w.farmers[farmerId].verifiedBy,
                    verifiedAt := w.farmers[farmerId].verifiedAt,
                    rejectionReason := w.farmers[farmerId].rejectionReason) == w.farmers[farmerId]
              && r.world == w.(farmers := w.farmers[farmerId := f])
    ensures Wf(r.world)
  {
    if farmerId !in w.farmers then Fail(w, NotFound(FarmerRow))
    else
      var f := w.farmers[farmerId].(verificationStatus := VerificationStatus.Rejected, verifiedBy := Some(adminId),
                                    verifiedAt := Some(now), rejectionReason := reason);
      Tx(PutFarmer(w, f), Success(f))
  }

  /** A profile edit after a rejection keeps the rejection and its reason; a
      later verification clears the reason. */
  lemma EditKeepsVerdict(w: World, farmerId: Id, adminId: Id, now: Time, reason: Option<string>, req: ProfileFields)
    requires Wf(w) && farmerId in w.farmers
    ensures var w1 := RejectFarmer(w, farmerId, adminId, now, reason).world;
            var w2 := UpdateFarmerProfile(w1, w.farmers[farmerId].userId, req).world;
            && w2.farmers[farmerId].verificationStatus == VerificationStatus.Rejected
            && w2.farmers[farmerId].rejectionReason == reason
  {
    var w1 := RejectFarmer(w, farmerId, adminId, now, reason).world;
    assert w1.farmers[farmerId].userId == w.farmers[farmerId].userId;
  }

  // --------------------------------------------------------------- delete

  /** Some crop or order still names the profile. */
  predicate ProfileReferenced(w: World, farmerId: Id)
  {
    || (exists c :: c in w.crops && w.crops[c].farmerId == farmerId)
    || (exists o :: o in w.orders && w.orders[o].farmerId == farmerId)
  }

  /** `deleteFarmerProfile`: removes the profile unless a crop or order still refers to it. */
  function DeleteFarmerProfile(w: World, farmerId: Id): (r: Tx<()>)
    requires Wf(w)
    ensures r.result.Failure? ==> r.world == w
    ensures farmerId !in w.farmers ==> r.result == Failure(NotFound(FarmerRow))
    ensures farmerId in w.farmers && ProfileReferenced(w, farmerId) ==> r.result == Failure(IntegrityViolation)
    ensures r.result.Success? <==> farmerId in w.farmers && !ProfileReferenced(w, farmerId)
    ensures r.result.Success? ==> r.world == w.(farmers := w.farmers - {farmerId})
    ensures Wf(r.world) && Total(r.world) == Total(w)
  {
    if farmerId !in w.farmers then Fail(w, NotFound(FarmerRow))
    else if ProfileReferenced(w, farmerId) then Fail(w, IntegrityViolation)
    else
      var w' := w.(farmers := w.farmers - {farmerId});
      assert CropsOk(w'.crops, w'.farmers.Keys, w'.nextId) by {
        forall c | c in w'.crops ensures w'.crops[c].farmerId in w'.farmers.Keys {
          assert w.crops[c].farmerId != farmerId;
        }
      }
      assert OrdersOk(w'.orders, w'.users.Keys, w'.farmers.Keys, w'.crops.Keys, w'.nextId) by {
        forall o | o in w'.orders ensures OrderRefs(w'.orders[o], w'.users.Keys, w'.farmers.Keys, w'.crops.Keys) {
          assert w.orders[o].farmerId != farmerId;
        }
      }
      Tx(w', Success(()))
  }
}

=== FILE: guard.dfy ===
/** The route guard and the route table of the single-page application. */
module Routing {
  import opened Wrappers
  import opened ClientAuth

  /** What visiting a path shows. */
  datatype Screen = Page(path: string) | Redirect(to: string) | Nothing

  /** `AuthGuard`: sign-in first, then the role. `requiredRole` counts only
      when it is a non-empty text. */
  function Guard(s: Storage, decode: string -> Option<Payload>, nowMs: int, requiredRole: Option<string>, path: string): (r: Screen)
    ensures !IsAuthenticated(s, decode, nowMs) ==> r == Redirect("/login")
    ensures (IsAuthenticated(s, decode, nowMs) && requiredRole.Some? && requiredRole.value != "") ==>
              (r == Redirect("/dashboard") <==> CurrentUser(s, decode).value.role != requiredRole)
    ensures r != Redirect("/login") && r != Redirect("/dashboard") ==> r == Page(path)
    ensures IsAuthenticated(s, decode, nowMs) && (requiredRole.None? || requiredRole.value == "") ==> r == Page(path)
  {
    if !IsAuthenticated(s, decode, nowMs) then Redirect("/login")
    else
      AuthenticatedHasUser(s, decode, nowMs);
      var user := CurrentUser(s, decode).value;
      if requiredRole.Some? && requiredRole.value != "" && user.role != requiredRole then Redirect("/dashboard")
      else Page(path)
  }

  /** How the route table treats a path. */
  datatype Route = Open | Guarded(requiredRole: Option<string>) | Forward(to: string) | Unknown

  const AdminPaths := ["/admin-dashboard", "/user-management", "/farmer-verification", "/statistics"]

  /** The route table. */
  function RouteOf(path: string): (r: Route)
    ensures path == "/farmer-profile" ==> r == Guarded(Some("FARMER"))
    ensures path in AdminPaths ==> r == Guarded(Some("ADMIN"))
    ensures path == "/dashboard" || path == "/farmer-list" ==> r == Guarded(None)
    ensures path == "/" ==> r == Forward("/dashboard")
    ensures path == "/login" || path == "/register" ==> r == Open
  {
    if path == "/login" || path == "/register" then Open
    else if path == "/dashboard" || path == "/farmer-list" then Guarded(None)
    else if path == "/farmer-profile" then Guarded(Some("FARMER"))
    else if path in AdminPaths then Guarded(Some("ADMIN"))
    else if path == "/" then Forward("/dashboard")
    else Unknown
  }

  /** What a visit to `path` shows. */
  function Visit(s: Storage, decode: string -> Option<Payload>, nowMs: int, path: string): Screen
  {
    match RouteOf(path)
    case Open => Page(path)
    case Guarded(role) => Guard(s, decode, nowMs, role, path)
    case Forward(to) => Redirect(to)
    case Unknown => Nothing
  }

  /** The navigation bar's links: none when signed out; the dashboard, then
      the links of the current user's role. */
  function NavLinks(s: Storage, decode: string -> Option<Payload>, nowMs: int): (r: seq<string>)
    ensures !IsAuthenticated(s, decode, nowMs) ==> r == []
    ensures IsAuthenticated(s, decode, nowMs) ==> |r| > 0 && r[0] == "/dashboard"
  {
    if !IsAuthenticated(s, decode, nowMs) then []
    else
      var role := CurrentUser(s, decode).value.role;
      ["/dashboard"]
      + (if role == Some("FARMER") then ["/farmer-profile"] else [])
      + (if role == Some("ADMIN") then AdminPaths else [])
      + (if role in {Some("DISTRIBUTOR"), Some("RETAILER"), Some("CONSUMER")} then ["/farmer-list"] else [])
  }

  /** A protected page is shown only to a signed-in user of its role. */
  lemma GuardedPagesNeedRole(s: Storage, decode: string -> Option<Payload>, nowMs: int, path: string)
    requires Visit(s, decode, nowMs, path) == Page(path) && RouteOf(path).Guarded?
    ensures IsAuthenticated(s, decode, nowMs)
    ensures path in AdminPaths ==> CurrentUser(s, decode).value.role == Some("ADMIN")
    ensures path == "/farmer-profile" ==> CurrentUser(s, decode).value.role == Some("FARMER")
  {
  }

  /** Every link the navigation bar offers opens its page rather than a
      redirect. */
  lemma {:induction false} NavLinksOpen(s: Storage, decode: string -> Option<Payload>, nowMs: int, link: string)
    requires link in NavLinks(s, decode, nowMs)
    ensures Visit(s, decode, nowMs, link) == Page(link)
  {
    AuthenticatedHasUser(s, decode, nowMs);
    var role := CurrentUser(s, decode).value.role;
    if link in AdminPaths {
      assert role == Some("ADMIN");
    }
  }
}

=== FILE: ledger.dfy ===
/** The wallet ledger: the sum of every user's balance, and how single-row
    balance writes move it. Payments between users must leave this sum
    unchanged; only top-ups and delivery fees add to it. */
module Ledger {
  import opened Wrappers
  import opened Tables
  import opened Domain

  /** The balances held by users whose ids lie in `[lo, hi)`. */
  function SumFrom(users: Table<User>, lo: Id, hi: Id): Money
    decreases hi - lo
  {
    if lo >= hi then 0.0
    else (if lo in users then Held(users[lo]) else 0.0) + SumFrom(users, lo + 1, hi)
  }

  /** All money in the system. */
  function Total(w: World): Money
  {
    SumFrom(w.users, 0, w.nextId)
  }

  /** `users[id].balance += delta`, reading a missing balance as zero. */
  function Credit(users: Table<User>, id: Id, delta: Money): (r: Table<User>)
    requires id in users
    ensures r.Keys == users.Keys
    ensures Held(r[id]) == Held(users[id]) + delta
    ensures forall k :: k in users && k != id ==> r[k] == users[k]
  {
    users[id := users[id].(balance := Some(Held(users[id]) + delta))]
  }

  /** Replacing one row changes the sum by exactly the change in that row's balance. */
  lemma {:induction false} SumUpdate(users: Table<User>, k: Id, u: User, lo: Id, hi: Id)
    ensures SumFrom(users[k := u], lo, hi)
         == SumFrom(users, lo, hi)
            + (if lo <= k < hi then Held(u) - (if k in users then Held(users[k]) else 0.0) else 0.0)
    decreases hi - lo
  {
    if lo < hi {
      SumUpdate(users, k, u, lo + 1, hi);
    }
  }

  /** Removing a row takes its balance out of the sum. */
  lemma {:induction false} SumRemove(users: Table<User>, k: Id, lo: Id, hi: Id)
    ensures SumFrom(users - {k}, lo, hi)
         == SumFrom(users, lo, hi) - (if lo <= k < hi && k in users then Held(users[k]) else 0.0)
    decreases hi - lo
  {
    if lo < hi {
      SumRemove(users, k, lo + 1, hi);
    }
  }

  /** Widening the range by one id adds that id's balance. */
  lemma {:induction false} SumGrow(users: Table<User>, lo: Id, hi: Id)
    requires lo <= hi
    ensures SumFrom(users, lo, hi + 1) == SumFrom(users, lo, hi) + (if hi in users then Held(users[hi]) else 0.0)
    decreases hi - lo
  {
    if lo < hi {
      SumGrow(users, lo + 1, hi);
    }
  }

  /** Rows beyond the range do not count. */
  lemma {:induction false} SumOutside(users: Table<User>, other: Table<User>, lo: Id, hi: Id)
    requires forall k :: lo <= k < hi ==> (k in users <==> k in other)
    requires forall k :: lo <= k < hi && k in users ==> Held(users[k]) == Held(other[k])
    ensures SumFrom(users, lo, hi) == SumFrom(other, lo, hi)
    decreases hi - lo
  {
    if lo < hi {
      SumOutside(users, other, lo + 1, hi);
    }
  }

  /** A credit of `delta` to one existing user raises the total by `delta`. */
  lemma CreditTotal(w: World, id: Id, delta: Money)
    requires Bounded(w.users, w.nextId) && id in w.users
    ensures Total(w.(users := Credit(w.users, id, delta))) == Total(w) + delta
  {
    SumUpdate(w.users, id, Credit(w.users, id, delta)[id], 0, w.nextId);
  }

  /** Moving `amount` from one user to another (possibly the same one) keeps the total. */
  lemma TransferKeepsTotal(w: World, from: Id, to: Id, amount: Money)
    requires Bounded(w.users, w.nextId) && from in w.users && to in w.users
    ensures Total(w.(users := Credit(Credit(w.users, from, -amount), to, amount))) == Total(w)
  {
    var w1 := w.(users := Credit(w.users, from, -amount));
    CreditTotal(w, from, -amount);
    CreditTotal(w1, to, amount);
  }

  /** Drawing a new id for a row that is not a user leaves the total alone. */
  lemma AdvanceKeepsTotal(w: World, w': World)
    requires Bounded(w.users, w.nextId)
    requires w'.users == w.users && w'.nextId == w.nextId + 1
    ensures Total(w') == Total(w)
  {
    SumGrow(w.users, 0, w.nextId);
  }

  /** A new user at the next id adds its balance to the total. */
  lemma InsertUserTotal(w: World, u: User)
    requires Bounded(w.users, w.nextId)
    ensures Total(w.(users := w.users[w.nextId := u], nextId := w.nextId + 1)) == Total(w) + Held(u)
  {
    var users := w.users[w.nextId := u];
    SumGrow(users, 0, w.nextId);
    SumUpdate(w.users, w.nextId, u, 0, w.nextId);
  }
}

=== FILE: logistics.dfy ===
/** The farmer-driven shipping path: the order's farmer starts a shipment from
    the farm once the order is accepted, then reports location, readings and
    status; reporting DELIVERED also delivers the order. */
module LogisticsService {
  import opened Wrappers
  import opened Tables
  import opened Domain
  import opened Schema
  import opened Ledger
  import Blockchain
  import ShipmentLogService

  /** The body of a logistics update: every field replaces the stored one, absent or not. */
  datatype SensorUpdate = SensorUpdate(
    location: Option<string>, temperature: Option<real>, humidity: Option<real>, status: ShipmentStatus)

  // ----------------------------------------------------- createShipment

  /** The farm an order ships from: the location on the selling farmer's profile. */
  function FarmLocation(w: World, orderId: Id): (r: Option<string>)
    requires Wf(w) && orderId in w.orders
    ensures r == w.farmers[w.orders[orderId].farmerId].fields.farmLocation
  {
    ReadOrder(w, orderId);
    w.farmers[w.orders[orderId].farmerId].fields.farmLocation
  }

  /** Why `createShipment` refuses, in the order the service checks. */
  function StartRefusal(w: World, orderId: Id, farmerUserId: Id): (e: Option<Error>)
    requires Wf(w)
    ensures e.None? <==>
              && orderId in w.orders
              && w.farmers[w.orders[orderId].farmerId].userId == farmerUserId
              && w.orders[orderId].status == Accepted
              && (forall s :: s in w.shipments ==> w.shipments[s].orderId != orderId)
    ensures orderId !in w.orders ==> e == Some(NotFound(OrderRow))
    ensures orderId in w.orders && w.farmers[w.orders[orderId].farmerId].userId != farmerUserId
            ==> e == Some(Refused(NotTheOwningFarmer))
  {
    if orderId !in w.orders then Some(NotFound(OrderRow))
    else if (ReadOrder(w, orderId); w.farmers[w.orders[orderId].farmerId].userId != farmerUserId)
    then Some(Refused(NotTheOwningFarmer))
    else if w.orders[orderId].status != Accepted then Some(Refused(NotAcceptedForShipping))
    else if ShipmentOfOrder(w, orderId).Some? then Some(Refused(DuplicateShipment))
    else None
  }

  /** The shipment `createShipment` saves: IN_TRANSIT at the farm, with no
      distributor, route or custody record. */
  function Started(id: Id, orderId: Id, farm: Option<string>, txHash: string): Shipment
  {
    Shipment(id, orderId, None, None, None, None, farm, None, None, ShipmentStatus.InTransit, Some(txHash), None)
  }

  /** The ledger transaction of a pickup at the farm. */
  function PickupTx(node: Blockchain.Node, orderId: Id, farm: Option<string>): string
  {
    Blockchain.LogShipmentTx(node, orderId, farm, Blockchain.Note("Shipment PICKED UP from farm"))
  }

  /** `createShipment`: the order's farmer opens an IN_TRANSIT shipment at the
      farm and a PICKED_UP entry is logged; the order itself keeps its status. */
  function CreateShipment(w: World, node: Blockchain.Node, orderId: Id, farmerUserId: Id): (r: Tx<Id>)
    requires Wf(w)
    ensures r.result.Failure? ==> r.world == w
    ensures r.result.Success? <==> StartRefusal(w, orderId, farmerUserId).None?
    ensures r.result.Success? ==>
              var id := r.result.value;
              var farm := FarmLocation(w, orderId);
              && id == w.nextId && id !in w.shipments
              && r.world.shipments == w.shipments[id := Started(id, orderId, farm, PickupTx(node, orderId, farm))]
              && r.world.shipments[id].status == ShipmentStatus.InTransit
              && r.world.shipments[id].currentLocation == farm
              && r.world.orders == w.orders && r.world.users == w.users
              && r.world.logs == w.logs + [ShipmentLog(id, ShipmentAction.PickedUp, farm,
                                                       "Shipment organized and tracking started by farmer",
                                                       Some(PickupTx(node, orderId, farm)))]
    ensures Wf(r.world) && Total(r.world) == Total(w)
  {
    match StartRefusal(w, orderId, farmerUserId)
    case Some(e) => Fail(w, e)
    case None =>
      var id := w.nextId;
      var farm := FarmLocation(w, orderId);
      var txHash := PickupTx(node, orderId, farm);
      var s := Started(id, orderId, farm, txHash);
      var w1 := w.(shipments := w.shipments[id := s], nextId := id + 1);
      InsertShipment(w, s);
      AdvanceKeepsTotal(w, w1);
      var w2 := ShipmentLogService.CreateLog(w1, id, ShipmentAction.PickedUp, farm,
                                             "Shipment organized and tracking started by farmer", Some(txHash));
      Tx(w2, Success(id))
  }

  // ----------------------------------------------------- updateShipment

  /** The ledger transaction of a farmer's sensor report. */
  function UpdateTx(node: Blockchain.Node, orderId: Id, u: SensorUpdate): string
  {
    Blockchain.LogShipmentTx(node, orderId, u.location, Blockchain.Readings(u.temperature, u.humidity))
  }

  /** The log action of a sensor report: DELIVERED for a delivery, a status update otherwise. */
  function UpdateAction(status: ShipmentStatus): (a: ShipmentAction)
    ensures a == ShipmentAction.Delivered <==> status == ShipmentStatus.Delivered
    ensures a == ShipmentAction.Delivered || a == ShipmentAction.StatusUpdate
  {
    if status == ShipmentStatus.Delivered then ShipmentAction.Delivered else ShipmentAction.StatusUpdate
  }

  /** The shipment and order writes of a sensor report. */
  function Overwrite(w: World, shipmentId: Id, u: SensorUpdate, txHash: string): (w': World)
    requires Wf(w) && shipmentId in w.shipments
    ensures Wf(w') && Total(w') == Total(w)
    ensures var s := w.shipments[shipmentId];
            w' == w.(shipments := w.shipments[shipmentId := s.(currentLocation := u.location,
                                                                temperature := u.temperature,
                                                                humidity := u.humidity,
                                                                status := u.status,
                                                                blockchainTxHash := Some(txHash))],
                     orders := if u.status == ShipmentStatus.Delivered
                               then w.orders[s.orderId := w.orders[s.orderId].(status := OrderStatus.Delivered)]
                               else w.orders)
  {
    var s := w.shipments[shipmentId];
    ReadShipment(w, shipmentId);
    var w1 := PutShipment(w, s.(currentLocation := u.location, temperature := u.temperature,
                                humidity := u.humidity, status := u.status, blockchainTxHash := Some(txHash)));
    if u.status == ShipmentStatus.Delivered then
      ReadOrder(w1, s.orderId);
      PutOrder(w1, w1.orders[s.orderId].(status := OrderStatus.Delivered))
    else w1
  }

  /** `updateShipment`: location, readings and status are all overwritten, even
      with nothing; DELIVERED delivers the order too; the report is logged. */
  function UpdateShipment(w: World, node: Blockchain.Node, shipmentId: Id, u: SensorUpdate): (r: Tx<Id>)
    requires Wf(w)
    ensures r.result.Failure? ==> r.world == w && r.result.error == NotFound(ShipmentRow)
    ensures r.result.Success? <==> shipmentId in w.shipments
    ensures r.result.Success? ==>
              var s := w.shipments[shipmentId];
              var txHash := UpdateTx(node, s.orderId, u);
              && r.world.shipments.Keys == w.shipments.Keys
              && r.world.shipments[shipmentId] == s.(currentLocation := u.location,
                                                     temperature := u.temperature,
                                                     humidity := u.humidity,
                                                     status := u.status,
                                                     blockchainTxHash := Some(txHash))
              && (u.status == ShipmentStatus.Delivered ==>
                    r.world.orders == w.orders[s.orderId := w.orders[s.orderId].(status := OrderStatus.Delivered)])
              && (u.status != ShipmentStatus.Delivered ==> r.world.orders == w.orders)
              && (forall k :: k in w.shipments && k != shipmentId ==> r.world.shipments[k] == w.shipments[k])
              && r.world.users == w.users && r.world.crops == w.crops && r.world.farmers == w.farmers
              && r.world.logs == w.logs + [ShipmentLog(shipmentId, UpdateAction(u.status), u.location,
                                                       "Farmer updated sensor data and status to " + ShipmentStatusName(u.status),
                                                       Some(txHash))]
    ensures Wf(r.world) && Total(r.world) == Total(w)
  {
    if shipmentId !in w.shipments then Fail(w, NotFound(ShipmentRow))
    else
      var s := w.shipments[shipmentId];
      var txHash := UpdateTx(node, s.orderId, u);
      var w1 := Overwrite(w, shipmentId, u, txHash);
      var w2 := ShipmentLogService.CreateLog(w1, shipmentId, UpdateAction(u.status), u.location,
                                             "Farmer updated sensor data and status to " + ShipmentStatusName(u.status),
                                             Some(txHash));
      Tx(w2, Success(shipmentId))
  }

  /** `updateShipment` with the guard a delivery record needs: a shipment that
      is already DELIVERED takes no further report, so its status cannot be
      moved back. Any other report is the unguarded update. */
  function UpdateShipmentGuarded(w: World, node: Blockchain.Node, shipmentId: Id, u: SensorUpdate): (r: Tx<Id>)
    requires Wf(w)
    ensures r.result.Failure? ==> r.world == w
    ensures shipmentId in w.shipments && w.shipments[shipmentId].status == ShipmentStatus.Delivered ==>
              r.result == Failure(Refused(AlreadyDelivered))
    ensures shipmentId in w.shipments && w.shipments[shipmentId].status != ShipmentStatus.Delivered ==>
              r == UpdateShipment(w, node, shipmentId, u)
    ensures shipmentId in w.shipments && w.shipments[shipmentId].status == ShipmentStatus.Delivered ==>
              r.world.shipments[shipmentId].status == ShipmentStatus.Delivered
    ensures Wf(r.world) && Total(r.world) == Total(w)
  {
    if shipmentId in w.shipments && w.shipments[shipmentId].status == ShipmentStatus.Delivered then
      Fail(w, Refused(AlreadyDelivered))
    else UpdateShipment(w, node, shipmentId, u)
  }

  // ----------------------------------------------- getShipmentByOrderId

  /** `getShipmentByOrderId`: the order must exist, and then its shipment. */
  function ShipmentByOrder(w: World, orderId: Id): (r: Result<Shipment, Error>)
    requires Wf(w)
    ensures orderId !in w.orders ==> r == Failure(NotFound(OrderRow))
    ensures orderId in w.orders && (forall s :: s in w.shipments ==> w.shipments[s].orderId != orderId)
            ==> r == Failure(NotFound(ShipmentRow))
    ensures orderId in w.orders && (exists s :: s in w.shipments && w.shipments[s].orderId == orderId)
            ==> r.Success?
    ensures r.Success? ==> r.value in w.shipments.Values && r.value.orderId == orderId && orderId in w.orders
  {
    if orderId !in w.orders then Failure(NotFound(OrderRow))
    else match ShipmentOfOrder(w, orderId)
      case None => Failure(NotFound(ShipmentRow))
      case Some(k) => Success(w.shipments[k])
  }

  /** Starting a shipment makes it the one tracking finds for that order. */
  lemma StartedIsTracked(w: World, node: Blockchain.Node, orderId: Id, farmerUserId: Id)
    requires Wf(w)
    requires CreateShipment(w, node, orderId, farmerUserId).result.Success?
    ensures var r := CreateShipment(w, node, orderId, farmerUserId);
            ShipmentByOrder(r.world, orderId) == Success(r.world.shipments[r.result.value])
  {
    var r := CreateShipment(w, node, orderId, farmerUserId);
    var id := r.result.value;
    forall k | k in r.world.shipments && k != id
      ensures r.world.shipments[k].orderId != orderId
    {
      assert r.world.shipments[k] == w.shipments[k];
    }
  }
}

=== FILE: order_views.dfy ===
/** The order record the browser receives. The backend's order DTO carries
    neither the delivery fee nor an update time; `OrderDto` is that mapping
    as written, and `OrderDtoWithFee` the same view with the fee the order
    row holds. */
module OrderViews {
  import opened Wrappers
  import opened Tables
  import opened Domain
  import opened Schema

  datatype OrderView = OrderView(
    id: Id,
    buyerId: Id,
    buyerName: string,
    farmerId: Id,
    farmName: Option<string>,
    cropId: Id,
    cropName: string,
    quantity: Money,
    totalPrice: Option<Money>,
    status: OrderStatus,
    distributorId: Option<Id>,
    deliveryAddress: Option<string>,
    deliveryFee: Option<Money>,
    updatedAt: Option<Time>)

  /** `convertOrderToDTO`: the order's own columns and the names of the rows
      it refers to; no delivery fee and no update time. */
  function OrderDto(w: World, o: Order): (v: OrderView)
    requires OrderRefs(o, w.users.Keys, w.farmers.Keys, w.crops.Keys)
    ensures && v.id == o.id && v.buyerId == o.buyerId && v.farmerId == o.farmerId && v.cropId == o.cropId
            && v.status == o.status && v.quantity == o.quantity && v.totalPrice == o.totalPrice
            && v.distributorId == o.distributorId && v.deliveryAddress == o.deliveryAddress
    ensures v.buyerName == w.users[o.buyerId].name && v.cropName == w.crops[o.cropId].cropName
    ensures v.farmName == w.farmers[o.farmerId].fields.farmName
    ensures v.deliveryFee.None? && v.updatedAt.None?
  {
    OrderView(o.id, o.buyerId, w.users[o.buyerId].name, o.farmerId, w.farmers[o.farmerId].fields.farmName,
              o.cropId, w.crops[o.cropId].cropName, o.quantity, o.totalPrice, o.status, o.distributorId,
              o.deliveryAddress, None, None)
  }

  /** The same view carrying the order's delivery fee. */
  function OrderDtoWithFee(w: World, o: Order): (v: OrderView)
    requires OrderRefs(o, w.users.Keys, w.farmers.Keys, w.crops.Keys)
    ensures v == OrderDto(w, o).(deliveryFee := o.deliveryFee)
  {
    OrderDto(w, o).(deliveryFee := o.deliveryFee)
  }

  /** Every order of the list refers to existing rows. */
  ghost predicate AllRefs(w: World, os: seq<Order>)
  {
    forall i :: 0 <= i < |os| ==> OrderRefs(os[i], w.users.Keys, w.farmers.Keys, w.crops.Keys)
  }

  /** The list the client receives, as written. */
  function Views(w: World, os: seq<Order>): (vs: seq<OrderView>)
    requires AllRefs(w, os)
    ensures |vs| == |os| && forall i :: 0 <= i < |os| ==> vs[i] == OrderDto(w, os[i])
  {
    seq(|os|, i requires 0 <= i < |os| && AllRefs(w, os) => OrderDto(w, os[i]))
  }

  /** The list the client receives when the view carries the fee. */
  function ViewsWithFee(w: World, os: seq<Order>): (vs: seq<OrderView>)
    requires AllRefs(w, os)
    ensures |vs| == |os| && forall i :: 0 <= i < |os| ==> vs[i] == OrderDtoWithFee(w, os[i])
  {
    seq(|os|, i requires 0 <= i < |os| && AllRefs(w, os) => OrderDtoWithFee(w, os[i]))
  }
}

=== FILE: orders.dfy ===
/** The order service: placing an order against a crop, the farmer's and the
    buyer's status changes (acceptance moves stock and money), and assignment
    to a distributor. Every call is one transaction. */
module OrderService {
  import opened Wrappers
  import opened Tables
  import opened Domain
  import opened Schema
  import opened Ledger
  import Blockchain
  import Text

  datatype OrderRequest = OrderRequest(cropId: Id, quantity: Money, deliveryAddress: Option<string>)

  /** The order's price: price per kg times quantity, or zero when the crop has no price. */
  function OrderTotal(price: Option<Money>, quantity: Money): (t: Money)
    ensures price.Some? ==> t == price.value * quantity
    ensures price.None? ==> t == 0.0
    ensures price.Some? && price.value >= 0.0 && quantity >= 0.0 ==> t >= 0.0
  {
    if price.Some? then price.value * quantity else 0.0
  }

  /** `placeOrder`: records a PENDING order once the buyer's balance covers its price.
      No money moves yet. */
  function PlaceOrder(w: World, buyerId: Id, req: OrderRequest): (r: Tx<Id>)
    requires Wf(w)
    ensures r.result.Failure? ==> r.world == w
    ensures buyerId !in w.users ==> r.result == Failure(NotFound(UserRow))
    ensures buyerId in w.users && req.cropId !in w.crops ==> r.result == Failure(NotFound(CropRow))
    ensures buyerId in w.users && w.users[buyerId].balance.None? && req.cropId in w.crops ==>
              r.result == Failure(NullValue)
    ensures && buyerId in w.users && req.cropId in w.crops && w.users[buyerId].balance.Some?
            && w.users[buyerId].balance.value < OrderTotal(w.crops[req.cropId].pricePerKg, req.quantity) ==>
              r.result == Failure(Refused(InsufficientBalance))
    ensures r.result.Success? <==>
              && buyerId in w.users && req.cropId in w.crops && w.users[buyerId].balance.Some?
              && OrderTotal(w.crops[req.cropId].pricePerKg, req.quantity) <= w.users[buyerId].balance.value
    ensures r.result.Success? ==>
              var id := r.result.value;
              && id == w.nextId && id !in w.orders && id in r.world.orders
              && r.world.orders[id].status == OrderStatus.Pending
              && r.world.orders[id].buyerId == buyerId
              && r.world.orders[id].cropId == req.cropId
              && r.world.orders[id].farmerId == w.crops[req.cropId].farmerId
              && r.world.orders[id].quantity == req.quantity
              && r.world.orders[id].totalPrice == Some(OrderTotal(w.crops[req.cropId].pricePerKg, req.quantity))
              && r.world.orders[id].distributorId.None?
              && (forall k :: k in w.orders ==> k in r.world.orders && r.world.orders[k] == w.orders[k])
              && r.world.users == w.users && r.world.crops == w.crops && r.world.shipments == w.shipments
    ensures Wf(r.world)
    ensures Total(r.world) == Total(w)
  {
    if buyerId !in w.users then Fail(w, NotFound(UserRow))
    else if req.cropId !in w.crops then Fail(w, NotFound(CropRow))
    else
      var crop := w.crops[req.cropId];
      var buyer := w.users[buyerId];
      var total := OrderTotal(crop.pricePerKg, req.quantity);
      if buyer.balance.None? then Fail(w, NullValue)
      else if buyer.balance.value < total then Fail(w, Refused(InsufficientBalance))
      else
        var id := w.nextId;
        var order := Order(id, buyerId, crop.farmerId, req.cropId, req.quantity, Some(total),
                           OrderStatus.Pending, req.deliveryAddress, None, None, None);
        var w' := w.(orders := w.orders[id := order], nextId := id + 1);
        InsertOrder(w, order);
        SumGrow(w.users, 0, id);
        Tx(w', Success(id))
  }

  /** `getOrdersByBuyer`. */
  function OrdersByBuyer(w: World, buyerId: Id): (r: Result<seq<Order>, Error>)
    requires Wf(w)
    ensures buyerId !in w.users <==> r == Failure(NotFound(UserRow))
    ensures r.Success? ==> forall o :: o in r.value <==> o in w.orders.Values && o.buyerId == buyerId
  {
    if buyerId !in w.users then Failure(NotFound(UserRow))
    else Success(FindAllWhere(w.orders, w.nextId, (o: Order) => o.buyerId == buyerId))
  }

  /** `getOrdersByFarmer`: the orders placed against the caller's farmer profile. */
  function OrdersByFarmer(w: World, userId: Id): (r: Result<seq<Order>, Error>)
    requires Wf(w)
    ensures userId !in w.users <==> r == Failure(NotFound(UserRow))
    ensures userId in w.users && (forall f :: f in w.farmers ==> w.farmers[f].userId != userId) <==>
              r == Failure(NotFound(FarmerRow))
    ensures r.Success? ==> forall o :: o in r.value ==>
              o in w.orders.Values && o.farmerId in w.farmers && w.farmers[o.farmerId].userId == userId
    ensures r.Success? ==> forall o :: o in w.orders.Values && o.farmerId == ProfileOfUser(w, userId).value ==> o in r.value
    ensures r.Success? && ProfilesUnique(w.farmers) ==> forall o ::
              o in w.orders.Values && o.farmerId in w.farmers && w.farmers[o.farmerId].userId == userId ==> o in r.value
  {
    if userId !in w.users then Failure(NotFound(UserRow))
    else
      match ProfileOfUser(w, userId)
      case None => Failure(NotFound(FarmerRow))
      case Some(f) => Success(FindAllWhere(w.orders, w.nextId, (o: Order) => o.farmerId == f))
  }

  /** A wallet address the ownership transfer is attempted for: present, not
      blank, and not the text "null". */
  predicate WalletUsable(wallet: Option<string>)
  {
    wallet.Some? && !Text.IsBlank(wallet.value) && wallet.value != "null"
  }

  /** The user behind the farmer profile an order was placed with. */
  function SellerOf(w: World, k: Id): (u: Id)
    requires Wf(w) && k in w.orders
    ensures u in w.users
  {
    ReadOrder(w, k);
    w.farmers[w.orders[k].farmerId].userId
  }

  /** The role check of `updateOrderStatus`: completing is for the buyer (and
      only once the order is delivered), every other change is for the order's
      farmer; an administrator passes the identity checks. */
  function Gate(w: World, userId: Id, k: Id, status: OrderStatus): (g: Option<Refusal>)
    requires Wf(w) && userId in w.users && k in w.orders
    ensures g.None? <==>
              if status == Completed then
                (userId == w.orders[k].buyerId || w.users[userId].role == Admin)
                && w.orders[k].status == OrderStatus.Delivered
              else
                userId == SellerOf(w, k) || w.users[userId].role == Admin
  {
    var o := w.orders[k];
    var isAdmin := w.users[userId].role == Admin;
    if status == Completed then
      if o.buyerId != userId && !isAdmin then Some(NotTheBuyer)
      else if o.status != OrderStatus.Delivered then Some(NotDeliveredYet)
      else None
    else if SellerOf(w, k) != userId && !isAdmin then Some(NotTheFarmer)
    else None
  }

  /** The crop and buyer can cover an acceptance of order `k`. */
  predicate CanSettle(w: World, k: Id)
    requires Wf(w) && k in w.orders
  {
    ReadOrder(w, k);
    && w.crops[w.orders[k].cropId].quantityKg >= w.orders[k].quantity
    && Held(w.users[w.orders[k].buyerId]) >= w.orders[k].totalPrice.GetOr(0.0)
  }

  /** Takes `qty` kilograms off a crop's stock. */
  function DeductStock(w: World, cropId: Id, qty: Money): (w': World)
    requires Wf(w) && cropId in w.crops
    ensures Wf(w')
    ensures w' == w.(crops := w.crops[cropId := w.crops[cropId].(quantityKg := w.crops[cropId].quantityKg - qty)])
    ensures Total(w') == Total(w)
  {
    var crop' := w.crops[cropId].(quantityKg := w.crops[cropId].quantityKg - qty);
    WriteCrop(w, crop');
    w.(crops := w.crops[cropId := crop'])
  }

  /** Moves `amount` from one wallet to another, reading missing balances as zero. */
  function Transfer(w: World, from: Id, to: Id, amount: Money): (w': World)
    requires Wf(w) && from in w.users && to in w.users
    ensures Wf(w')
    ensures w' == w.(users := Credit(Credit(w.users, from, -amount), to, amount))
    ensures Total(w') == Total(w)
  {
    var debited := Credit(w.users, from, -amount);
    var w1 := w.(users := w.users[from := debited[from]]);
    WriteUser(w, debited[from]);
    var credited := Credit(debited, to, amount);
    WriteUser(w1, credited[to]);
    TransferKeepsTotal(w, from, to, amount);
    w.(users := credited)
  }

  /** Marks order `k` ACCEPTED with the given ledger transaction. */
  function MarkAccepted(w: World, k: Id, txHash: Option<string>): (w': World)
    requires Wf(w) && k in w.orders
    ensures Wf(w')
    ensures w' == w.(orders := w.orders[k := w.orders[k].(status := Accepted, blockchainTxHash := txHash)])
    ensures Total(w') == Total(w)
  {
    ReadOrder(w, k);
    var o' := w.orders[k].(status := Accepted, blockchainTxHash := txHash);
    WriteOrder(w, o');
    w.(orders := w.orders[k := o'])
  }

  /** Any other status change writes only the order's status. */
  function SetStatus(w: World, k: Id, status: OrderStatus): (w': World)
    requires Wf(w) && k in w.orders
    ensures Wf(w')
    ensures w' == w.(orders := w.orders[k := w.orders[k].(status := status)])
    ensures Total(w') == Total(w)
  {
    ReadOrder(w, k);
    WriteOrder(w, w.orders[k].(status := status));
    w.(orders := w.orders[k := w.orders[k].(status := status)])
  }

  /** The transaction hash an acceptance stores: the ownership transfer's when
      the buyer has a usable wallet, else the order's previous one. */
  function OwnershipTx(node: Blockchain.Node, o: Order, wallet: Option<string>): (h: Option<string>)
    ensures WalletUsable(wallet) ==> h == Some(Blockchain.TransferOwnershipTx(node, o.cropId, wallet.value))
    ensures !WalletUsable(wallet) ==> h == o.blockchainTxHash
  {
    if WalletUsable(wallet) then Some(Blockchain.TransferOwnershipTx(node, o.cropId, wallet.value))
    else o.blockchainTxHash
  }

  /** The writes of an acceptance: the crop's stock drops by the ordered
      quantity, the order's price moves from the buyer's wallet to the
      farmer's, and the ownership transfer is recorded on the ledger when the
      buyer has a usable wallet. */
  function Settle(w: World, node: Blockchain.Node, k: Id): (w': World)
    requires Wf(w) && k in w.orders && CanSettle(w, k)
    ensures Wf(w') && Total(w') == Total(w)
    ensures OrderRefs(w.orders[k], w.users.Keys, w.farmers.Keys, w.crops.Keys)
    ensures var o, seller, total := w.orders[k], SellerOf(w, k), w.orders[k].totalPrice.GetOr(0.0);
            && w'.crops == DeductStock(w, o.cropId, o.quantity).crops
            && w'.users == Credit(Credit(w.users, o.buyerId, -total), seller, total)
            && k in w'.orders
            && w'.orders == w.orders[k := w'.orders[k]]
            && w'.orders[k].(blockchainTxHash := o.blockchainTxHash) == o.(status := Accepted)
            && w' == w.(crops := w'.crops, users := w'.users, orders := w'.orders)
  {
    ReadOrder(w, k);
    var o := w.orders[k];
    var w1 := DeductStock(w, o.cropId, o.quantity);
    var w2 := Transfer(w1, o.buyerId, SellerOf(w, k), o.totalPrice.GetOr(0.0));
    assert w2.orders == w.orders && w2.crops == w1.crops;
    var w3 := MarkAccepted(w2, k, OwnershipTx(node, o, w2.users[o.buyerId].walletAddress));
    assert w3.crops == w1.crops && w3.users == w2.users;
    w3
  }

  /** Acceptance: refused when the crop's stock or the buyer's wallet falls short. */
  function Accept(w: World, node: Blockchain.Node, k: Id): (r: Tx<Id>)
    requires Wf(w) && k in w.orders
    ensures r.result.Failure? ==> r.world == w
    ensures r.result.Success? <==> CanSettle(w, k)
    ensures r.result.Success? ==> r.result.value == k && r.world == Settle(w, node, k)
    ensures Wf(r.world)
    ensures Total(r.world) == Total(w)
  {
    ReadOrder(w, k);
    var o := w.orders[k];
    if w.crops[o.cropId].quantityKg < o.quantity then Fail(w, Refused(InsufficientStock))
    else if Held(w.users[o.buyerId]) < o.totalPrice.GetOr(0.0) then Fail(w, Refused(BuyerShortOfFunds))
    else
      Tx(Settle(w, node, k), Success(k))
  }

  /** After an acceptance the crop's stock is what it was less the ordered
      quantity, and never negative; when buyer and farmer differ, the buyer has
      paid exactly the order's price and the farmer received it. */
  lemma SettleMovesStockAndMoney(w: World, node: Blockchain.Node, k: Id)
    requires Wf(w) && k in w.orders && CanSettle(w, k)
    ensures var w', o, seller, total := Settle(w, node, k), w.orders[k], SellerOf(w, k), w.orders[k].totalPrice.GetOr(0.0);
            && w'.crops[o.cropId].quantityKg == w.crops[o.cropId].quantityKg - o.quantity >= 0.0
            && (o.buyerId != seller ==>
                  && Held(w'.users[o.buyerId]) == Held(w.users[o.buyerId]) - total
                  && Held(w'.users[seller]) == Held(w.users[seller]) + total)
            && (forall u :: u in w.users && u != o.buyerId && u != seller ==> w'.users[u] == w.users[u])
  {
  }

  /** `updateOrderStatus`. */
  function UpdateOrderStatus(w: World, node: Blockchain.Node, userId: Id, orderId: Id, status: OrderStatus): (r: Tx<Id>)
    requires Wf(w)
    ensures r.result.Failure? ==> r.world == w
    ensures orderId !in w.orders ==> r.result == Failure(NotFound(OrderRow))
    ensures orderId in w.orders && userId !in w.users ==> r.result == Failure(NotFound(UserRow))
    ensures r.result.Success? <==>
              && orderId in w.orders && userId in w.users
              && Gate(w, userId, orderId, status).None?
              && (status == Accepted ==> CanSettle(w, orderId))
    ensures r.result.Success? && status == Accepted ==> r.world == Settle(w, node, orderId)
    ensures r.result.Success? ==>
              && r.result.value == orderId
              && r.world.orders.Keys == w.orders.Keys
              && r.world.orders[orderId].status == status
              && (forall k :: k in w.orders && k != orderId ==> r.world.orders[k] == w.orders[k])
              && (status != Accepted ==> r.world.users == w.users && r.world.crops == w.crops)
    ensures Wf(r.world)
    ensures Total(r.world) == Total(w)
  {
    if orderId !in w.orders then Fail(w, NotFound(OrderRow))
    else if userId !in w.users then Fail(w, NotFound(UserRow))
    else
      match Gate(w, userId, orderId, status)
      case Some(why) => Fail(w, Refused(why))
      case None => ApplyStatus(w, node, orderId, status)
  }

  /** The write of a status change the gate has let through: an acceptance
      settles the order, any other status is written alone. */
  function ApplyStatus(w: World, node: Blockchain.Node, orderId: Id, status: OrderStatus): (r: Tx<Id>)
    requires Wf(w) && orderId in w.orders
    ensures r.result.Failure? ==> r.world == w
    ensures r.result.Success? <==> (status == Accepted ==> CanSettle(w, orderId))
    ensures r.result.Success? && status == Accepted ==> r.world == Settle(w, node, orderId)
    ensures r.result.Success? ==>
              && r.result.value == orderId
              && orderId in r.world.orders && r.world.orders == w.orders[orderId := r.world.orders[orderId]]
              && r.world.orders[orderId].status == status
              && (status != Accepted ==> r.world.users == w.users && r.world.crops == w.crops)
    ensures Wf(r.world)
    ensures Total(r.world) == Total(w)
  {
    if status == Accepted then Accept(w, node, orderId)
    else Tx(SetStatus(w, orderId, status), Success(orderId))
  }

  /** Acceptance is not guarded by the order's current status: accepting an
      order that is already accepted deducts its stock and charges its buyer a
      second time. */
  lemma AcceptingTwiceChargesTwice(w: World, node: Blockchain.Node, userId: Id, orderId: Id)
    requires Wf(w) && orderId in w.orders && userId in w.users
    requires userId == SellerOf(w, orderId) && userId != w.orders[orderId].buyerId
    requires w.crops[w.orders[orderId].cropId].quantityKg >= 2.0 * w.orders[orderId].quantity
    requires w.orders[orderId].quantity >= 0.0
    requires Held(w.users[w.orders[orderId].buyerId]) >= 2.0 * w.orders[orderId].totalPrice.GetOr(0.0)
    requires w.orders[orderId].totalPrice.GetOr(0.0) >= 0.0
    ensures var o := w.orders[orderId];
            var r1 := UpdateOrderStatus(w, node, userId, orderId, Accepted);
            var r2 := UpdateOrderStatus(r1.world, node, userId, orderId, Accepted);
            && r1.result.Success? && r2.result.Success?
            && r2.world.crops[o.cropId].quantityKg == w.crops[o.cropId].quantityKg - 2.0 * o.quantity
            && Held(r2.world.users[o.buyerId]) == Held(w.users[o.buyerId]) - 2.0 * o.totalPrice.GetOr(0.0)
  {
    ReadOrder(w, orderId);
    var o := w.orders[orderId];
    assert CanSettle(w, orderId);
    var r1 := UpdateOrderStatus(w, node, userId, orderId, Accepted);
    var w1 := Settle(w, node, orderId);
    assert r1.world == w1;
    SettleMovesStockAndMoney(w, node, orderId);
    var o1 := w1.orders[orderId];
    assert o1.cropId == o.cropId && o1.buyerId == o.buyerId && o1.farmerId == o.farmerId;
    assert o1.quantity == o.quantity && o1.totalPrice == o.totalPrice;
    assert w1.farmers == w.farmers;
    assert SellerOf(w1, orderId) == userId;
    assert CanSettle(w1, orderId);
    assert Gate(w1, userId, orderId, Accepted).None?;
    var r2 := UpdateOrderStatus(w1, node, userId, orderId, Accepted);
    assert r2.world == Settle(w1, node, orderId);
    SettleMovesStockAndMoney(w1, node, orderId);
  }

  /** `assignToDistributor`: an ACCEPTED order is handed to a distributor and becomes ASSIGNED. */
  function AssignToDistributor(w: World, orderId: Id, distributorId: Id): (r: Tx<Id>)
    requires Wf(w)
    ensures r.result.Failure? ==> r.world == w
    ensures orderId !in w.orders ==> r.result == Failure(NotFound(OrderRow))
    ensures r.result.Success? <==>
              && orderId in w.orders && distributorId in w.users
              && w.users[distributorId].role == Distributor
              && w.orders[orderId].status == Accepted
    ensures r.result.Success? ==>
              && r.world.orders.Keys == w.orders.Keys
              && r.world.orders[orderId] == w.orders[orderId].(status := Assigned, distributorId := Some(distributorId))
              && r.world == w.(orders := r.world.orders)
              && (forall k :: k in w.orders && k != orderId ==> r.world.orders[k] == w.orders[k])
    ensures Wf(r.world)
  {
    if orderId !in w.orders then Fail(w, NotFound(OrderRow))
    else if distributorId !in w.users then Fail(w, NotFound(UserRow))
    else if w.users[distributorId].role != Distributor then Fail(w, Refused(NotADistributor))
    else if w.orders[orderId].status != Accepted then Fail(w, Refused(OnlyAcceptedAssignable))
    else
      var o := w.orders[orderId];
      ReadOrder(w, orderId);
      WriteOrder(w, o.(status := Assigned, distributorId := Some(distributorId)));
      Tx(w.(orders := w.orders[orderId := o.(status := Assigned, distributorId := Some(distributorId))]),
         Success(orderId))
  }
}

=== FILE: orders_page.dfy ===
/** The buyer's and farmer's order page: the Active/Past tabs, the buttons
    each order offers, and the distributor-assignment form. */
module OrdersPage {
  import opened Wrappers
  import opened Tables
  import opened Domain
  import opened Schema
  import opened Seqs
  import opened OrderViews
  import opened DistributorPicker
  import OrderService
  import Text

  /** The tab state; any value other than ACTIVE selects the past orders. */
  datatype Tab = ActiveTab | PastTab

  predicate IsActive(s: OrderStatus)
  {
    s in {OrderStatus.Pending, Accepted, Assigned, OrderStatus.InTransit, Shipped, OrderStatus.Delivered}
  }

  predicate IsPast(s: OrderStatus)
  {
    s in {Completed, OrderStatus.Rejected, Cancelled}
  }

  predicate InTab(tab: Tab, v: OrderView)
  {
    if tab == ActiveTab then IsActive(v.status) else IsPast(v.status)
  }

  /** `filteredOrders`. */
  function TabOrders(vs: seq<OrderView>, tab: Tab): (r: seq<OrderView>)
    ensures forall i :: 0 <= i < |r| ==> InTab(tab, r[i]) && r[i] in vs
    ensures forall i :: 0 <= i < |vs| && InTab(tab, vs[i]) ==> vs[i] in r
    ensures IsSubsequence(r, vs)
  {
    var p: OrderView -> bool := v => InTab(tab, v);
    FilterIsSubsequence(vs, p);
    Filter(vs, p)
  }

  /** Every status is on exactly one tab, so the tabs split any list. */
  lemma {:induction false} TabsPartition(vs: seq<OrderView>)
    ensures forall s: OrderStatus :: IsActive(s) != IsPast(s)
    ensures |TabOrders(vs, ActiveTab)| + |TabOrders(vs, PastTab)| == |vs|
  {
    var p: OrderView -> bool := v => InTab(ActiveTab, v);
    var q: OrderView -> bool := v => InTab(PastTab, v);
    assert forall s: OrderStatus :: IsActive(s) != IsPast(s) by {
      forall s: OrderStatus ensures IsActive(s) != IsPast(s) {
        match s
        case Pending => case Accepted => case Rejected => case Assigned => case InTransit =>
        case Shipped => case Delivered => case Completed => case Cancelled =>
      }
    }
    FilterLength(vs, p);
    FilterLength(vs, q);
    CountComplement(vs, p, q);
  }

  /** The loaded list: a farmer's sales, anyone else's purchases. */
  datatype Source = MySales | MyPurchases

  function SourceFor(role: Option<string>): (s: Source)
    ensures s == MySales <==> role == Some("FARMER")
  {
    if role == Some("FARMER") then MySales else MyPurchases
  }

  // ----------------------------------------------------------- buttons

  datatype OrderButton = Approve | Reject | AssignDistributor | ConfirmReceipt | Track

  /** The buttons an order offers. */
  function Buttons(isFarmer: bool, status: OrderStatus): (b: set<OrderButton>)
    ensures Approve in b <==> isFarmer && status == OrderStatus.Pending
    ensures Reject in b <==> isFarmer && status == OrderStatus.Pending
    ensures AssignDistributor in b <==> isFarmer && status == Accepted
    ensures ConfirmReceipt in b <==> !isFarmer && status == OrderStatus.Delivered
    ensures Track in b <==> status in {OrderStatus.InTransit, Shipped, OrderStatus.Delivered}
  {
    (if isFarmer && status == OrderStatus.Pending then {Approve, Reject} else {})
    + (if isFarmer && status == Accepted then {AssignDistributor} else {})
    + (if !isFarmer && status == OrderStatus.Delivered then {ConfirmReceipt} else {})
    + (if status in {OrderStatus.InTransit, Shipped, OrderStatus.Delivered} then {Track} else {})
  }

  /** The status a button asks the server for. */
  function Requested(b: OrderButton): Option<OrderStatus>
  {
    match b
    case Approve => Some(Accepted)
    case Reject => Some(OrderStatus.Rejected)
    case ConfirmReceipt => Some(Completed)
    case _ => None
  }

  /** Confirming receipt is offered to the buyer only when the server will
      let the buyer complete the order. */
  lemma ReceiptButtonPassesGate(w: World, k: Id)
    requires Wf(w) && k in w.orders
    requires ConfirmReceipt in Buttons(false, w.orders[k].status)
    ensures w.orders[k].buyerId in w.users
    ensures OrderService.Gate(w, w.orders[k].buyerId, k, Completed).None?
  {
    ReadOrder(w, k);
  }

  /** The assignment button is offered only on an order the server would hand
      to any distributor account. */
  lemma AssignButtonAccepted(w: World, k: Id, d: Id)
    requires Wf(w) && k in w.orders && d in w.users && w.users[d].role == Distributor
    requires AssignDistributor in Buttons(true, w.orders[k].status)
    ensures OrderService.AssignToDistributor(w, k, d).result.Success?
  {
  }

  /** With a service object that declares both picker methods and lists the
      distributor accounts, choosing any listed distributor for an order that
      offers the assignment button sends the request, and the server assigns
      the order to that distributor. */
  lemma AssignReachesServer(w: World, k: Id, listed: seq<Id>, i: nat)
    requires Wf(w) && k in w.orders
    requires AssignDistributor in Buttons(true, w.orders[k].status)
    requires forall j :: 0 <= j < |listed| ==> listed[j] in w.users && w.users[listed[j]].role == Distributor
    requires i < |listed|
    ensures OrderRefs(w.orders[k], w.users.Keys, w.farmers.Keys, w.crops.Keys)
    ensures var choice := Options(Loaded(Complete, listed))[i + 1];
            Submit(Complete, Some(OrderDto(w, w.orders[k]).id), choice) == Posted(k, Text.NatToString(listed[i]))
    ensures OrderService.AssignToDistributor(w, k, listed[i]).result.Success?
  {
    ReadOrder(w, k);
    CompletePosts(listed, k, i);
    AssignButtonAccepted(w, k, listed[i]);
  }
}

=== FILE: schema.dfy ===
/** The database invariant: ids lie below the identity sequence, every row
    carries its own key, and every foreign key resolves. Each table's part is
    stated over the key sets it refers to, so that a write which keeps those
    key sets leaves the other parts untouched; the lemmas below are the write
    and insert rules every service uses. */
module Schema {
  import opened Wrappers
  import opened Tables
  import opened Domain

  ghost predicate UsersOk(users: Table<User>, n: Id)
  {
    Bounded(users, n) && forall k :: k in users ==> users[k].id == k
  }

  /** The `email` column is unique. Registration keeps it so; it is stated
      apart from `Wf` because no other write touches an email. */
  ghost predicate EmailsUnique(users: Table<User>)
  {
    forall a, b :: a in users && b in users && users[a].email == users[b].email ==> a == b
  }

  ghost predicate FarmersOk(farmers: Table<FarmerProfile>, users: set<Id>, n: Id)
  {
    Bounded(farmers, n) && forall k :: k in farmers ==> farmers[k].id == k && farmers[k].userId in users
  }

  /** The `user_id` column of the farmers table is unique: a user has at most
      one farmer profile. Profile creation keeps it so; like `EmailsUnique` it
      is stated apart from `Wf`. */
  ghost predicate ProfilesUnique(farmers: Table<FarmerProfile>)
  {
    forall a, b :: a in farmers && b in farmers && farmers[a].userId == farmers[b].userId ==> a == b
  }

  ghost predicate CropsOk(crops: Table<Crop>, farmers: set<Id>, n: Id)
  {
    Bounded(crops, n) && forall k :: k in crops ==> crops[k].id == k && crops[k].farmerId in farmers
  }

  /** An order names an existing buyer, farmer profile and crop, and an existing distributor if any. */
  predicate OrderRefs(o: Order, users: set<Id>, farmers: set<Id>, crops: set<Id>)
  {
    && o.buyerId in users && o.farmerId in farmers && o.cropId in crops
    && (o.distributorId.Some? ==> o.distributorId.value in users)
  }

  ghost predicate OrdersOk(orders: Table<Order>, users: set<Id>, farmers: set<Id>, crops: set<Id>, n: Id)
  {
    Bounded(orders, n) && forall k :: k in orders ==> orders[k].id == k && OrderRefs(orders[k], users, farmers, crops)
  }

  predicate ShipmentRefs(s: Shipment, orders: set<Id>, users: set<Id>)
  {
    s.orderId in orders && (s.distributorId.Some? ==> s.distributorId.value in users)
  }

  ghost predicate ShipmentsOk(shipments: Table<Shipment>, orders: set<Id>, users: set<Id>, n: Id)
  {
    Bounded(shipments, n) && forall k :: k in shipments ==> shipments[k].id == k && ShipmentRefs(shipments[k], orders, users)
  }

  ghost predicate LogsOk(logs: seq<ShipmentLog>, shipments: set<Id>)
  {
    forall i :: 0 <= i < |logs| ==> logs[i].shipmentId in shipments
  }

  /** The invariant the schema's keys and NOT NULL references maintain. */
  ghost predicate Wf(w: World)
  {
    && UsersOk(w.users, w.nextId)
    && FarmersOk(w.farmers, w.users.Keys, w.nextId)
    && CropsOk(w.crops, w.farmers.Keys, w.nextId)
    && OrdersOk(w.orders, w.users.Keys, w.farmers.Keys, w.crops.Keys, w.nextId)
    && ShipmentsOk(w.shipments, w.orders.Keys, w.users.Keys, w.nextId)
    && LogsOk(w.logs, w.shipments.Keys)
  }

  // ------------------------------------------------------- reading a row

  lemma ReadOrder(w: World, k: Id)
    requires Wf(w) && k in w.orders
    ensures w.orders[k].id == k && OrderRefs(w.orders[k], w.users.Keys, w.farmers.Keys, w.crops.Keys)
  {
  }

  lemma ReadShipment(w: World, k: Id)
    requires Wf(w) && k in w.shipments
    ensures w.shipments[k].id == k && ShipmentRefs(w.shipments[k], w.orders.Keys, w.users.Keys)
  {
  }

  // ------------------------------------------------------------- writes

  /** Overwriting an existing user keeps the invariant. */
  lemma {:induction false} WriteUser(w: World, u: User)
    requires Wf(w) && u.id in w.users
    ensures Wf(w.(users := w.users[u.id := u]))
  {
    assert w.users[u.id := u].Keys == w.users.Keys;
  }

  /** Overwriting an existing farmer profile that still names an existing user keeps the invariant. */
  lemma {:induction false} WriteFarmer(w: World, f: FarmerProfile)
    requires Wf(w) && f.id in w.farmers && f.userId in w.users
    ensures Wf(w.(farmers := w.farmers[f.id := f]))
  {
    assert w.farmers[f.id := f].Keys == w.farmers.Keys;
  }

  lemma {:induction false} WriteCrop(w: World, c: Crop)
    requires Wf(w) && c.id in w.crops && c.farmerId in w.farmers
    ensures Wf(w.(crops := w.crops[c.id := c]))
  {
    assert w.crops[c.id := c].Keys == w.crops.Keys;
  }

  lemma {:induction false} WriteOrder(w: World, o: Order)
    requires Wf(w) && o.id in w.orders && OrderRefs(o, w.users.Keys, w.farmers.Keys, w.crops.Keys)
    ensures Wf(w.(orders := w.orders[o.id := o]))
  {
    assert w.orders[o.id := o].Keys == w.orders.Keys;
  }

  lemma {:induction false} WriteShipment(w: World, s: Shipment)
    requires Wf(w) && s.id in w.shipments && ShipmentRefs(s, w.orders.Keys, w.users.Keys)
    ensures Wf(w.(shipments := w.shipments[s.id := s]))
  {
    assert w.shipments[s.id := s].Keys == w.shipments.Keys;
  }

  /** Appending a log entry for an existing shipment keeps the invariant. */
  lemma {:induction false} AppendLog(w: World, l: ShipmentLog)
    requires Wf(w) && l.shipmentId in w.shipments
    ensures Wf(w.(logs := w.logs + [l]))
  {
  }

  // ------------------------------------------------------------ inserts

  /** Drawing the next id from the identity sequence keeps the invariant. */
  lemma {:induction false} Advance(w: World)
    requires Wf(w)
    ensures Wf(w.(nextId := w.nextId + 1))
  {
  }

  /** A new user takes the next id. */
  lemma {:induction false} InsertUser(w: World, u: User)
    requires Wf(w) && u.id == w.nextId
    ensures Wf(w.(users := w.users[u.id := u], nextId := w.nextId + 1))
  {
    var w1 := w.(nextId := w.nextId + 1);
    Advance(w);
    var w2 := w1.(users := w.users[u.id := u]);
    assert w.users.Keys <= w2.users.Keys;
    assert FarmersOk(w2.farmers, w2.users.Keys, w2.nextId);
    assert OrdersOk(w2.orders, w2.users.Keys, w2.farmers.Keys, w2.crops.Keys, w2.nextId);
    assert ShipmentsOk(w2.shipments, w2.orders.Keys, w2.users.Keys, w2.nextId);
  }

  lemma {:induction false} InsertFarmer(w: World, f: FarmerProfile)
    requires Wf(w) && f.id == w.nextId && f.userId in w.users
    ensures Wf(w.(farmers := w.farmers[f.id := f], nextId := w.nextId + 1))
  {
    Advance(w);
    var w2 := w.(farmers := w.farmers[f.id := f], nextId := w.nextId + 1);
    assert CropsOk(w2.crops, w2.farmers.Keys, w2.nextId);
    assert OrdersOk(w2.orders, w2.users.Keys, w2.farmers.Keys, w2.crops.Keys, w2.nextId);
  }

  lemma {:induction false} InsertCrop(w: World, c: Crop)
    requires Wf(w) && c.id == w.nextId && c.farmerId in w.farmers
    ensures Wf(w.(crops := w.crops[c.id := c], nextId := w.nextId + 1))
  {
    Advance(w);
    var w2 := w.(crops := w.crops[c.id := c], nextId := w.nextId + 1);
    assert OrdersOk(w2.orders, w2.users.Keys, w2.farmers.Keys, w2.crops.Keys, w2.nextId);
  }

  lemma {:induction false} InsertOrder(w: World, o: Order)
    requires Wf(w) && o.id == w.nextId && OrderRefs(o, w.users.Keys, w.farmers.Keys, w.crops.Keys)
    ensures Wf(w.(orders := w.orders[o.id := o], nextId := w.nextId + 1))
  {
    Advance(w);
    var w2 := w.(orders := w.orders[o.id := o], nextId := w.nextId + 1);
    assert ShipmentsOk(w2.shipments, w2.orders.Keys, w2.users.Keys, w2.nextId);
  }

  lemma {:induction false} InsertShipment(w: World, s: Shipment)
    requires Wf(w) && s.id == w.nextId && ShipmentRefs(s, w.orders.Keys, w.users.Keys)
    ensures Wf(w.(shipments := w.shipments[s.id := s], nextId := w.nextId + 1))
  {
    Advance(w);
    var w2 := w.(shipments := w.shipments[s.id := s], nextId := w.nextId + 1);
    assert LogsOk(w2.logs, w2.shipments.Keys);
  }

  // ------------------------------------------------- checked row writes

  /** `save` of an existing order. */
  function PutOrder(w: World, o: Order): (w': World)
    requires Wf(w) && o.id in w.orders && OrderRefs(o, w.users.Keys, w.farmers.Keys, w.crops.Keys)
    ensures Wf(w') && w' == w.(orders := w.orders[o.id := o])
  {
    WriteOrder(w, o);
    w.(orders := w.orders[o.id := o])
  }

  /** `save` of an existing shipment. */
  function PutShipment(w: World, s: Shipment): (w': World)
    requires Wf(w) && s.id in w.shipments && ShipmentRefs(s, w.orders.Keys, w.users.Keys)
    ensures Wf(w') && w' == w.(shipments := w.shipments[s.id := s])
  {
    WriteShipment(w, s);
    w.(shipments := w.shipments[s.id := s])
  }

  /** `save` of an existing user. */
  function PutUser(w: World, u: User): (w': World)
    requires Wf(w) && u.id in w.users
    ensures Wf(w') && w' == w.(users := w.users[u.id := u])
  {
    WriteUser(w, u);
    w.(users := w.users[u.id := u])
  }

  /** `save` of an existing farmer profile. */
  function PutFarmer(w: World, f: FarmerProfile): (w': World)
    requires Wf(w) && f.id in w.farmers && f.userId in w.users
    ensures Wf(w') && w' == w.(farmers := w.farmers[f.id := f])
  {
    WriteFarmer(w, f);
    w.(farmers := w.farmers[f.id := f])
  }
}

=== FILE: security.dfy ===
/** Request authentication: the filter that turns a bearer token into a
    security context (re-reading the account on every request, so that a
    suspension takes effect at once), and the helpers the services use to
    read that context back. Token signing and validation are a parameter
    `decode`: it gives the claims of a valid token and `None` for an invalid
    one or one whose claims cannot be read. */
module Security {
  import opened Wrappers
  import opened Tables
  import opened Domain
  import opened Api
  import Text

  const BearerPrefix := "Bearer "
  const RolePrefix := "ROLE_"
  const BlockedMessage := "Your account has been blocked by the administrator."

  /** What a valid token says about its bearer. */
  datatype Claims = Claims(email: string, userId: Id)

  /** The security context's authentication: the principal's name, its
      granted authorities, and the details object, which the filter sets to
      the user id (`None` stands for details of any other type). */
  datatype Authentication = Authentication(name: string, authorities: seq<string>, details: Option<Id>)

  /** What the filter does with a request. */
  datatype FilterOutcome =
    | Forbidden(response: ApiResponse<string>)   // answered here, the chain is not continued
    | Continue(context: Option<Authentication>)

  // ---------------------------------------------------------- the filter

  /** `extractTokenFromRequest`: the token after a `Bearer ` prefix, if there is one. */
  function ExtractToken(header: Option<string>): (r: Option<string>)
    ensures r.Some? <==> header.Some? && Text.StartsWith(header.value, BearerPrefix)
    ensures r.Some? ==> header.value == BearerPrefix + r.value
  {
    if header.Some? && Text.StartsWith(header.value, BearerPrefix) then
      assert header.value == header.value[..7] + header.value[7..];
      Some(header.value[7..])
    else None
  }

  /** The authentication the filter installs for an account. */
  function Grant(claims: Claims, u: User): Authentication
  {
    Authentication(claims.email, [RolePrefix + RoleName(u.role)], Some(claims.userId))
  }

  /** The claims of the request's token, if it carries a valid one. */
  function ClaimsOf(decode: string -> Option<Claims>, header: Option<string>): Option<Claims>
  {
    var token := ExtractToken(header);
    if token.Some? then decode(token.value) else None
  }

  /** `doFilterInternal`: a valid token of a SUSPENDED account is answered
      with 403 on the spot; a valid token of any other existing account is
      authenticated with its role as read from the database; everything else
      (no token, an invalid one, an unknown account) passes on unauthenticated. */
  function FilterRequest(w: World, decode: string -> Option<Claims>, header: Option<string>): (r: FilterOutcome)
    ensures var c := ClaimsOf(decode, header);
            && (r.Forbidden? <==> c.Some? && c.value.userId in w.users && w.users[c.value.userId].status == Suspended)
            && (r.Forbidden? ==> r.response == ApiResponse(false, BlockedMessage, None, 403))
            && (r.Continue? && r.context.Some? <==>
                  c.Some? && c.value.userId in w.users && w.users[c.value.userId].status != Suspended)
            && (r.Continue? && r.context.Some? ==> r.context.value == Grant(c.value, w.users[c.value.userId]))
  {
    var c := ClaimsOf(decode, header);
    if c.Some? && c.value.userId in w.users then
      var u := w.users[c.value.userId];
      if u.status == Suspended then Forbidden(ApiResponse(false, BlockedMessage, None, 403))
      else Continue(Some(Grant(c.value, u)))
    else Continue(None)
  }

  // ---------------------------------------------------- reading it back

  /** `getCurrentUserId`. */
  function CurrentUserId(auth: Option<Authentication>): (r: Result<Id, Error>)
    ensures r.Success? <==> auth.Some? && auth.value.details.Some?
    ensures r.Success? ==> r.value == auth.value.details.value
    ensures r.Failure? ==> r.error == Unauthorized(NotAuthenticated)
  {
    if auth.Some? && auth.value.details.Some? then Success(auth.value.details.value)
    else Failure(Unauthorized(NotAuthenticated))
  }

  /** `getCurrentUserEmail`. */
  function CurrentUserEmail(auth: Option<Authentication>): (r: Result<string, Error>)
    ensures r.Success? <==> auth.Some?
    ensures r.Success? ==> r.value == auth.value.name
    ensures r.Failure? ==> r.error == Unauthorized(NotAuthenticated)
  {
    if auth.Some? then Success(auth.value.name) else Failure(Unauthorized(NotAuthenticated))
  }

  /** `getCurrentUserRole`: the first authority with every `ROLE_` removed. */
  function CurrentUserRole(auth: Option<Authentication>): (r: Result<string, Error>)
    ensures r.Success? <==> auth.Some? && |auth.value.authorities| > 0
    ensures r.Failure? ==> r.error == Unauthorized(NotAuthenticated)
  {
    if auth.Some? && |auth.value.authorities| > 0 then
      Success(Text.ReplaceAll(auth.value.authorities[0], RolePrefix, ""))
    else Failure(Unauthorized(NotAuthenticated))
  }

  /** `isAdmin`: fails as `getCurrentUserRole` does. */
  function IsAdmin(auth: Option<Authentication>): (r: Result<bool, Error>)
    ensures r.Failure? <==> CurrentUserRole(auth).Failure?
    ensures r.Success? ==> (r.value <==> CurrentUserRole(auth).value == "ADMIN")
  {
    var role := CurrentUserRole(auth);
    if role.Failure? then Failure(role.error) else Success(role.value == "ADMIN")
  }

  /** `isFarmer`. */
  function IsFarmer(auth: Option<Authentication>): (r: Result<bool, Error>)
    ensures r.Failure? <==> CurrentUserRole(auth).Failure?
    ensures r.Success? ==> (r.value <==> CurrentUserRole(auth).value == "FARMER")
  {
    var role := CurrentUserRole(auth);
    if role.Failure? then Failure(role.error) else Success(role.value == "FARMER")
  }

  // ------------------------------------------------------------ lemmas

  /** A header built from a token gives the token back. */
  lemma BearerRoundTrip(token: string)
    ensures ExtractToken(Some(BearerPrefix + token)) == Some(token)
  {
    assert Text.StartsWith(BearerPrefix + token, BearerPrefix);
  }

  /** A text without an underscore cannot contain the role prefix. */
  lemma {:induction false} NoRolePrefix(s: string)
    requires forall i :: 0 <= i < |s| ==> s[i] != '_'
    ensures !Text.Contains(s, RolePrefix)
    decreases |s|
  {
    if |s| >= |RolePrefix| {
      assert s[..|RolePrefix|][4] != RolePrefix[4];
    }
    if |s| > 0 {
      NoRolePrefix(s[1..]);
    }
  }

  /** Stripping the prefix gives back the role the filter prefixed. */
  lemma {:induction false} StripRoleRoundTrip(role: Role)
    ensures Text.ReplaceAll(RolePrefix + RoleName(role), RolePrefix, "") == RoleName(role)
  {
    var name := RoleName(role);
    var s := RolePrefix + name;
    assert s[..|RolePrefix|] == RolePrefix;
    assert s[|RolePrefix|..] == name;
    assert Text.ReplaceAll(s, RolePrefix, "") == "" + Text.ReplaceAll(name, RolePrefix, "");
    NoRolePrefix(name);
    Text.ReplaceAbsent(name, RolePrefix, "");
  }

  /** Whatever the filter authenticates reads back as the token's account id,
      its email and its role in the database; the role checks agree with it. */
  lemma {:induction false} FilterThenContext(w: World, decode: string -> Option<Claims>, header: Option<string>)
    requires FilterRequest(w, decode, header).Continue? && FilterRequest(w, decode, header).context.Some?
    ensures var c := ClaimsOf(decode, header).value;
            var auth := FilterRequest(w, decode, header).context;
            && c.userId in w.users
            && CurrentUserId(auth) == Success(c.userId)
            && CurrentUserEmail(auth) == Success(c.email)
            && CurrentUserRole(auth) == Success(RoleName(w.users[c.userId].role))
            && IsAdmin(auth) == Success(w.users[c.userId].role == Admin)
            && IsFarmer(auth) == Success(w.users[c.userId].role == Role.Farmer)
  {
    var c := ClaimsOf(decode, header).value;
    StripRoleRoundTrip(w.users[c.userId].role);
  }

  /** A suspended account cannot reach any endpoint with its token, whatever
      token it presents, and a request for an unknown account is never
      authenticated. */
  lemma SuspensionIsImmediate(w: World, decode: string -> Option<Claims>, token: string)
    requires decode(token).Some? && decode(token).value.userId in w.users
    ensures var r := FilterRequest(w, decode, Some(BearerPrefix + token));
            r.Forbidden? <==> w.users[decode(token).value.userId].status == Suspended
  {
    BearerRoundTrip(token);
  }
}

=== FILE: seqs.dfy ===
/** `Array.prototype.filter` / `stream().filter(..).collect(..)` over lists, and
    the facts every list view in the system relies on: a filter keeps exactly
    the matching elements, in their original order. */
module Seqs {

  /** `a` can be obtained from `b` by deleting elements (order is kept). */
  predicate IsSubsequence<T(==)>(a: seq<T>, b: seq<T>)
    decreases |b|
  {
    if |a| == 0 then true
    else if |b| == 0 then false
    else if a[0] == b[0] then IsSubsequence(a[1..], b[1..])
    else IsSubsequence(a, b[1..])
  }

  function Filter<T(==)>(s: seq<T>, p: T -> bool): (r: seq<T>)
    ensures |r| <= |s|
    ensures forall i :: 0 <= i < |r| ==> p(r[i]) && r[i] in s
    ensures forall i :: 0 <= i < |s| && p(s[i]) ==> s[i] in r
    decreases |s|
  {
    if |s| == 0 then []
    else if p(s[0]) then [s[0]] + Filter(s[1..], p)
    else Filter(s[1..], p)
  }

  /** Number of elements satisfying `p`. */
  function Count<T>(s: seq<T>, p: T -> bool): (n: nat)
    ensures n <= |s|
    decreases |s|
  {
    if |s| == 0 then 0 else (if p(s[0]) then 1 else 0) + Count(s[1..], p)
  }

  lemma {:induction false} FilterIsSubsequence<T>(s: seq<T>, p: T -> bool)
    ensures IsSubsequence(Filter(s, p), s)
    decreases |s|
  {
    if |s| > 0 {
      FilterIsSubsequence(s[1..], p);
      if p(s[0]) {
        assert ([s[0]] + Filter(s[1..], p))[1..] == Filter(s[1..], p);
      } else {
        SubsequenceOfTail(Filter(s[1..], p), s);
      }
    }
  }

  /** A subsequence of `b[1..]` is a subsequence of `b`. */
  lemma {:induction false} SubsequenceOfTail<T>(a: seq<T>, b: seq<T>)
    requires |b| > 0 && IsSubsequence(a, b[1..])
    ensures IsSubsequence(a, b)
    decreases |b|, 0
  {
    if |a| > 0 && a[0] == b[0] {
      DropHead(a, b[1..]);
    }
  }

  /** Dropping the first element of a subsequence keeps it a subsequence. */
  lemma {:induction false} DropHead<T>(a: seq<T>, b: seq<T>)
    requires |a| > 0 && IsSubsequence(a, b)
    ensures IsSubsequence(a[1..], b)
    decreases |b|, 1
  {
    if a[0] == b[0] {
      if |a[1..]| > 0 {
        SubsequenceOfTail(a[1..], b);
      }
    } else {
      DropHead(a, b[1..]);
      SubsequenceOfTail(a[1..], b);
    }
  }

  /** The filter keeps exactly as many elements as satisfy the predicate. */
  lemma {:induction false} FilterLength<T>(s: seq<T>, p: T -> bool)
    ensures |Filter(s, p)| == Count(s, p)
    decreases |s|
  {
    if |s| > 0 {
      FilterLength(s[1..], p);
    }
  }

  /** Splitting a list by a predicate and its negation loses and duplicates nothing. */
  lemma {:induction false} CountComplement<T>(s: seq<T>, p: T -> bool, q: T -> bool)
    requires forall x :: q(x) == !p(x)
    ensures Count(s, p) + Count(s, q) == |s|
    decreases |s|
  {
    if |s| > 0 {
      CountComplement(s[1..], p, q);
    }
  }

  /** Counts of pairwise-exclusive predicates add up to at most the length. */
  lemma {:induction false} CountDisjoint3<T>(s: seq<T>, p: T -> bool, q: T -> bool, u: T -> bool)
    requires forall x :: !(p(x) && q(x)) && !(p(x) && u(x)) && !(q(x) && u(x))
    ensures Count(s, p) + Count(s, q) + Count(s, u) <= |s|
    decreases |s|
  {
    if |s| > 0 {
      CountDisjoint3(s[1..], p, q, u);
    }
  }

  /** Filtering by a predicate every element satisfies returns the list itself. */
  lemma {:induction false} FilterAll<T>(s: seq<T>, p: T -> bool)
    requires forall i :: 0 <= i < |s| ==> p(s[i])
    ensures Filter(s, p) == s
    decreases |s|
  {
    if |s| > 0 {
      FilterAll(s[1..], p);
      assert [s[0]] + s[1..] == s;
    }
  }

  /** Filtering distributes over concatenation. */
  lemma {:induction false} FilterAppend<T>(a: seq<T>, b: seq<T>, p: T -> bool)
    ensures Filter(a + b, p) == Filter(a, p) + Filter(b, p)
    decreases |a|
  {
    if |a| > 0 {
      FilterAppend(a[1..], b, p);
      assert (a + b)[1..] == a[1..] + b;
    } else {
      assert a + b == b;
    }
  }
}

=== FILE: shipment_logs.dfy ===
/** The shipment log: an append-only journal of custody events, read back per
    shipment in the order the events were written. */
module ShipmentLogService {
  import opened Wrappers
  import opened Tables
  import opened Domain
  import opened Schema
  import opened Ledger
  import Seqs

  /** `createLog`: appends one event for an existing shipment. */
  function CreateLog(w: World, shipmentId: Id, action: ShipmentAction, location: Option<string>,
                     notes: string, txHash: Option<string>): (w': World)
    requires Wf(w) && shipmentId in w.shipments
    ensures Wf(w') && Total(w') == Total(w)
    ensures w' == w.(logs := w.logs + [ShipmentLog(shipmentId, action, location, notes, txHash)])
  {
    var entry := ShipmentLog(shipmentId, action, location, notes, txHash);
    AppendLog(w, entry);
    w.(logs := w.logs + [entry])
  }

  /** `getLogsByShipment`: one shipment's events, oldest first. */
  function LogsOf(w: World, shipmentId: Id): (r: seq<ShipmentLog>)
    ensures forall i :: 0 <= i < |r| ==> r[i].shipmentId == shipmentId && r[i] in w.logs
    ensures forall i :: 0 <= i < |w.logs| && w.logs[i].shipmentId == shipmentId ==> w.logs[i] in r
  {
    Seqs.Filter(w.logs, (l: ShipmentLog) => l.shipmentId == shipmentId)
  }

  /** A new event shows up last in its own shipment's history and nowhere else. */
  lemma {:induction false} CreateLogAppends(w: World, shipmentId: Id, action: ShipmentAction, location: Option<string>,
                                            notes: string, txHash: Option<string>, other: Id)
    requires Wf(w) && shipmentId in w.shipments
    ensures var w' := CreateLog(w, shipmentId, action, location, notes, txHash);
            LogsOf(w', other)
            == LogsOf(w, other) + (if other == shipmentId then [ShipmentLog(shipmentId, action, location, notes, txHash)] else [])
  {
    var entry := ShipmentLog(shipmentId, action, location, notes, txHash);
    Seqs.FilterAppend(w.logs, [entry], (l: ShipmentLog) => l.shipmentId == other);
  }
}

=== FILE: tables.dfy ===
/** A JPA repository modelled as a finite map from generated id to row.
    `findAll` lists rows in id order and the derived `findBy…` queries return
    the first row (lowest id) that matches. */
module Tables {
  import opened Wrappers
  import Seqs

  type Id = nat
  type Table<V> = map<Id, V>

  /** Every id used in the table is below `bound` (the identity sequence's next value). */
  predicate Bounded<V>(t: Table<V>, bound: Id)
  {
    forall k :: k in t ==> k < bound
  }

  /** The rows with ids in `[lo, hi)`, in id order. */
  function Rows<V(==)>(t: Table<V>, lo: Id, hi: Id): (r: seq<V>)
    ensures forall i :: 0 <= i < |r| ==> r[i] in t.Values
    ensures forall k :: lo <= k < hi && k in t ==> t[k] in r
    decreases hi - lo
  {
    if lo >= hi then []
    else
      var head := if lo in t then [t[lo]] else [];
      var rest := Rows(t, lo + 1, hi);
      assert forall i :: 0 <= i < |head| ==> head[i] == t[lo] && t[lo] in t.Values;
      assert forall i :: |head| <= i < |head + rest| ==> (head + rest)[i] == rest[i - |head|];
      head + rest
  }

  /** `findAll()`: every row, in id order. */
  function FindAll<V(==)>(t: Table<V>, bound: Id): seq<V>
  {
    Rows(t, 0, bound)
  }

  /** The lowest id in `[lo, hi)` whose row satisfies `p`. */
  function FirstMatch<V>(t: Table<V>, p: V -> bool, lo: Id, hi: Id): (r: Option<Id>)
    ensures r.Some? ==> lo <= r.value < hi && r.value in t && p(t[r.value])
    ensures r.Some? ==> forall k :: lo <= k < r.value && k in t ==> !p(t[k])
    ensures r.None? ==> forall k :: lo <= k < hi && k in t ==> !p(t[k])
    decreases hi - lo
  {
    if lo >= hi then None
    else if lo in t && p(t[lo]) then Some(lo)
    else FirstMatch(t, p, lo + 1, hi)
  }

  /** A derived single-result query such as `findByEmail`. */
  function FindBy<V>(t: Table<V>, bound: Id, p: V -> bool): (r: Option<Id>)
    requires Bounded(t, bound)
    ensures r.Some? ==> r.value in t && p(t[r.value])
    ensures r.None? <==> forall k :: k in t ==> !p(t[k])
  {
    FirstMatch(t, p, 0, bound)
  }

  /** Every listed row is a row of the table, and every row is listed. */
  lemma FindAllComplete<V>(t: Table<V>, bound: Id, v: V)
    requires Bounded(t, bound)
    ensures v in FindAll(t, bound) <==> v in t.Values
  {
    if v in t.Values {
      var k :| k in t && t[k] == v;
    }
  }

  /** A derived list query such as `findByBuyer`: the rows satisfying `p`, in id order. */
  function FindAllWhere<V(==,!new)>(t: Table<V>, bound: Id, p: V -> bool): (r: seq<V>)
    requires Bounded(t, bound)
    ensures forall v :: v in r <==> v in t.Values && p(v)
    ensures forall i :: 0 <= i < |r| ==> p(r[i])
  {
    var all := FindAll(t, bound);
    var r := Seqs.Filter(all, p);
    forall v
      ensures v in r <==> v in t.Values && p(v)
    {
      FindAllComplete(t, bound, v);
      if v in t.Values && p(v) {
        var i :| 0 <= i < |all| && all[i] == v;
      }
    }
    r
  }
  /** A filtered listing of `[lo, hi)` has one entry per matching id. */
  lemma {:induction false} RowsWhereCount<V>(t: Table<V>, p: V -> bool, lo: Id, hi: Id)
    ensures |Seqs.Filter(Rows(t, lo, hi), p)| == |MatchingIn(t, p, lo, hi)|
    decreases hi - lo
  {
    if lo >= hi {
      assert MatchingIn(t, p, lo, hi) == {};
    } else {
      RowsWhereCount(t, p, lo + 1, hi);
      FilterRowsStep(t, p, lo, hi);
      MatchingStep(t, p, lo, hi);
    }
  }

  /** The ids in `[lo, hi)` whose rows satisfy `p`. */
  function MatchingIn<V>(t: Table<V>, p: V -> bool, lo: Id, hi: Id): set<Id>
  {
    set k | k in t && lo <= k < hi && p(t[k])
  }

  lemma FilterRowsStep<V>(t: Table<V>, p: V -> bool, lo: Id, hi: Id)
    requires lo < hi
    ensures |Seqs.Filter(Rows(t, lo, hi), p)|
            == (if lo in t && p(t[lo]) then 1 else 0) + |Seqs.Filter(Rows(t, lo + 1, hi), p)|
  {
    var head := if lo in t then [t[lo]] else [];
    assert Rows(t, lo, hi) == head + Rows(t, lo + 1, hi);
    Seqs.FilterAppend(head, Rows(t, lo + 1, hi), p);
    if !(lo in t && p(t[lo])) {
      assert Seqs.Filter(head, p) == [];
    }
  }

  lemma MatchingStep<V>(t: Table<V>, p: V -> bool, lo: Id, hi: Id)
    requires lo < hi
    ensures |MatchingIn(t, p, lo, hi)| == (if lo in t && p(t[lo]) then 1 else 0) + |MatchingIn(t, p, lo + 1, hi)|
  {
    var later := MatchingIn(t, p, lo + 1, hi);
    if lo in t && p(t[lo]) {
      assert MatchingIn(t, p, lo, hi) == {lo} + later && lo !in later;
    } else {
      assert MatchingIn(t, p, lo, hi) == later;
    }
  }

  /** The ids whose rows satisfy `p`. */
  function IdsWhere<V>(t: Table<V>, p: V -> bool): (r: set<Id>)
    ensures forall k :: k in r <==> k in t && p(t[k])
  {
    set k | k in t && p(t[k])
  }

  /** A list query returns one row per matching id: its size is the number of matching rows. */
  lemma FindAllWhereCount<V(!new)>(t: Table<V>, bound: Id, p: V -> bool)
    requires Bounded(t, bound)
    ensures |FindAllWhere(t, bound, p)| == |IdsWhere(t, p)|
  {
    RowsWhereCount(t, p, 0, bound);
    assert MatchingIn(t, p, 0, bound) == IdsWhere(t, p);
  }

  /** `findAll().size()` is the number of rows. */
  lemma FindAllCount<V>(t: Table<V>, bound: Id)
    requires Bounded(t, bound)
    ensures |FindAll(t, bound)| == |t|
  {
    var all := (v: V) => true;
    RowsWhereCount(t, all, 0, bound);
    Seqs.FilterAll(FindAll(t, bound), all);
    assert MatchingIn(t, all, 0, bound) == t.Keys;
  }
}

=== FILE: text.dfy ===
/** String helpers for the few places where the services and pages inspect text:
    ASCII case mapping (`toUpperCase`/`toLowerCase` on enum names and search
    terms), prefix tests, substring search, replace-all and decimal rendering
    of ids. */
module Text {

  function UpperChar(c: char): char
  {
    if 'a' <= c <= 'z' then (c as int - 32) as char else c
  }

  function LowerChar(c: char): char
  {
    if 'A' <= c <= 'Z' then (c as int + 32) as char else c
  }

  /** `String.toUpperCase` restricted to ASCII letters. */
  function ToUpper(s: string): (r: string)
    ensures |r| == |s|
    ensures forall i :: 0 <= i < |s| ==> r[i] == UpperChar(s[i])
  {
    seq(|s|, i requires 0 <= i < |s| => UpperChar(s[i]))
  }

  /** `String.toLowerCase` restricted to ASCII letters. */
  function ToLower(s: string): (r: string)
    ensures |r| == |s|
    ensures forall i :: 0 <= i < |s| ==> r[i] == LowerChar(s[i])
  {
    seq(|s|, i requires 0 <= i < |s| => LowerChar(s[i]))
  }

  /** `s.trim().isEmpty()` in Java: every character is a space or a control character. */
  predicate IsBlank(s: string)
  {
    forall i :: 0 <= i < |s| ==> s[i] <= ' '
  }

  predicate StartsWith(s: string, prefix: string)
  {
    |prefix| <= |s| && s[..|prefix|] == prefix
  }

  /** `s.includes(t)` / `s.contains(t)`: `t` occurs somewhere in `s`. */
  predicate Contains(s: string, t: string)
    decreases |s|
  {
    StartsWith(s, t) || (|s| > 0 && Contains(s[1..], t))
  }

  /** `s.replace(pat, rep)` in Java, which replaces every occurrence, scanning left to right. */
  function ReplaceAll(s: string, pat: string, rep: string): string
    requires pat != []
    decreases |s|
  {
    if |s| == 0 then []
    else if StartsWith(s, pat) then rep + ReplaceAll(s[|pat|..], pat, rep)
    else [s[0]] + ReplaceAll(s[1..], pat, rep)
  }

  /** `s.lastIndexOf(c)`: the greatest index holding `c`, or -1. */
  function LastIndexOf(s: string, c: char): (r: int)
    ensures -1 <= r < |s|
    ensures r >= 0 ==> s[r] == c
    ensures forall j :: r < j < |s| ==> s[j] != c
    decreases |s|
  {
    if |s| == 0 then -1
    else if s[|s| - 1] == c then |s| - 1
    else LastIndexOf(s[..|s| - 1], c)
  }

  function DigitChar(d: nat): char
    requires d < 10
  {
    "0123456789"[d]
  }

  /** `Long.toString` for the non-negative ids the database generates. */
  function NatToString(n: nat): (r: string)
    ensures |r| > 0
    ensures forall i :: 0 <= i < |r| ==> '0' <= r[i] <= '9'
  {
    if n < 10 then [DigitChar(n)] else NatToString(n / 10) + [DigitChar(n % 10)]
  }

  // ---------------------------------------------------------------- lemmas

  /** Decimal rendering is injective: distinct ids never print alike. */
  lemma {:induction false} NatToStringInjective(a: nat, b: nat)
    requires NatToString(a) == NatToString(b)
    ensures a == b
    decreases a
  {
    var sa, sb := NatToString(a), NatToString(b);
    if a < 10 && b < 10 {
      DigitCharInjective(a, b);
    } else if a >= 10 && b >= 10 {
      var pa, pb := NatToString(a / 10), NatToString(b / 10);
      assert |pa| == |pb|;
      assert pa == sa[..|pa|] && pb == sb[..|pb|];
      NatToStringInjective(a / 10, b / 10);
      DigitCharInjective(a % 10, b % 10);
    }
    // otherwise one is a single digit and the other longer, so they differ in length
  }

  lemma DigitCharInjective(d: nat, e: nat)
    requires d < 10 && e < 10 && DigitChar(d) == DigitChar(e)
    ensures d == e
  {
  }

  lemma ToUpperIdempotent(s: string)
    ensures ToUpper(ToUpper(s)) == ToUpper(s)
  {
  }

  /** Text without lower-case letters is its own upper-case form. */
  lemma UpperFixed(s: string)
    requires forall i :: 0 <= i < |s| ==> !('a' <= s[i] <= 'z')
    ensures ToUpper(s) == s
  {
  }

  lemma EmptyContained(s: string)
    ensures Contains(s, [])
  {
  }

  /** A string never contains a pattern longer than itself. */
  lemma {:induction false} ContainsLength(s: string, t: string)
    requires Contains(s, t)
    ensures |t| <= |s|
    decreases |s|
  {
    if !StartsWith(s, t) {
      ContainsLength(s[1..], t);
    }
  }

  /** Prepending text cannot remove an occurrence. */
  lemma {:induction false} ContainsAppend(a: string, s: string, t: string)
    requires Contains(s, t)
    ensures Contains(a + s, t)
    decreases |a|
  {
    if |a| > 0 {
      ContainsAppend(a[1..], s, t);
      assert (a + s)[1..] == a[1..] + s;
    } else {
      assert a + s == s;
    }
  }

  /** Replacing a pattern that does not occur leaves the text unchanged. */
  lemma {:induction false} ReplaceAbsent(s: string, pat: string, rep: string)
    requires pat != [] && !Contains(s, pat)
    ensures ReplaceAll(s, pat, rep) == s
    decreases |s|
  {
    if |s| > 0 {
      ReplaceAbsent(s[1..], pat, rep);
      assert [s[0]] + s[1..] == s;
    }
  }
}

=== FILE: tracking_page.dfy ===
/** The shipment tracking page: the timeline's step states, the progress
    bar, and the farmer's update form, which starts from the stored
    shipment and is sent back as a logistics update. */
module TrackingPage {
  import opened Wrappers
  import opened Tables
  import opened Domain
  import opened Schema
  import Blockchain
  import LogisticsService

  const StepOrder := ["IN_TRANSIT", "DELAYED", "DELIVERED"]

  /** `indexOf`: the first position of `x`, or -1. */
  function IndexOf(xs: seq<string>, x: string): (r: int)
    ensures -1 <= r < |xs|
    ensures r >= 0 ==> xs[r] == x && forall j :: 0 <= j < r ==> xs[j] != x
    ensures r == -1 <==> x !in xs
    decreases |xs|
  {
    if |xs| == 0 then -1
    else if xs[0] == x then 0
    else var k := IndexOf(xs[1..], x); if k == -1 then -1 else k + 1
  }

  datatype StepState = Completed | Active | Pending

  /** `getStepStatus`: everything is done once delivered; otherwise steps
      before the current status are done, the current one is active, and
      later ones wait. */
  function StepStatus(status: ShipmentStatus, step: string): (r: StepState)
    ensures status == ShipmentStatus.Delivered ==> r == StepState.Completed
    ensures status != ShipmentStatus.Delivered ==>
              var cur, at := IndexOf(StepOrder, ShipmentStatusName(status)), IndexOf(StepOrder, step);
              && (r == StepState.Completed <==> at < cur)
              && (r == StepState.Active <==> at == cur)
              && (r == StepState.Pending <==> at > cur)
  {
    var cur := IndexOf(StepOrder, ShipmentStatusName(status));
    var at := IndexOf(StepOrder, step);
    if status == ShipmentStatus.Delivered then StepState.Completed
    else if at < cur then StepState.Completed
    else if at == cur then StepState.Active
    else StepState.Pending
  }

  /** The timeline's three stops. */
  datatype Timeline = Timeline(origin: StepState, transit: StepState, delivered: StepState)

  function TimelineOf(status: ShipmentStatus): Timeline
  {
    var t := StepStatus(status, "IN_TRANSIT");
    Timeline(StepState.Completed, if t == StepState.Completed || t == StepState.Active then StepState.Active else StepState.Pending, StepStatus(status, "DELIVERED"))
  }

  /** What the timeline shows for each status: a shipment just picked up has
      every step ahead of it, and a delivered one has reached the end. */
  lemma TimelineByStatus(status: ShipmentStatus)
    ensures status == ShipmentStatus.PickedUp ==> TimelineOf(status) == Timeline(StepState.Completed, StepState.Pending, StepState.Pending)
    ensures status == ShipmentStatus.InTransit ==> TimelineOf(status) == Timeline(StepState.Completed, StepState.Active, StepState.Pending)
    ensures status == ShipmentStatus.Delayed ==> TimelineOf(status) == Timeline(StepState.Completed, StepState.Active, StepState.Pending)
    ensures status == ShipmentStatus.Delivered ==> TimelineOf(status) == Timeline(StepState.Completed, StepState.Active, StepState.Completed)
    ensures StepStatus(status, "DELIVERED") == StepState.Completed <==> status == ShipmentStatus.Delivered
  {
  }

  /** The progress bar's width in percent. */
  function ProgressWidth(status: ShipmentStatus): (pct: nat)
    ensures pct == 100 <==> status == ShipmentStatus.Delivered
    ensures pct != 100 ==> pct == 50
  {
    if status == ShipmentStatus.Delivered then 100 else 50
  }

  // ------------------------------------------------------- the update form

  datatype UpdateForm = UpdateForm(location: string, temperature: real, humidity: real, status: ShipmentStatus)

  /** A number JavaScript treats as true: present and non-zero. */
  predicate Truthy(x: Option<real>)
  {
    x.Some? && x.value != 0.0
  }

  /** The form as the page fills it: a falsy location becomes "", and a
      falsy temperature or humidity (missing, or exactly 0) becomes 20 or 60. */
  function FormAsWritten(s: Shipment): (f: UpdateForm)
    ensures f.location == s.currentLocation.GetOr("")
    ensures Truthy(s.temperature) ==> f.temperature == s.temperature.value
    ensures !Truthy(s.temperature) ==> f.temperature == 20.0
    ensures Truthy(s.humidity) ==> f.humidity == s.humidity.value
    ensures !Truthy(s.humidity) ==> f.humidity == 60.0
    ensures f.status == s.status
  {
    UpdateForm(
      if s.currentLocation.Some? && s.currentLocation.value != "" then s.currentLocation.value else "",
      if Truthy(s.temperature) then s.temperature.value else 20.0,
      if Truthy(s.humidity) then s.humidity.value else 60.0,
      s.status)
  }

  /** The form with defaults only for readings that are missing. */
  function Form(s: Shipment): (f: UpdateForm)
    ensures f.location == s.currentLocation.GetOr("")
    ensures f.temperature == s.temperature.GetOr(20.0) && f.humidity == s.humidity.GetOr(60.0)
    ensures f.status == s.status
  {
    UpdateForm(s.currentLocation.GetOr(""), s.temperature.GetOr(20.0), s.humidity.GetOr(60.0), s.status)
  }

  /** The logistics update the form sends. */
  function Submitted(f: UpdateForm): LogisticsService.SensorUpdate
  {
    LogisticsService.SensorUpdate(Some(f.location), Some(f.temperature), Some(f.humidity), f.status)
  }

  /** As written, saving the form untouched turns a measured 0 degrees into 20. */
  lemma ZeroReadingOverwritten(w: World, node: Blockchain.Node, k: Id)
    requires Wf(w) && k in w.shipments && w.shipments[k].temperature == Some(0.0)
    ensures var r := LogisticsService.UpdateShipment(w, node, k, Submitted(FormAsWritten(w.shipments[k])));
            r.world.shipments[k].temperature == Some(20.0)
  {
  }

  /** With defaults only for missing readings, saving the form untouched
      keeps every reading and the location the shipment already has. */
  lemma UntouchedFormKeepsReadings(w: World, node: Blockchain.Node, k: Id)
    requires Wf(w) && k in w.shipments
    requires w.shipments[k].temperature.Some? && w.shipments[k].humidity.Some?
    requires w.shipments[k].currentLocation.Some?
    ensures var r := LogisticsService.UpdateShipment(w, node, k, Submitted(Form(w.shipments[k])));
            var s, s' := w.shipments[k], r.world.shipments[k];
            && s'.temperature == s.temperature && s'.humidity == s.humidity
            && s'.currentLocation == s.currentLocation && s'.status == s.status
  {
  }
}

=== FILE: upload.dfy ===
/** The upload endpoint: a stored file is named by a fresh UUID plus the
    original name's extension, so the client's name never reaches the file
    system. The UUID, the path cleaning of the original name, and the copy
    itself are parameters: `uuid` is the random id, `originalName` the name
    after cleaning, `copy` the outcome of writing the bytes. */
module FileUpload {
  import opened Wrappers
  import opened Domain
  import opened Api
  import Text

  const UploadsPath := "/uploads/"

  /** What writing the file to the storage directory gave. */
  datatype CopyOutcome = Copied | IoFailed(message: string)

  /** The extension kept from the original name: from its last '.', unless
      that dot is the first character or there is none. */
  function Extension(originalName: string): (r: string)
    ensures r == [] <==> forall j :: 0 < j < |originalName| ==> originalName[j] != '.'
    ensures r != [] ==> && r[0] == '.' && |r| < |originalName|
                        && originalName == originalName[..|originalName| - |r|] + r
                        && forall j :: 0 < j < |r| ==> r[j] != '.'
  {
    var i := Text.LastIndexOf(originalName, '.');
    if i > 0 then
      assert originalName == originalName[..i] + originalName[i..];
      originalName[i..]
    else []
  }

  /** The shape of `UUID.randomUUID().toString()`: 36 lower-case hex digits and dashes. */
  predicate IsUuidText(s: string)
  {
    |s| == 36 && forall i :: 0 <= i < |s| ==> s[i] == '-' || '0' <= s[i] <= '9' || 'a' <= s[i] <= 'f'
  }

  /** The stored file name. */
  function StoredName(uuid: string, originalName: string): (r: string)
    ensures |r| >= |uuid| && r[..|uuid|] == uuid
  {
    uuid + Extension(originalName)
  }

  /** `uploadFile`. A stored name with ".." escapes as a `RuntimeException`
      (the only exception the method catches is an I/O failure); a failed
      copy is answered with 500; otherwise 200 and the download address. */
  function UploadFile(baseUri: string, uuid: string, originalName: string, copy: CopyOutcome): (r: Result<Reply<string>, Error>)
    ensures var name := StoredName(uuid, originalName);
            && (r.Failure? <==> Text.Contains(name, ".."))
            && (r.Failure? ==> r.error == Refused(InvalidPathSequence))
            && (r.Success? && copy.Copied? ==>
                  r.value == Reply(200, ApiResponse(true, "File uploaded successfully", Some(baseUri + UploadsPath + name), 200)))
            && (r.Success? && copy.IoFailed? ==>
                  && r.value.status == 500 && r.value.body.statusCode == 500 && !r.value.body.success
                  && r.value.body.message == "Could not upload file: " + copy.message)
  {
    var name := StoredName(uuid, originalName);
    if Text.Contains(name, "..") then Failure(Refused(InvalidPathSequence))
    else match copy
      case Copied => Success(Reply(200, ApiResponse(true, "File uploaded successfully", Some(baseUri + UploadsPath + name), 200)))
      case IoFailed(message) => Success(Reply(500, ApiResponse(false, "Could not upload file: " + message, None, 500)))
  }

  /** A text with no two adjacent dots does not contain "..". */
  lemma {:induction false} NoDoubleDot(s: string)
    requires forall i :: 0 <= i < |s| - 1 ==> !(s[i] == '.' && s[i + 1] == '.')
    ensures !Text.Contains(s, "..")
    decreases |s|
  {
    if |s| >= 2 {
      assert s[..2][0] != '.' || s[..2][1] != '.';
    }
    if |s| > 0 {
      NoDoubleDot(s[1..]);
    }
  }

  /** The ".." guard never fires: a UUID holds no dot, and the extension
      holds only its leading one. The stored name starts with the UUID and
      ends with the original extension. */
  lemma {:induction false} UploadNeverRejected(baseUri: string, uuid: string, originalName: string, copy: CopyOutcome)
    requires IsUuidText(uuid)
    ensures UploadFile(baseUri, uuid, originalName, copy).Success?
  {
    var ext := Extension(originalName);
    var name := uuid + ext;
    forall i | 0 <= i < |name| - 1
      ensures !(name[i] == '.' && name[i + 1] == '.')
    {
      if i + 1 < |uuid| {
        assert name[i] == uuid[i];
      } else {
        assert name[i + 1] == ext[i + 1 - |uuid|];
      }
    }
    NoDoubleDot(name);
  }
}

=== FILE: upload_client.dfy ===
/** The browser's upload helper: the checks it makes before any request is
    sent. The server's answer to one upload is a parameter `server`: on
    success the `data` field of the response envelope (the stored file's URL),
    on failure the server's error envelope or the transport message. */
module FileUploadClient {
  import opened Wrappers

  const DefaultMaxSize := 5 * 1024 * 1024
  const DefaultTypes := ["image/jpeg", "image/png", "image/jpg", "image/gif", "image/webp"]

  /** What the helper sees of a `File`. */
  datatype FileInfo = FileInfo(size: int, mimeType: string)

  /** The options object of `validateFile`; a missing field takes its default. */
  datatype ValidationOptions = ValidationOptions(maxSize: Option<int>, allowedTypes: Option<seq<string>>)

  /** Why the helper threw. */
  datatype ClientError =
    | TooLarge(limitMb: real)          // "File size exceeds <n>MB limit"
    | TypeNotAllowed(mimeType: string, allowed: seq<string>)
    | NoFile
    | NoFiles
    | Rejected(reason: string)         // the server's error envelope or the transport message

  /** `validateFile`: the size check, then the type check. */
  function ValidateFile(file: FileInfo, options: ValidationOptions): (r: Result<bool, ClientError>)
    ensures var max := options.maxSize.GetOr(DefaultMaxSize);
            var allowed := options.allowedTypes.GetOr(DefaultTypes);
            && (r.Success? <==> file.size <= max && file.mimeType in allowed)
            && (r.Success? ==> r.value)
            && (file.size > max ==> r == Failure(TooLarge(max as real / 1024.0 / 1024.0)))
            && (file.size <= max && file.mimeType !in allowed ==> r == Failure(TypeNotAllowed(file.mimeType, allowed)))
  {
    var max := options.maxSize.GetOr(DefaultMaxSize);
    var allowed := options.allowedTypes.GetOr(DefaultTypes);
    if file.size > max then Failure(TooLarge(max as real / 1024.0 / 1024.0))
    else if file.mimeType !in allowed then Failure(TypeNotAllowed(file.mimeType, allowed))
    else Success(true)
  }

  /** The files an upload call posted, and what it returned or threw. */
  datatype Upload = Upload(posted: seq<FileInfo>, outcome: Result<seq<string>, ClientError>)

  /** `uploadFile`: nothing is posted without a file. The helper resolves with
      the whole response envelope; the model keeps its `data` field. */
  function UploadFile(file: Option<FileInfo>, server: FileInfo -> Result<string, string>): (r: Upload)
    ensures file.None? ==> r == Upload([], Failure(NoFile))
    ensures file.Some? ==> r.posted == [file.value]
    ensures file.Some? ==> (r.outcome.Success? <==> server(file.value).Success?)
    ensures r.outcome.Success? ==> r.outcome.value == [server(file.value).value]
  {
    if file.None? then Upload([], Failure(NoFile))
    else match server(file.value)
      case Success(url) => Upload([file.value], Success([url]))
      case Failure(why) => Upload([file.value], Failure(Rejected(why)))
  }

  /** The uploads of `files[i..]`, in order; the first failure decides the outcome. */
  function UploadAll(files: seq<FileInfo>, server: FileInfo -> Result<string, string>): (r: Result<seq<string>, ClientError>)
    ensures r.Success? <==> forall i :: 0 <= i < |files| ==> server(files[i]).Success?
    ensures r.Success? ==> |r.value| == |files| && forall i :: 0 <= i < |files| ==> r.value[i] == server(files[i]).value
    ensures r.Failure? ==> exists i :: 0 <= i < |files| && server(files[i]).Failure? && r.error == Rejected(server(files[i]).error)
    decreases |files|
  {
    if |files| == 0 then Success([])
    else
      var head := server(files[0]);
      var tail := UploadAll(files[1..], server);
      if head.Failure? then Failure(Rejected(head.error))
      else if tail.Failure? then
        assert forall i :: 0 <= i < |files| - 1 ==> files[1..][i] == files[i + 1];
        tail
      else
        assert forall i :: 0 < i < |files| ==> server(files[i]).Success? by {
          forall i | 0 < i < |files| ensures server(files[i]).Success? {
            assert files[i] == files[1..][i - 1];
          }
        }
        Success([head.value] + tail.value)
  }

  /** `uploadMultipleFiles`: nothing is posted for a missing or empty list;
      otherwise every file is posted and the call succeeds only if every
      upload does. */
  function UploadMultipleFiles(files: Option<seq<FileInfo>>, server: FileInfo -> Result<string, string>): (r: Upload)
    ensures files.None? || files.value == [] ==> r == Upload([], Failure(NoFiles))
    ensures files.Some? && files.value != [] ==>
              && r.posted == files.value
              && (r.outcome.Success? <==> forall i :: 0 <= i < |files.value| ==> server(files.value[i]).Success?)
  {
    if files.None? || files.value == [] then Upload([], Failure(NoFiles))
    else Upload(files.value, UploadAll(files.value, server))
  }
}

=== FILE: user_entity.dfy ===
/** The persistence hooks of the `User` entity: what a row looks like once
    saved for the first time, and on every later save. */
module UserEntity {
  import opened Wrappers
  import opened Tables
  import opened Domain

  /** The demonstration balance new non-distributor accounts start with. */
  const DemoBalance: Money := 500000.0

  /** The opening balance each role is meant to receive: distributors earn
      through delivery fees and so start empty. */
  function OpeningBalance(role: Role): (b: Money)
    ensures b == 0.0 <==> role == Distributor
    ensures role != Distributor ==> b == DemoBalance
  {
    if role == Distributor then 0.0 else DemoBalance
  }

  /** `@PrePersist onCreate`: stamps both timestamps, clears the verified
      flag, and fills a missing balance with the role's opening balance. */
  function OnCreate(u: User, now: Time): (r: User)
    ensures r.createdAt == Some(now) && r.updatedAt == Some(now)
    ensures !r.isVerified
    ensures r.balance.Some?
    ensures u.balance.Some? ==> r.balance == u.balance
    ensures u.balance.None? ==> r.balance == Some(OpeningBalance(u.role))
    ensures r.(createdAt := u.createdAt, updatedAt := u.updatedAt, isVerified := u.isVerified, balance := u.balance) == u
  {
    var balance := if u.balance.None? then Some(OpeningBalance(u.role)) else u.balance;
    u.(createdAt := Some(now), updatedAt := Some(now), isVerified := false, balance := balance)
  }

  /** `@PreUpdate onUpdate`: only the modification time changes. */
  function OnUpdate(u: User, now: Time): (r: User)
    ensures r.updatedAt == Some(now)
    ensures r.(updatedAt := u.updatedAt) == u
  {
    u.(updatedAt := Some(now))
  }

  /** A user as `User.builder()` leaves it when the caller sets no balance:
      the field's `@Builder.Default` initialiser supplies 500000. */
  function BuiltAsWritten(id: Id, email: string, name: string, password: string, role: Role,
                          walletAddress: Option<string>, address: Option<string>): (u: User)
    ensures u.balance == Some(DemoBalance)
  {
    User(id, email, name, password, role, UserStatus.Pending, false, walletAddress, address,
         Some(DemoBalance), None, None, None)
  }

  /** The same user with the balance left unset, so that `onCreate` chooses it by role. */
  function Built(id: Id, email: string, name: string, password: string, role: Role,
                 walletAddress: Option<string>, address: Option<string>): (u: User)
    ensures u.balance.None?
    ensures u == BuiltAsWritten(id, email, name, password, role, walletAddress, address).(balance := None)
  {
    User(id, email, name, password, role, UserStatus.Pending, false, walletAddress, address,
         None, None, None, None)
  }

  /** As written, the builder default pre-empts `onCreate`'s role rule: a
      newly saved distributor holds the demonstration balance, not zero. */
  lemma DistributorOpensWithDemoBalance(id: Id, email: string, name: string, password: string,
                                        walletAddress: Option<string>, address: Option<string>, now: Time)
    ensures OnCreate(BuiltAsWritten(id, email, name, password, Distributor, walletAddress, address), now).balance
            == Some(DemoBalance)
    ensures OnCreate(BuiltAsWritten(id, email, name, password, Distributor, walletAddress, address), now).balance
            != Some(OpeningBalance(Distributor))
  {
  }

  /** With the balance left to `onCreate`, every role opens with its intended balance. */
  lemma OpensWithRoleBalance(id: Id, email: string, name: string, password: string, role: Role,
                             walletAddress: Option<string>, address: Option<string>, now: Time)
    ensures OnCreate(Built(id, email, name, password, role, walletAddress, address), now).balance
            == Some(OpeningBalance(role))
  {
  }
}

=== FILE: user_management_page.dfy ===
/** The admin's user-management table: which account buttons each row shows,
    and what pressing one sends and reports. */
module UserManagementPage {
  import opened Wrappers
  import opened Tables
  import opened Domain
  import opened Schema
  import AdminController

  type UserAction = AdminController.UserAction

  /** The action name a button passes to the handler. */
  function ActionName(a: UserAction): string
  {
    match a
    case Verify => "verify"
    case Reject => "reject"
    case Suspend => "suspend"
    case Activate => "activate"
  }

  /** The handler's `switch`: a known name selects its action and its success
      text; any other name returns before calling the server. */
  function HandleAction(name: string): (r: Option<(UserAction, string)>)
    ensures r.Some? <==> exists a :: ActionName(a) == name
    ensures r.Some? ==> ActionName(r.value.0) == name
  {
    if name == "verify" then assert ActionName(AdminController.Verify) == name; Some((AdminController.Verify, "User verified successfully"))
    else if name == "reject" then assert ActionName(AdminController.Reject) == name; Some((AdminController.Reject, "User rejected successfully"))
    else if name == "suspend" then assert ActionName(AdminController.Suspend) == name; Some((AdminController.Suspend, "User suspended successfully"))
    else if name == "activate" then assert ActionName(AdminController.Activate) == name; Some((AdminController.Activate, "User activated successfully"))
    else None
  }

  /** Every button's name reaches its own action. */
  lemma HandleActionName(a: UserAction)
    ensures HandleAction(ActionName(a)).Some? && HandleAction(ActionName(a)).value.0 == a
  {
  }

  /** The buttons a row shows, as written: verify and reject for PENDING,
      suspend for VERIFIED, activate for SUSPENDED, nothing otherwise. */
  function ActionsAsWritten(s: UserStatus): (r: set<UserAction>)
    ensures AdminController.Suspend in r <==> s == UserStatus.Verified
    ensures AdminController.Activate in r <==> s == Suspended
    ensures AdminController.Verify in r <==> s == UserStatus.Pending
    ensures AdminController.Reject in r <==> s == UserStatus.Pending
  {
    match s
    case Pending => {AdminController.Verify, AdminController.Reject}
    case Verified => {AdminController.Suspend}
    case Suspended => {AdminController.Activate}
    case _ => {}
  }

  /** As written, an account the page verifies comes back ACTIVE, and an
      ACTIVE row shows no button at all, so it can never be suspended here. */
  lemma VerifiedUserStranded(w: World, userId: Id)
    requires Wf(w) && userId in w.users
    ensures var r := AdminController.ApplyUserAction(w, userId, AdminController.Verify);
            r.result.Success? && ActionsAsWritten(r.world.users[userId].status) == {}
  {
  }

  /** The buttons with suspend offered to every account that is in good
      standing, ACTIVE as well as VERIFIED. */
  function Actions(s: UserStatus): (r: set<UserAction>)
    ensures AdminController.Suspend in r <==> s == Active || s == UserStatus.Verified
    ensures AdminController.Activate in r <==> s == Suspended
    ensures AdminController.Verify in r <==> s == UserStatus.Pending
    ensures AdminController.Reject in r <==> s == UserStatus.Pending
  {
    match s
    case Pending => {AdminController.Verify, AdminController.Reject}
    case Active => {AdminController.Suspend}
    case Verified => {AdminController.Suspend}
    case Suspended => {AdminController.Activate}
    case Rejected => {}
  }

  /** Whatever button the admin presses, the row it leaves behind offers the
      button that undoes it: suspend after verify or activate, activate after
      reject or suspend. */
  lemma EveryActionUndoable(w: World, userId: Id, a: UserAction)
    requires Wf(w) && userId in w.users
    ensures var r := AdminController.ApplyUserAction(w, userId, a);
            var offered := Actions(r.world.users[userId].status);
            && (a == AdminController.Verify || a == AdminController.Activate ==> AdminController.Suspend in offered)
            && (a == AdminController.Reject || a == AdminController.Suspend ==> AdminController.Activate in offered)
  {
  }
}

=== FILE: users_service.dfy ===
/** Account administration: lookups and role/status listings, the admin's
    status override, wallet top-ups, and deletion of an account together with
    its farmer profile. */
module UserService {
  import opened Wrappers
  import opened Tables
  import opened Domain
  import opened Schema
  import opened Ledger
  import Seqs
  import Text

  // ------------------------------------------------------------- lookups

  /** `getUserById`. */
  function UserById(w: World, userId: Id): (r: Result<User, Error>)
    ensures r.Success? <==> userId in w.users
    ensures r.Success? ==> r.value == w.users[userId]
    ensures r.Failure? ==> r.error == NotFound(UserRow)
  {
    if userId in w.users then Success(w.users[userId]) else Failure(NotFound(UserRow))
  }

  /** `getUserByEmail`: the first account registered under `email`. */
  function UserByEmail(w: World, email: string): (r: Result<User, Error>)
    requires Wf(w)
    ensures r.Success? <==> exists k :: k in w.users && w.users[k].email == email
    ensures r.Success? ==> r.value in w.users.Values && r.value.email == email
    ensures r.Failure? ==> r.error == NotFound(UserRow)
  {
    match FindBy(w.users, w.nextId, (u: User) => u.email == email)
    case Some(k) => Success(w.users[k])
    case None => Failure(NotFound(UserRow))
  }

  /** `getAllUsers`. */
  function AllUsers(w: World): (r: seq<User>)
    requires Wf(w)
    ensures forall u :: u in r <==> u in w.users.Values
  {
    forall u ensures u in FindAll(w.users, w.nextId) <==> u in w.users.Values {
      FindAllComplete(w.users, w.nextId, u);
    }
    FindAll(w.users, w.nextId)
  }

  /** `findByRole`, behind `getAllFarmers`, `getAllDistributors`, `getAllRetailers` and `getAllConsumers`. */
  function UsersWithRole(w: World, role: Role): (r: seq<User>)
    requires Wf(w)
    ensures forall u :: u in r <==> u in w.users.Values && u.role == role
  {
    FindAllWhere(w.users, w.nextId, (u: User) => u.role == role)
  }

  /** `getUsersByRole`: the role name is matched case-insensitively; an unknown name throws. */
  function UsersByRole(w: World, role: string): (r: Result<seq<User>, Error>)
    requires Wf(w)
    ensures r.Failure? <==> ParseRole(role).None?
    ensures r.Failure? ==> r.error == IllegalArgument
    ensures r.Success? ==> forall u :: u in r.value <==> u in w.users.Values && RoleName(u.role) == Text.ToUpper(role)
  {
    match ParseRole(role)
    case None => Failure(IllegalArgument)
    case Some(x) =>
      forall u: User ensures RoleName(u.role) == Text.ToUpper(role) <==> u.role == x {
        RoleNameInjective(u.role, x);
      }
      Success(UsersWithRole(w, x))
  }

  lemma RoleNameInjective(a: Role, b: Role)
    ensures RoleName(a) == RoleName(b) <==> a == b
  {
  }

  /** `getPendingUsers`: every account still waiting for approval, in id order. */
  function PendingUsers(w: World): (r: seq<User>)
    requires Wf(w)
    ensures forall u :: u in r <==> u in w.users.Values && u.status == UserStatus.Pending
    ensures Seqs.IsSubsequence(r, FindAll(w.users, w.nextId))
  {
    Seqs.FilterIsSubsequence(FindAll(w.users, w.nextId), (u: User) => u.status == UserStatus.Pending);
    FindAllWhere(w.users, w.nextId, (u: User) => u.status == UserStatus.Pending)
  }

  // ------------------------------------------------------ updateUserStatus

  /** `updateUserStatus`: the admin sets any status by name, matched
      case-insensitively; an unknown name is refused and nothing is saved. */
  function UpdateUserStatus(w: World, userId: Id, status: string): (r: Tx<User>)
    requires Wf(w)
    ensures r.result.Failure? ==> r.world == w
    ensures userId !in w.users ==> r.result == Failure(NotFound(UserRow))
    ensures userId in w.users && ParseUserStatus(status).None? ==> r.result == Failure(Refused(InvalidUserStatus))
    ensures r.result.Success? <==> userId in w.users && ParseUserStatus(status).Some?
    ensures r.result.Success? ==>
              && UserStatusName(r.result.value.status) == Text.ToUpper(status)
              && r.result.value == w.users[userId].(status := r.result.value.status)
              && r.world == w.(users := w.users[userId := r.result.value])
    ensures Wf(r.world)
  {
    if userId !in w.users then Fail(w, NotFound(UserRow))
    else match ParseUserStatus(status)
      case None => Fail(w, Refused(InvalidUserStatus))
      case Some(s) =>
        var u := w.users[userId].(status := s);
        Tx(PutUser(w, u), Success(u))
  }

  // ---------------------------------------------------------- topUpBalance

  /** `topUpBalance`: a positive amount is added to one wallet. The amount is
      checked before the account is looked up. */
  function TopUpBalance(w: World, userId: Id, amount: Money): (r: Tx<User>)
    requires Wf(w)
    ensures r.result.Failure? ==> r.world == w
    ensures amount <= 0.0 ==> r.result == Failure(Refused(NonPositiveTopUp))
    ensures amount > 0.0 && userId !in w.users ==> r.result == Failure(NotFound(UserRow))
    ensures amount > 0.0 && userId in w.users && w.users[userId].balance.None? ==> r.result == Failure(NullValue)
    ensures r.result.Success? <==> amount > 0.0 && userId in w.users && w.users[userId].balance.Some?
    ensures r.result.Success? ==>
              && r.result.value == w.users[userId].(balance := Some(w.users[userId].balance.value + amount))
              && r.world == w.(users := w.users[userId := r.result.value])
              && Total(r.world) == Total(w) + amount
    ensures Wf(r.world)
  {
    if amount <= 0.0 then Fail(w, Refused(NonPositiveTopUp))
    else if userId !in w.users then Fail(w, NotFound(UserRow))
    else if w.users[userId].balance.None? then Fail(w, NullValue)
    else
      CreditTotal(w, userId, amount);
      var u := Credit(w.users, userId, amount)[userId];
      Tx(PutUser(w, u), Success(u))
  }

  // ------------------------------------------------------------ deleteUser

  /** The farmer profiles that belong to `userId`; the user's deletion cascades to them. */
  function ProfilesOf(w: World, userId: Id): (r: set<Id>)
    ensures forall f :: f in r <==> f in w.farmers && w.farmers[f].userId == userId
  {
    set f | f in w.farmers && w.farmers[f].userId == userId
  }

  /** Some row outside the cascade still names the user or one of its profiles,
      so the delete violates a foreign key. */
  predicate StillReferenced(w: World, userId: Id)
  {
    || (exists c :: c in w.crops && w.crops[c].farmerId in ProfilesOf(w, userId))
    || (exists o :: o in w.orders && (w.orders[o].buyerId == userId
                                     || w.orders[o].farmerId in ProfilesOf(w, userId)
                                     || w.orders[o].distributorId == Some(userId)))
    || (exists s :: s in w.shipments && w.shipments[s].distributorId == Some(userId))
  }

  /** The database without the user and its profiles. */
  function Without(w: World, userId: Id): (w': World)
    requires Wf(w) && userId in w.users && !StillReferenced(w, userId)
    ensures Wf(w')
    ensures w'.users == w.users - {userId}
    ensures w'.farmers.Keys == w.farmers.Keys - ProfilesOf(w, userId)
    ensures forall f :: f in w'.farmers ==> w'.farmers[f] == w.farmers[f]
    ensures w'.crops == w.crops && w'.orders == w.orders && w'.shipments == w.shipments
    ensures w'.logs == w.logs && w'.nextId == w.nextId
    ensures Total(w') == Total(w) - Held(w.users[userId])
  {
    var farmers := ProfilesKept(w, userId);
    RemoveKeepsWf(w, userId);
    SumRemove(w.users, userId, 0, w.nextId);
    w.(users := w.users - {userId}, farmers := farmers)
  }

  /** The farmer profiles that survive the user's deletion. */
  function ProfilesKept(w: World, userId: Id): (m: Table<FarmerProfile>)
    ensures m.Keys == w.farmers.Keys - ProfilesOf(w, userId)
    ensures forall f :: f in m ==> m[f] == w.farmers[f]
  {
    map f | f in w.farmers && f !in ProfilesOf(w, userId) :: w.farmers[f]
  }

  /** Deleting an unreferenced user together with its profiles keeps every foreign key resolved. */
  lemma RemoveKeepsWf(w: World, userId: Id)
    requires Wf(w) && userId in w.users && !StillReferenced(w, userId)
    ensures Wf(w.(users := w.users - {userId}, farmers := ProfilesKept(w, userId)))
  {
    var gone := ProfilesOf(w, userId);
    var w' := w.(users := w.users - {userId}, farmers := ProfilesKept(w, userId));
    assert FarmersOk(w'.farmers, w'.users.Keys, w'.nextId);
    assert CropsOk(w'.crops, w'.farmers.Keys, w'.nextId) by {
      forall c | c in w'.crops ensures w'.crops[c].farmerId in w'.farmers.Keys {
        assert w.crops[c].farmerId !in gone;
      }
    }
    assert OrdersOk(w'.orders, w'.users.Keys, w'.farmers.Keys, w'.crops.Keys, w'.nextId) by {
      forall o | o in w'.orders ensures OrderRefs(w'.orders[o], w'.users.Keys, w'.farmers.Keys, w'.crops.Keys) {
        assert w.orders[o].farmerId !in gone;
      }
    }
  }

  /** `deleteUser`: removes the account and, by cascade, its farmer profile;
      the delete fails while any crop, order or shipment still refers to them. */
  function DeleteUser(w: World, userId: Id): (r: Tx<()>)
    requires Wf(w)
    ensures r.result.Failure? ==> r.world == w
    ensures userId !in w.users ==> r.result == Failure(NotFound(UserRow))
    ensures userId in w.users && StillReferenced(w, userId) ==> r.result == Failure(IntegrityViolation)
    ensures r.result.Success? <==> userId in w.users && !StillReferenced(w, userId)
    ensures r.result.Success? ==>
              && userId !in r.world.users
              && r.world.users == w.users - {userId}
              && (forall f :: f in r.world.farmers <==> f in w.farmers && w.farmers[f].userId != userId)
              && r.world.orders == w.orders && r.world.crops == w.crops
              && Total(r.world) == Total(w) - Held(w.users[userId])
    ensures Wf(r.world)
  {
    if userId !in w.users then Fail(w, NotFound(UserRow))
    else if StillReferenced(w, userId) then Fail(w, IntegrityViolation)
    else Tx(Without(w, userId), Success(()))
  }
}

=== FILE: wrappers.dfy ===
/** Failure-compatible wrappers used by every service model: `Option` for Java's
    nullable references and `Result` for a call that either returns or throws. */
module Wrappers {

  datatype Option<+T> = None | Some(value: T) {
    predicate IsFailure() { None? }

    function PropagateFailure<U>(): Option<U>
      requires None?
    {
      None
    }

    function Extract(): T
      requires Some?
    {
      value
    }

    /** The value, or `default` when absent (Java's `x != null ? x : default`). */
    function GetOr(default: T): T
    {
      match this
      case Some(v) => v
      case None => default
    }
  }

  datatype Result<+T, +E> = Success(value: T) | Failure(error: E) {
    predicate IsFailure() { Failure? }

    function PropagateFailure<U>(): Result<U, E>
      requires Failure?
    {
      Failure(error)
    }

    function Extract(): T
      requires Success?
    {
      value
    }
  }
}
